=== FILE: README.md ===
# SimplePart and the TCLB driver pieces around it, in Dafny

TCLB is a lattice-Boltzmann solver. This project models the small programs
and handlers that couple it to particles, report its progress, and expose
its state to scripts:

- **simplepart**: a stand-alone particle integrator. It reads a
  `SimplePart` XML configuration: root attributes, then `Particle`, `Periodic`
  and `Log` elements. Every iteration runs three phases against the lattice
  workers:
  - phase 0 counts the periodic images of every sphere per worker;
  - phase 1 writes each image into its slot of the transfer buffer;
  - phase 2 sums the forces and moments found at those slots.

  It then optionally writes a CSV log row and advances each particle. A
  particle is either eased in with a cosine ramp, or moves freely under the
  exchanged force and a body acceleration.
- **main.cpp**:
  - the progress callback: the iteration tally, the 20-cell bar, the
    elapsed-time split and the next report interval;
  - the rewrite of deprecated `Params` elements into `Param` elements;
  - the searches for `Adjoint`, `Geometry` and `ArbitraryLattice`;
  - the lattice-type choice and the snapshot count.
- **The R handler (`cbRunR.cpp`)**: the line-buffered console writer, the
  `Parameters` object and the `Geometry` object. The `Geometry` object packs
  node-type groups into the bits of each node's flag word.
- **The Keep handler (`cbKeep.cpp`)**: it steers a global towards a
  threshold through a zone setting.
- **The text writer of `vtkLattice.cpp`**: space- and newline-separated
  fields. Also the choice of which node-type groups to write, as one byte per
  node.

Each component is one module:

| module | file | models |
|---|---|---|
| `Wrappers`, `Arith`, `Sums`, `Seqs`, `Particles` | wrappers.dfy, arith.dfy, sums.dfy, seqs.dfy, particles.dfy | results, division facts, prefix sums, concatenation facts, 3-vectors and the particle record |
| `AttrName` | attr_name.dfy | the split of an attribute name into stem and axis |
| `PartConfig` | part_config.dfy | loading the `SimplePart` configuration |
| `Images` | images.dfy | per-axis image ranges and their enumeration |
| `Coupling` | coupling.dfy | phases 0, 1 and 2 of the exchange |
| `Integrator` | integrator.dfy | the ramp, the free step and the start-up half step |
| `PartLog` | part_log.dfy | the CSV header, the rows and force averaging |
| `Progress` | progress.dfy | `MainCallback` |
| `ConfigTree` | config_tree.dfy | the `Params` rewrite, the searches, snapshots, lattice choice |
| `Console` | console.dfy | `CLB_WriteConsoleEx` |
| `Bits`, `GeometryFlags` | bits.dfy, geometry_flags.dfy | 32-bit flag words, `rGeometry` |
| `RParameters` | r_parameters.dfy | `rParameters` |
| `Keep` | keep.dfy | `cbKeep` |
| `TextWriter` | text_writer.dfy | `txtWriteField`, `txtWriteElement`, group fields |

Things outside the model become parameters:

- floating-point values are `real`;
- the cosine is a value in [-1, 1];
- attribute text conversions (`as_double`, `as_int`, `as_bool`) are fields
  or functions handed in;
- printed numbers are a `show` function whose text has no separator;
- the lattice workers' boxes and the forces they return are sequences.

Wherever the source works on 32-bit flag words, words are naturals below
2^32, and the C conversions are written out: `int` to unsigned wraps, and
the truncation to `unsigned char` is `% 256`.

## Model

| member | source | states |
|---|---|---|
| AttrName.AxisOf | src/simplepart.cpp:49-53 | the trailing letters x, y, z select components 0, 1, 2; every other letter selects none (-1) |
| AttrName.Parse | src/simplepart.cpp:46-62 | a name ending in an axis letter is its stem plus that axis, with non-vector part "="; any other name is kept whole as the non-vector part, with vector part "=" |
| AttrName.MatchesExactly | src/simplepart.cpp:64-66 | comparing a parsed name with a keyword succeeds exactly when the name has no axis suffix and equals the keyword |
| AttrName.StemRoundTrip | src/simplepart.cpp:46-62 | parsing a stem followed by an axis letter gives back that stem and that axis |
| PartConfig.Initial | src/simplepart.cpp:96-122 | before any attribute: solver time step, no particles, logging off with stride 1, file name from the `output` variable plus `_SP_Log.csv`; the state is valid |
| PartConfig.RootAttr | src/simplepart.cpp:161-177 | a root attribute is accepted exactly when it is dt, ax, ay, az or afreq, and it never touches particles, periodicity or logging |
| PartConfig.RootAttrs | src/simplepart.cpp:161-177 | the root element is accepted exactly when every attribute is one of the five names, and validity is kept |
| PartConfig.ComponentName | src/simplepart.cpp:183-190 | a stem followed by an axis letter is a component name of exactly one stem |
| PartConfig.NotComponent | src/simplepart.cpp:183-190 | a name not ending in an axis letter is no component name |
| PartConfig.KeywordsNotComponents | src/simplepart.cpp:191-198 | no keyword (r, m, log, ease-in) ends in an axis letter, so keyword and component dispatch never overlap |
| PartConfig.ParticleAttr | src/simplepart.cpp:183-202 | one Particle attribute: a bare axis sets that coordinate of x, `v`/`omega` plus an axis set that component of v0/omega0, `r`, `m`, `log` and `ease-in` set their field, any other name is an unknown-attribute error (acceptance is stated by ParticleAttrAccepts) |
| PartConfig.ParticleAttrAccepts | src/simplepart.cpp:183-202 | a Particle attribute is accepted exactly when it is one of the thirteen names x y z, vx vy vz, omegax omegay omegaz, r, m, log, ease-in |
| PartConfig.LoadParticle | src/simplepart.cpp:181-220 | an accepted particle has positive radius and the index given; with a ramp it starts at rest, otherwise at its target velocities |
| PartConfig.PeriodicAttr | src/simplepart.cpp:222-232 | a Periodic attribute keeps periods consistent with the periodic flags and touches neither particles nor logging |
| PartConfig.PeriodicAttrAccepts | src/simplepart.cpp:222-232 | a Periodic attribute is accepted exactly when it is x, y, z, px, py or pz |
| PartConfig.PeriodicAttrs | src/simplepart.cpp:221-233 | a whole Periodic element keeps the configuration valid and leaves particles and logging alone |
| PartConfig.LogAttr | src/simplepart.cpp:239-261 | a Log attribute is accepted exactly when it is name, Iterations (at least 1), average or rotation; logging is on after any attribute, even a rejected one |
| PartConfig.LogAttrs | src/simplepart.cpp:239-261 | the stride stays at least 1, and logging ends up on exactly when it was on or the element has an attribute |
| PartConfig.LoadLog | src/simplepart.cpp:234-265 | a Log element after logging was switched on is rejected; an accepted one enables logging exactly when it has attributes, and then a file name is known |
| PartConfig.LoadNode | src/simplepart.cpp:179-269 | a child other than Particle, Periodic or Log is rejected; a Particle appends exactly one particle, the others keep the particle list |
| PartConfig.LoadNodes | src/simplepart.cpp:179-270 | accepted children leave a valid configuration whose particle list is the old one extended by one particle per Particle element |
| PartConfig.LoadConfig | src/simplepart.cpp:156-270 | an accepted configuration is valid (indices 0..n-1, positive radii, stride at least 1, a file name when logging, zero period on non-periodic axes), and it has only known root attributes and children |
| Images.Members | src/simplepart.cpp:337-339 | a range's offsets are min, min+1, ... in order |
| Images.MembersExact | src/simplepart.cpp:337-339 | an offset is visited on an axis exactly when it lies between the range's bounds |
| Images.Floor | src/simplepart.cpp:323 | `floor` gives the integer n with n <= a < n + 1 |
| Images.Ceil | src/simplepart.cpp:324 | `ceil` gives the integer n with n - 1 < a <= n |
| Images.AxisRange | src/simplepart.cpp:314-334 | a non-periodic axis offers offset 0 exactly when the sphere touches the region (inclusive bounds), and no offset otherwise |
| Images.FloorBound | src/simplepart.cpp:323 | n is at most floor(b / prd) exactly when n prd <= b |
| Images.CeilBound | src/simplepart.cpp:324 | n is at least ceil(a / prd) exactly when a <= n prd |
| Images.PeriodicRangeExact | src/simplepart.cpp:322-324 | on a periodic axis with a positive period, offset d is in the range exactly when the centre shifted by d periods lies within r of [lower, upper] |
| Images.PeriodicExample | src/simplepart.cpp:322-324 | x = 0, r = 1, period 10 and box [8, 10] give the single offset 1 |
| Images.UndeclaredNonPeriodicAxis | src/simplepart.cpp:315-321 | with no declared box, a non-periodic axis uses [0, 0], so only spheres within r of the origin plane are exchanged |
| Images.Row | src/simplepart.cpp:339 | the innermost loop visits the z offsets in order, for fixed x and y |
| Images.Plane | src/simplepart.cpp:338-339 | the middle loop visits every (y, z) pair once for fixed x |
| Images.Product | src/simplepart.cpp:337-339 | the three loops visit every (x, y, z) combination, |xs| |ys| |zs| of them |
| Images.SortedConcat | src/simplepart.cpp:337-339 | two sorted runs, the first wholly below the second, make one sorted run |
| Images.PlaneSorted | src/simplepart.cpp:338-339 | the middle loop visits its pairs in strictly increasing order |
| Images.ProductSorted | src/simplepart.cpp:337-339 | the three loops visit their offsets in strictly increasing lexicographic order |
| Images.RangeProduct | src/simplepart.cpp:336-339 | the product of three ranges has the product of their lengths as size (the `copies` count), exactly the in-range offsets as members, and lexicographic order |
| Images.Offsets | src/simplepart.cpp:313-342 | the image offsets of one particle for one worker, in the order of the three nested loops; OffsetsSpec states which they are |
| Images.OffsetsSpec | src/simplepart.cpp:313-342 | a particle's images for a worker are exactly the offsets inside all three axis ranges, each visited once, x outermost, and there are none when any axis is empty |
| Images.ImagesReachRegion | src/simplepart.cpp:322-342 | every visited image reaches the worker's region: periodic axes (with a positive period) within r after translation, non-periodic axes untranslated and touching |
| Images.AxisReach | src/simplepart.cpp:322-333 | one axis of ImagesReachRegion, for a positive period on a periodic axis |
| Images.NegativePeriodMisses | src/simplepart.cpp:322-324 | with period -10, a sphere at 5 of radius 1 inside the box [0, 10] gets no offset at all, and with an undeclared box the one offset visited puts the centre outside the region |
| Sums.SumStep | src/simplepart.cpp:375 | adding the next size to `offset` extends the prefix sum by one element |
| Sums.SumMonotone | src/simplepart.cpp:375 | `offset` never decreases |
| Sums.BlockBelow | src/simplepart.cpp:346 | a slot inside worker i's block lies below the start of every later block |
| Sums.Locate | src/simplepart.cpp:346 | every position below the total lies in some block |
| Sums.BlocksDisjoint | src/simplepart.cpp:346 | two block positions that coincide are the same position |
| Sums.BlockInside | src/simplepart.cpp:346 | every block position lies below the total |
| Coupling.ImageTable | src/simplepart.cpp:313-342 | one row per worker box and one entry per particle, holding that pair's image offsets |
| Coupling.Counts | src/simplepart.cpp:343-344 | worker w's per-particle image counts, in particle order |
| Coupling.WSize | src/simplepart.cpp:343-380 | each worker's reported size is the total of its images over all particles |
| Coupling.BeforeStep | src/simplepart.cpp:370 | finishing particle p raises `windex[w]` by p's image count for w |
| Coupling.BeforeAll | src/simplepart.cpp:370-380 | after the last particle, `windex[w]` equals the size reported for w |
| Coupling.SlotInWorkerBlock | src/simplepart.cpp:346-375 | each image's slot lies in its worker's block, which starts at the sum of the earlier workers' sizes, and inside the buffer |
| Coupling.SlotInjective | src/simplepart.cpp:346 | distinct images never share a slot |
| Coupling.SlotSurjective | src/simplepart.cpp:346-382 | every slot of the allocated buffer belongs to some image |
| Coupling.CountImages | src/simplepart.cpp:294-344 | phase 0 leaves `wsize` equal to the per-worker image totals |
| Coupling.ImageWrites | src/simplepart.cpp:347-359 | the writes for one particle and worker, one per image in offset order |
| Coupling.ImageRecord | src/simplepart.cpp:347-358 | the record phase 1 writes for one image: the radius, the centre translated by the offset times the period, the velocity, and the angular velocity only when rotation is on (used by WorkerWritesExact and PhaseWritesExact) |
| Coupling.SendParticles | src/simplepart.cpp:297-375 | phase 1's writes are exactly the reference layout: particle by particle, worker by worker, image by image |
| Coupling.SendParticle | src/simplepart.cpp:312-376 | the worker loop for one particle appends its writes and advances every `windex` past the particle |
| Coupling.SendImages | src/simplepart.cpp:337-371 | the image loops for one particle and worker write at `offset + windex[w]` and advance only `windex[w]` |
| Coupling.WorkerWritesExact | src/simplepart.cpp:346-359 | every write for a particle is the record of one of its images at that image's slot, and every image is written |
| Coupling.PhaseWritesExact | src/simplepart.cpp:346-359 | every phase-1 write is a valid image record at its slot, and every image of every particle is written |
| Coupling.EverySlotWrittenOnce | src/simplepart.cpp:346-382 | phase 1 fills the allocated buffer exactly: the slots written are 0 .. total-1, and two writes to one slot are the same record |
| Coupling.ReceiveForces | src/simplepart.cpp:302-369 | phase 2 zeroes each particle's force and torque, then sets them to the sums of the buffer entries at its images' slots (torque only with rotation) |
| Coupling.ReceiveParticle | src/simplepart.cpp:303-376 | one particle's force is the sum over all workers of the entries at its slots, and its torque likewise (zero without rotation) |
| Coupling.ReceiveFromWorker | src/simplepart.cpp:337-371 | reading one worker's images adds exactly the entries at their slots to the running sums, and advances only that worker's `windex` |
| Coupling.SumRun | src/simplepart.cpp:360-369 | adding n consecutive buffer entries onto the running sums gives the sums extended by exactly those entries; the torque moves only with rotation on |
| Coupling.FetchSlice | src/simplepart.cpp:346-369 | a particle's images on one worker occupy consecutive slots, from the worker's offset plus that worker's running index on, so the entries phase 2 reads for them are one slice of the buffer |
| Coupling.GatherReadsWrites | src/simplepart.cpp:346-369 | phase 2 reads, in the same order, exactly the slots phase 1 wrote for the particle |
| Integrator.RampFactor | src/simplepart.cpp:412 | the ease-in factor (1 - cos(pi t / T)) / 2 lies in [0, 1] and is 0 at t = 0 |
| Integrator.BodyKick | src/simplepart.cpp:424 | the body term added to a free particle's velocity: the body acceleration times cos(2 pi t f) at the step's time t |
| Integrator.Step | src/simplepart.cpp:407-427 | one step accumulates the force into `favg`, moves the position by the new velocity times dt, only ever clears the ramp time, and keeps radius, mass, targets, force, torque, index and logging |
| Integrator.RampScalesTargets | src/simplepart.cpp:410-414 | while the ramp runs, velocity and angular velocity are the targets scaled by one common factor in [0, 1] (0 at iteration 0), and the ramp time is kept |
| Integrator.RampEnds | src/simplepart.cpp:415-419 | the first step at or past the ramp time sets the targets exactly and switches the ramp off |
| Integrator.FreeMotion | src/simplepart.cpp:420-425 | a free step never changes the angular velocity and keeps the ramp off; without positive mass the velocity gains the body term only |
| Integrator.FreeKick | src/simplepart.cpp:421-426 | without body acceleration, a free step is one kick f dt / m followed by the move |
| Integrator.Steps | src/simplepart.cpp:407-428 | n steps with the force held fixed keep the force and the mass |
| Integrator.RampOneWay | src/simplepart.cpp:410-418 | once the ramp is off it never restarts, and the angular velocity never changes again |
| Integrator.ScalarFall | src/simplepart.cpp:422-426 | one more kick and one more move extend the closed forms of velocity and position by one step |
| Integrator.ConstantForce | src/simplepart.cpp:420-426 | under a constant force with no body acceleration, n free steps give v + n a and x + dt (n v + n(n+1)/2 a), with a = f dt / m |
| Integrator.OneMoreStep | src/simplepart.cpp:420-426 | the inductive step of ConstantForce |
| Integrator.FallStep | src/simplepart.cpp:422-426 | the vector form of ScalarFall |
| Integrator.HalfStepBack | src/simplepart.cpp:288-290 | start-up moves every velocity back by half the body acceleration and changes nothing else |
| Integrator.FirstStepHalfKick | src/simplepart.cpp:288-290 | a free particle at rest with no force ends the first step moving at half the body acceleration |
| PartLog.Decimal | src/simplepart.cpp:280-284 | a particle index is printed as decimal digits, with a leading 0 only for 0 |
| PartLog.DecimalRoundTrip | src/simplepart.cpp:280-284 | reading the printed index back gives the index, so distinct particles get distinct column names |
| PartLog.TriplesFor | src/simplepart.cpp:280-284 | each logged quantity contributes three columns |
| PartLog.Header | src/simplepart.cpp:277-286 | the CSV header: Iteration, Time, then three columns per logged quantity of each logged particle |
| PartLog.Row | src/simplepart.cpp:390-405 | one CSV row: the iteration and its time, then three values per logged quantity of each logged particle, the force averaged over the stride when averaging is on |
| PartLog.RowMatchesHeader | src/simplepart.cpp:277-406 | every row has exactly as many cells as the header has columns: 2 plus 9 per logged particle, or 15 with rotation |
| PartLog.TailsMatch | src/simplepart.cpp:278-404 | the per-particle parts of header and row have the same length |
| PartLog.AfterRow | src/simplepart.cpp:395-397 | after a row with averaging on, the logged particles' force sums restart at zero |
| PartLog.RowCountIsCeiling | src/simplepart.cpp:389 | n iterations write ceil(n / stride) rows |
| PartLog.CeilingStep | src/simplepart.cpp:389 | one more iteration raises the row count exactly when it writes a row |
| PartLog.ForceColumn | src/simplepart.cpp:389-409 | over a run with forces fs, the logged force column has ceil(|fs| / stride) entries; entry k is the force at iteration k stride, or with averaging the sum since the previous row divided by the stride |
| PartLog.LoggedStart | src/simplepart.cpp:389-409 | the logging invariant holds before the first iteration |
| PartLog.LoggedEnd | src/simplepart.cpp:389-409 | the logging invariant at the end gives ForceColumn's contract |
| PartLog.Iteration | src/simplepart.cpp:389-409 | one iteration (a row when the stride divides it, then accumulation) keeps the logging invariant |
| PartLog.AtRow | src/simplepart.cpp:389-397 | at an iteration that writes a row, the row count steps up and the averaging window restarts there |
| PartLog.BetweenRows | src/simplepart.cpp:389 | at any other iteration, the row count and the window start stay |
| Progress.BarOf | src/main.cpp:166-173 | the bar has 22 characters: brackets around 20 cells |
| Progress.Bar | src/main.cpp:166-173 | drawing the bar character by character gives the bar |
| Progress.MarkedBelow | src/main.cpp:170 | cell i is filled exactly when i <= 20 tot / seg (integer division) |
| Progress.BarShape | src/main.cpp:166-173 | the bar is `[`, then a run of `=`, then a run of spaces, then `]`; the fill is min(20, 20 tot / seg) |
| Progress.BarMonotone | src/main.cpp:170 | more iterations never empty a filled cell |
| Progress.BarFullAtEnd | src/main.cpp:170-174 | at the last segment every cell is filled |
| Progress.SplitTime | src/main.cpp:151-164 | the split is canonical: seconds below a minute, minutes and seconds below an hour, hours and minutes above, with every lower unit below 60 |
| Progress.SplitTimeShows | src/main.cpp:151-164 | below an hour the shown units add up to the seconds; from an hour on only the seconds are dropped |
| Progress.SplitTimeUnique | src/main.cpp:151-164 | below an hour the split is the only canonical form that shows the seconds |
| Progress.RoundSteps | src/main.cpp:185-187 | the next report interval is even, at least 1, and not below the estimate |
| Progress.RoundStepsLeast | src/main.cpp:185-187 | no even positive count at or above the estimate is smaller |
| Progress.Tally | src/main.cpp:108-112 | the counter grows by the distance covered since the last call; after a restart of the total (it fell) it grows by the whole total |
| Progress.TallyTelescopes | src/main.cpp:108-112 | over calls with non-decreasing totals, the counter grows by the last total minus the starting one |
| Progress.Callback | src/main.cpp:101-195 | -1 exactly when fewer iterations than the interval were counted and this is not the last segment; -2 exactly when it is due but nothing was counted; a report resets the counter, returns the rounded interval, and draws the bar; a final report clears the cumulative time |
| Progress.CallbackCodes | src/main.cpp:113-194 | from a sane state: the interval stays positive, -2 only happens at the last segment, and every code is -1, -2 or an even number of at least 2 |
| Progress.StartSane | src/main.cpp:108-114 | the static state starts sane with nothing counted |
| ConfigTree.Lookup | src/main.cpp:463-465 | an attribute lookup returns the value of an attribute with the name that no earlier attribute shares, and nothing exactly when no attribute has the name |
| ConfigTree.FirstDash | src/main.cpp:327 | `find_first_of('-')` finds the first dash, and nothing exactly when there is none |
| ConfigTree.SplitName | src/main.cpp:325-333 | the parameter part has no dash; with a dash, parameter, dash and zone rejoin to the name; without one the zone is empty |
| ConfigTree.DashAfter | src/main.cpp:327 | in a dash-free parameter joined to a zone, the first dash is the joining one |
| ConfigTree.SplitJoin | src/main.cpp:325-333 | a dash-free parameter and any zone come back from the split of their joined name |
| ConfigTree.Others | src/main.cpp:324 | the attributes turned into parameters are exactly those not called `gauge` |
| ConfigTree.Expand | src/main.cpp:318-340 | a Params element becomes one Param element per non-gauge attribute, in attribute order, all with the same gauge |
| ConfigTree.ParamNamed | src/main.cpp:334-337 | a Param element has no children and carries the split name and the value |
| ConfigTree.ParamZone | src/main.cpp:338 | the zone attribute is present exactly when the split found a non-empty zone |
| ConfigTree.ParamGauge | src/main.cpp:321-339 | the gauge attribute is present exactly when the Params element had a non-empty gauge |
| ConfigTree.ParamRejoins | src/main.cpp:325-339 | the original attribute can be rebuilt from its Param element (name, zone, value), unless the name's first dash is its last character |
| ConfigTree.LookupPast | src/main.cpp:336-339 | a lookup skips attributes with other names |
| ConfigTree.RewriteAll | src/main.cpp:314-342 | the forest after the rewrite: each Params element replaced by its Param elements, every other element kept with its children rewritten |
| ConfigTree.RewriteRemovesParams | src/main.cpp:314-342 | after the rewrite no Params element is left at any depth |
| ConfigTree.RewriteOneRemovesParams | src/main.cpp:314-342 | the same, for one element |
| ConfigTree.NoParamsConcat | src/main.cpp:314 | two forests without Params make one without |
| ConfigTree.RewriteKeepsClean | src/main.cpp:314-315 | a forest without Params elements is left exactly as it was |
| ConfigTree.Rewrite | src/main.cpp:312-344 | the rewritten document has no Params element below the root, and the root keeps its name |
| ConfigTree.RewriteIdempotent | src/main.cpp:312-344 | a second rewrite changes nothing; a document changes exactly when it holds Params elements, and then the root is marked permissive |
| ConfigTree.FirstMatch | src/main.cpp:198-221 | the first element of a sequence that passes a search predicate: it matches, and no element before it does; nothing exactly when none matches |
| ConfigTree.FirstMatchConcat | src/main.cpp:198-221 | the first match in two sequences joined is the first part's match when it has one, otherwise the second part's |
| ConfigTree.Find | src/main.cpp:198-221 | `find_node` returns the first matching element in document order (each element before its descendants, descendants before later siblings), and nothing when no element matches |
| ConfigTree.FindBelow | src/main.cpp:198-221 | the search below one element returns the first match among its descendants in document order |
| ConfigTree.FindComplete | src/main.cpp:198-221 | a search finds something exactly when some element at some depth matches |
| ConfigTree.Matches | src/main.cpp:198-221 | the three search predicates: an Adjoint element whose type is not "steady", a Geometry element, an ArbitraryLattice element (stated against the attribute lookup by AdjointMatches) |
| ConfigTree.AdjointMatches | src/main.cpp:198-207 | an Adjoint element is selected exactly when its `type` attribute is not "steady", so one without a `type` attribute is selected |
| ConfigTree.SteadyAdjointSkipped | src/main.cpp:200-202 | an Adjoint element of type "steady" is never selected |
| ConfigTree.Snaps | src/main.cpp:445-469 | two snapshots without an unsteady adjoint, ten when it does not say, otherwise its count raised to at least two |
| ConfigTree.SnapsOfDocument | src/main.cpp:459-469 | a document gets more than two snapshots only when it holds an unsteady adjoint |
| ConfigTree.SelectLatticeAsWritten | src/main.cpp:431-442 | both elements present is the only error; the lattice is arbitrary exactly when only ArbitraryLattice is present |
| ConfigTree.MissingLatticeContinues | src/main.cpp:434-451 | with neither element the written choice goes on with a Cartesian lattice |
| ConfigTree.SelectLattice | src/main.cpp:431-442 | corrected choice: both present and neither present are errors; otherwise the lattice is the one whose element is present |
| ConfigTree.SelectLatticeAgrees | src/main.cpp:431-442 | where the corrected choice succeeds, it agrees with the written one |
| ConfigTree.LatticeAsWrittenOf | src/main.cpp:423-442 | the code's lattice choice for a document, from the searches for Geometry and ArbitraryLattice |
| ConfigTree.LatticeAsWrittenOfDocument | src/main.cpp:423-442 | as written: an error exactly when both elements are present; Cartesian exactly when no ArbitraryLattice element is present, even when Geometry is missing too; the missing-element diagnostic exactly when neither is present |
| ConfigTree.LatticeOf | src/main.cpp:423-442 | corrected: the lattice choice for a document in which a missing Geometry and ArbitraryLattice is an error |
| ConfigTree.LatticeOfDocument | src/main.cpp:429-442 | corrected: Cartesian exactly when a Geometry element and no ArbitraryLattice element are found, arbitrary in the mirror case, the both-present error when both are, and the missing error when neither is |
| ConfigTree.CartesianSize | src/main.cpp:451 | every flat position below nx ny nz is the position of exactly one node of the nx by ny by nz lattice, and every node's position lies below it |
| Console.ChannelOf | src/Handlers/cbRunR.cpp:564-572 | type 0 goes to output, type 1 to the error channel, every other type to notices with its code |
| Console.Text | src/Handlers/cbRunR.cpp:587 | only the characters before the first NUL are consumed; the length argument is not consulted |
| Console.Strip | src/Handlers/cbRunR.cpp:590-593 | newlines never reach a line's text |
| Console.ConcatAppend | src/Handlers/cbRunR.cpp:587-602 | the text of two batches of lines is the text of the first followed by the second |
| Console.StripPending | src/Handlers/cbRunR.cpp:576-577 | a pending buffer has no newline to drop |
| Console.Feed | src/Handlers/cbRunR.cpp:588-601 | one character of the message against the line buffer; FeedSpec states what it emits and keeps |
| Console.FeedSpec | src/Handlers/cbRunR.cpp:588-601 | one character keeps the buffer shorter than a full line; a newline emits the buffer, and the 3999th character emits the full buffer; nothing but the newline is lost |
| Console.FeedAllSpec | src/Handlers/cbRunR.cpp:587-602 | a text keeps the buffer pending and emits well-formed lines on the call's channel; the emitted texts followed by the buffer spell the old buffer and the text without newlines |
| Console.FeedAllWellFormed | src/Handlers/cbRunR.cpp:587-602 | the well-formedness half of FeedAllSpec |
| Console.FeedAllConserves | src/Handlers/cbRunR.cpp:587-602 | the conservation half of FeedAllSpec |
| Console.Write | src/Handlers/cbRunR.cpp:574-603 | as written: a call flushes a pending line when the type changes, then feeds the message, every line tagged with the call's channel |
| Console.WriteFixed | src/Handlers/cbRunR.cpp:574-603 | corrected: the same call, with the flushed line tagged with the channel of the type it was written under |
| Console.WriteSpec | src/Handlers/cbRunR.cpp:574-603 | a call keeps the buffer pending, records its type, emits well-formed lines, and loses only newlines and what follows the NUL |
| Console.FlushSpec | src/Handlers/cbRunR.cpp:579-585 | a change of type with a pending line flushes it first and still loses nothing |
| Console.WriteTagsNewType | src/Handlers/cbRunR.cpp:579-598 | as written, every line of a call, the flushed one included, goes to the call's channel |
| Console.FlushMislabelled | src/Handlers/cbRunR.cpp:579-585 | "abc" pending from a type-0 call is emitted on the error channel by a type-1 call; the corrected writer emits it on output |
| Console.WriteFixedTags | src/Handlers/cbRunR.cpp:579-598 | corrected: a flushed line keeps the type it was written with, and every other line has the call's type |
| Console.NoEmptyFlush | src/Handlers/cbRunR.cpp:580 | with nothing pending, a change of type emits no extra line, and the two writers agree |
| Console.WriteConsoleEx | src/Handlers/cbRunR.cpp:574-603 | the call as a loop over the message; it keeps the buffer pending and emits only well-formed lines |
| Bits.AndBound | src/Handlers/cbRunR.cpp:370 | `a & b`, computed bit by bit, is at most either operand |
| Bits.Clear | src/Handlers/cbRunR.cpp:370 | `n - (n & f)` is at most n |
| Bits.AndAddApart | src/Handlers/cbRunR.cpp:370 | a sum of two words with no common bit carries nowhere, so AND distributes over it |
| Bits.ClearApart | src/Handlers/cbRunR.cpp:370 | after clearing f, no bit of f is left |
| Bits.ClearKeeps | src/Handlers/cbRunR.cpp:370 | clearing f leaves the bits of any mask disjoint from f |
| Bits.ClearThenAdd | src/Handlers/cbRunR.cpp:370 | clearing f and adding a value inside f cannot wrap; the field then reads back the value, and clearing again gives the cleared word |
| Bits.ClearThenAddKeeps | src/Handlers/cbRunR.cpp:370 | clearing f and adding a value inside f keeps every bit outside f |
| GeometryFlags.Decode | src/Handlers/cbRunR.cpp:431 | a node's group value as the script sees it: the word's bits under the group's flag, shifted down, plus one |
| GeometryFlags.AssignWord | src/Handlers/cbRunR.cpp:370 | one node's update: the group's bits cleared and the one-based value, made zero-based and shifted into place, added, wrapping at 2^32 |
| GeometryFlags.AssignNoWrap | src/Handlers/cbRunR.cpp:370 | when the value fits, the update is a plain sum of the cleared word and the placed value, and the group's bits hold the placed value |
| GeometryFlags.AssignKeepsOutside | src/Handlers/cbRunR.cpp:370 | when the value fits, no bit outside the group changes |
| GeometryFlags.AssignDecodes | src/Handlers/cbRunR.cpp:370 | assigning a fitting value and reading the group gives the value back |
| GeometryFlags.AssignKeepsOtherGroup | src/Handlers/cbRunR.cpp:370 | a group disjoint from the assigned one reads the same afterwards |
| GeometryFlags.PassWrites | src/Handlers/cbRunR.cpp:370 | where the pass writes a fitting value, the word decodes to it and keeps every other bit |
| GeometryFlags.AssignPass | src/Handlers/cbRunR.cpp:365-372 | one group's pass over the node words: an NA entry keeps its word, any other entry is assigned to the group (what a pass writes is stated by PassWrites and PassSkipsNa) |
| GeometryFlags.PassSkipsNa | src/Handlers/cbRunR.cpp:367-368 | an NA entry leaves its word untouched |
| GeometryFlags.Find | src/Handlers/cbRunR.cpp:421-425 | the by-name lookup returns the first group with the name, and nothing exactly when no group has it |
| GeometryFlags.AssignAllGroups | src/Handlers/cbRunR.cpp:357-381 | as written: one pass per node-type group, each writing the values into that group whatever name was given, reporting the groups that met NA entries; the lattice keeps its size |
| GeometryFlags.AssignAllGroupsWritesEvery | src/Handlers/cbRunR.cpp:364-376 | as written, with disjoint groups and a value fitting all of them, every group ends up holding the value, whatever name was given |
| GeometryFlags.AssignAllGroupsClobbers | src/Handlers/cbRunR.cpp:357-381 | assigning 2 to group "a" of one node also changes group "b" from 1 to 2 |
| GeometryFlags.AssignGroup | src/Handlers/cbRunR.cpp:357-381 | corrected: an unknown name is an error, as when reading; otherwise the lattice keeps its size |
| GeometryFlags.AssignGroupSpec | src/Handlers/cbRunR.cpp:366-372 | corrected: only the named group is written where the value fits; NA entries and every disjoint group are kept |
| GeometryFlags.IndexCell | src/Handlers/cbRunR.cpp:403-416 | each cell of the region gets its own flat position below the size, and the position leads back to the cell |
| GeometryFlags.CellIndex | src/Handlers/cbRunR.cpp:403-416 | every flat position below the size belongs to a cell |
| GeometryFlags.PositionsOf | src/Handlers/cbRunR.cpp:395-418 | the coordinate array has one entry per cell, and a cell's entry is (offset + coordinate + 0.5) times the unit |
| GeometryFlags.Positions | src/Handlers/cbRunR.cpp:403-416 | the z, y, x loops fill exactly that array |
| GeometryFlags.PositionsPlane | src/Handlers/cbRunR.cpp:404-416 | one z plane of the loops fills the next plane's entries |
| GeometryFlags.PositionsRow | src/Handlers/cbRunR.cpp:405-416 | one row of the loops fills the next row's entries |
| GeometryFlags.FilledSnoc | src/Handlers/cbRunR.cpp:413-415 | appending the next cell's position keeps the array correct |
| GeometryFlags.RowEnd | src/Handlers/cbRunR.cpp:405-406 | the end of a row is the start of the next |
| GeometryFlags.PlaneEnd | src/Handlers/cbRunR.cpp:404-405 | the end of a plane is the start of the next |
| GeometryFlags.LatticeEnd | src/Handlers/cbRunR.cpp:401-404 | the end of the last plane is the region's size |
| GeometryFlags.LevelsExact | src/Handlers/cbRunR.cpp:433-438 | a name is a factor level exactly when some node type inside the group carries it |
| GeometryFlags.Names | src/Handlers/cbRunR.cpp:445-459 | the eight fixed names come first, then every group name in order |
| GeometryFlags.Read | src/Handlers/cbRunR.cpp:383-444 | reading a field by name: the offsets, the size, the extent, a coordinate array, or a group's decoded values with its levels; any other name is an error |
| GeometryFlags.ReadShapes | src/Handlers/cbRunR.cpp:383-444 | `dim` gives three extents whose product is `size`; each coordinate array has one entry per node; a group reply has one code per flag word, that word's group value |
| GeometryFlags.ReadKnowsNames | src/Handlers/cbRunR.cpp:383-444 | reading succeeds exactly for the listed names |
| GeometryFlags.AssignThenRead | src/Handlers/cbRunR.cpp:357-443 | corrected assignment followed by reading the group gives back the assigned values |
| RParameters.KindOf | src/Handlers/cbRunR.cpp:162-181 | each recognised name selects the vector read under that name |
| RParameters.Read | src/Handlers/cbRunR.cpp:159-183 | a successful read has one entry per parameter |
| RParameters.Assign | src/Handlers/cbRunR.cpp:185-199 | a successful write keeps the store well-formed |
| RParameters.ReadKnowsNames | src/Handlers/cbRunR.cpp:159-211 | reading succeeds exactly for the eight listed names, and they are distinct |
| RParameters.ReadByName | src/Handlers/cbRunR.cpp:162-177 | each listed name reads its own vector |
| RParameters.AssignErrors | src/Handlers/cbRunR.cpp:185-199 | a wrong length is rejected before the name is looked at; only `Values` can be written |
| RParameters.AssignThenRead | src/Handlers/cbRunR.cpp:185-199 | writing `Values` and reading it back gives the values; every other vector is unchanged |
| Keep.Threshold | src/Handlers/cbKeep.cpp:21-33 | Above wins over Below, Below over Equal; no threshold exactly when none of the three is given |
| Keep.Init | src/Handlers/cbKeep.cpp:5-42 | a missing What is an error, then an unknown global, then a missing threshold; on success the handler watches the named global, uses the chosen threshold and the force (1 by default), adds the last-global flag, and remembers the old iteration type |
| Keep.Correction | src/Handlers/cbKeep.cpp:47-62 | the correction is zero or (thr - value) force; Below never pushes up, Above never pushes down |
| Keep.CorrectsWrongSide | src/Handlers/cbKeep.cpp:51-62 | with a positive force, Above corrects exactly below the threshold, Below exactly above it, Equal whenever off it, and every correction points towards the threshold |
| Keep.CorrectionProjects | src/Handlers/cbKeep.cpp:51-62 | each mode is the projection of the full correction onto its side |
| Keep.KeepSteers | src/Handlers/cbKeep.cpp:5-67 | a started handler writes to the named global's zone setting in every zone; with a positive force it writes something exactly when the global is on the wrong side of the threshold, and pushes it towards the threshold |
| Keep.DoIt | src/Handlers/cbKeep.cpp:45-67 | one iteration writes the correction computed from the global to the global's zone setting in every zone (-1) |
| Keep.Finish | src/Handlers/cbKeep.cpp:70-73 | stopping puts back the iteration type saved at start |
| Keep.InitFinishRestores | src/Handlers/cbKeep.cpp:39-71 | while running, the iteration type is the old one plus the last-global flag; starting and then stopping restores it exactly, even if the flag was already set |
| TextWriter.Sep | src/vtkLattice.cpp:92 | every element is followed by a newline or a space |
| TextWriter.WriteField | src/vtkLattice.cpp:88-95 | the loop writes exactly the field: each element, then its separator |
| TextWriter.CountAppend | src/vtkLattice.cpp:90-93 | counting separators splits over concatenation |
| TextWriter.CountNoSep | src/vtkLattice.cpp:78-79 | a printed number contains no separator |
| TextWriter.RowStep | src/vtkLattice.cpp:92 | element i ends a row exactly when the number of completed rows steps up after it |
| TextWriter.FieldNewlines | src/vtkLattice.cpp:88-95 | the newlines of a field are the rows it completes, and every other separator is a space |
| TextWriter.FieldLayout | src/vtkLattice.cpp:88-95 | a field of n elements has n separators, n / stop of them newlines (one per row of nx) |
| TextWriter.TokensCons | src/vtkLattice.cpp:91-92 | a printed element followed by its separator comes off the front as one token |
| TextWriter.FieldTokens | src/vtkLattice.cpp:88-95 | splitting a field at its separators gives the printed elements, in order |
| TextWriter.VectorTokens | src/vtkLattice.cpp:80-92 | a vector element and its separator read back as its three components |
| TextWriter.GroupByte | src/vtkLattice.cpp:32 | the byte written for a node is below 256 |
| TextWriter.GroupByteDecodes | src/vtkLattice.cpp:32 | the byte is the scripting interface's one-based group value, made zero-based and cut to a byte |
| TextWriter.AssignThenByte | src/vtkLattice.cpp:32 | after assigning a fitting value v of at most 256 to a group, its byte is v - 1 |
| TextWriter.GroupField | src/vtkLattice.cpp:31-33 | one byte per node, each that node's group byte |
| TextWriter.NodeFields | src/vtkLattice.cpp:25-36 | the raw flag field comes first exactly when "flag" is named explicitly, and every other field is a selected group's bytes |
| TextWriter.GroupFields | src/vtkLattice.cpp:29-36 | every group field written belongs to a selected group |
| TextWriter.GroupFieldsComplete | src/vtkLattice.cpp:29-36 | every selected group is written |
| TextWriter.DefaultRequest | src/vtkLattice.cpp:25-36 | without explicit names, no raw flags are written, and every group saved by default is |

## Left out

- Transport (MPI, the remote-force interface, `SendSizes`, `SendParticles`, `SendForces`, `Alloc`): the three phases are modelled through the image table, the writes they make, and the buffer they read.
- The single-rank check, the command line, the file and content loading and the XML parser: the configuration is modelled from the parsed attribute list.
- Opening the log file and the printf formats (`%2$ld`, `%.15lg`, `%.8g`, `%.16lg`): numbers are text handed in as `show`; indices use the decimal spelling that `%ld` gives.
- Floating point: `double` and `float` are `real`. `cos` is a parameter in [-1, 1]. `floor`/`ceil` are exact.
- Integrator.FreeMotion: the argument 2 t f of the body term is computed from the step's time and the frequency, but the cosine itself is the parameter `cos` (a function known only to stay in [-1, 1] and to give 1 at 0), so no statement depends on its actual values.
- `periodic_origin` (the `px`, `py`, `pz` attributes) is read and kept, but it is never used by the source.
- The mass-zero and body-acceleration terms follow the code. A particle with mass 0 still gets the body term and moves. The body term has no dt factor.
- The `Log` element follows the code. Logging is switched on inside the attribute loop, so an empty `<Log/>` does not enable logging and does not block a later `Log` element.
- `v0` and `omega0` are not initialised by the `Particle` constructor. The model starts them at zero.
- Progress.Callback: the GPU event timer, the `MLBUps`/`GB/s` line, `desired_fps` and the `ups` estimate are parameters. The elapsed time and the desired step count are inputs. The conversion of `ups` to `int` is not modelled.
- Progress.Callback: `steps++` can overflow at `INT_MAX`; this is not modelled. The steps broadcast to other ranks, `EventLoop` and terminal/`\r` handling are left out.
- The `begin` flag of `MainCallback` is never read; it is not modelled.
- Images.AxisRange: requires a non-zero period on a periodic axis, and Images.AxisRangeOf, Images.Offsets, Images.OffsetsSpec, Images.ImagesReachRegion and Coupling.ImageTable require it of every periodic axis (`DomainOk`). The source accepts any `Periodic` value, zero included (src/simplepart.cpp:224-226), and then divides by it (src/simplepart.cpp:323-324). PartConfig.LoadConfig does not reject such a configuration; what the exchange does with the resulting infinite or undefined range is not modelled.
- Images.PeriodicRangeExact: holds only for a positive period, and so do Images.ImagesReachRegion and Images.AxisReach. The source also accepts a negative `Periodic` value (src/simplepart.cpp:224-226) and divides by it (src/simplepart.cpp:323-324), and PartConfig.LoadConfig accepts it. The range is then not the set of reaching offsets: with period -10, a sphere at 5 of radius 1 inside the box [0, 10] gets the empty range, and with an undeclared box the only offset visited, 1, moves the centre to -5, outside the region [0, -10] widened by r. Images.NegativePeriodMisses states this example.
- GeometryFlags.AssignPass: requires at least one value per node, and so do GeometryFlags.AssignAllGroups and GeometryFlags.AssignGroup. The source reads `v[i]` for every node without checking the length of the vector handed in (src/Handlers/cbRunR.cpp:366-370); a shorter vector is read out of bounds, which the model does not describe.
- ConfigTree.RewriteAll: a Params element nested inside another Params element is dropped with its parent. The source removes the outer element (src/main.cpp:341) and then still visits the inner one from the node set it selected before the loop, which is a use of a freed node; that is not modelled.
- ConfigTree.ParamRejoins: excludes names whose first dash is their last character. Such a name splits to an empty zone, so the dash cannot be recovered.
- ConfigTree: comment deletion, `xpath_modify`, GPU selection, units conversion (`myround`, `units.alt`) and `readConnectivityDim` are outside the model.
- ConfigTree.CartesianSize: the `int` overflow of `nx * ny * nz` is not modelled.
- ConfigTree.Snaps: `as_int` is a function handed in.
- Keep.DoIt: the broadcast of the double `s` as `MPI_INT` to other ranks is a foreign call. The model gives the value rank 0 computes. The base class `Callback::Init`, `DoIt` and `Finish` are left out.
- Keep: attribute text conversion (`as_double`) is done before the model sees the node.
- Console: the `R: ` prefix and the output/error/notice functions are left out. Channels stand for them.
- GeometryFlags: the flag word is taken to be 32 bits wide (`big_flag_t`). The signed `int` decoding of a group value whose top bit is set is not modelled.
- TextWriter: the VTK writer reads the words as `flag_t` (src/vtkLattice.cpp:23), which may be narrower than `big_flag_t`; TextWriter.GroupByte and the lemmas over it take the same 32-bit words as GeometryFlags, so a group whose bits lie above a narrower `flag_t` is not modelled.
- GeometryFlags: the model's group and node-type tables are inputs, given once per session. `FlagOverwrite`/`GetFlags` are the identity on the word sequence. `size` is the product of the extents, as `reg.size()` is taken to be.
- RParameters: the parameter handler is modelled as a table of eight vectors of equal length. The source only forwards `PAR_SET` and `PAR_GET` to the handler (src/Handlers/cbRunR.cpp:185-199); that a read after a write returns what was written, as RParameters.AssignThenRead states, is an assumption about the handler, not something the scripting layer guarantees.
- TextWriter: only the text field writer and the node-type part of the VTK writer are modelled. The VTK file format and the quantity loop are left out.
- `src/cross.hpp` and `src/Handlers/acGeometry.cpp` are not part of this model.

## Findings

| source | as written | input that shows it | evidently intended | confidence | as-written member | corrected member |
|---|---|---|---|---|---|---|
| src/Handlers/cbRunR.cpp:579-585 | a pending line is flushed with the NEW call's type | "abc" left pending by a type-0 call, then a type-1 call with "x": "abc" is printed as an error | flush the pending line with the type it was written under (`oldType`) | not executed; high | Console.FlushMislabelled | Console.WriteFixedTags |
| src/Handlers/cbRunR.cpp:357-381 | `DollarAssign(name, v)` never reads `name`; it writes `v` into every node-type group | groups a (flag 1, shift 0) and b (flag 2, shift 1), one node with word 0, assign 2 to "a": "b" reads 2 instead of 1 | write only the group called `name`, and report an unknown name as reading does | not executed; high | GeometryFlags.AssignAllGroupsClobbers | GeometryFlags.AssignGroupSpec |
| src/main.cpp:434-436 | with neither a Geometry nor an ArbitraryLattice element, the error is printed but start-up goes on with a Cartesian lattice and reads attributes of an empty node | a configuration with neither element | stop with an error, as when both are present | not executed; medium | ConfigTree.MissingLatticeContinues | ConfigTree.SelectLatticeAgrees |

=== FILE: arith.dfy ===
/** Integer division facts shared by the index and counting arguments. */
module Arith {

  /** Euclidean division is determined by any quotient/remainder pair that fits. */
  lemma DivUnique(x: int, s: int, q: int, m: int)
    requires s > 0 && x == q * s + m && 0 <= m < s
    ensures x / s == q && x % s == m
  {
    var d := x / s - q;
    assert d * s == m - x % s;
    MulBound(d, s);
  }

  lemma MulBound(d: int, s: int)
    requires s > 0
    ensures d == 0 || d * s >= s || d * s <= -s
  {
  }

  lemma MulMono(c: nat, a: nat, b: nat)
    requires a <= b
    ensures c * a <= c * b
  {
  }

  /** A quotient by d of something below d * m is below m. */
  lemma DivBelow(i: nat, d: nat, m: nat)
    requires d > 0 && i < d * m
    ensures i / d < m
  {
    var q := i / d;
    assert d * q <= i;
    MulBound(q - m, d);
    assert (q - m) * d == d * q - d * m;
  }
}

=== FILE: attr_name.dfy ===
/**
 * Splitting of configuration attribute names on their last character: a name
 * ending in x, y or z addresses one component of a vector quantity.
 */
module AttrName {

  /** The axis letters, indexed by component. */
  const Axes: string := "xyz"

  /**
   * A parsed attribute name. For a component name `vector` is its stem, `d`
   * the component and `nonVector` the placeholder "="; for any other name
   * `nonVector` is the name itself, `vector` is "=" and `d` is -1.
   */
  datatype AttrName = AttrName(vector: string, nonVector: string, d: int)

  /** Component of an axis letter, -1 for any other character. */
  function AxisOf(c: char): (d: int)
    ensures -1 <= d < 3
    ensures d >= 0 <==> c in Axes
    ensures d >= 0 ==> Axes[d] == c
  {
    if c == 'x' then 0 else if c == 'y' then 1 else if c == 'z' then 2 else -1
  }

  /** Parses a (non-empty, as XML attribute names are) name. */
  function Parse(name: string): (a: AttrName)
    requires |name| > 0
    ensures 0 <= a.d < 3 <==> name[|name| - 1] in Axes
    ensures a.d != -1 ==> 0 <= a.d < 3 && a.vector + [Axes[a.d]] == name && a.nonVector == "="
    ensures a.d == -1 ==> a.nonVector == name && a.vector == "="
  {
    var d := AxisOf(name[|name| - 1]);
    if d >= 0 then AttrName(name[..|name| - 1], "=", d) else AttrName("=", name, -1)
  }

  /** The comparison `attr_name == s`: only the non-vector part is compared. */
  predicate Matches(a: AttrName, s: string)
  {
    a.nonVector == s
  }

  /**
   * A plain keyword other than "=" never matches a name ending in an axis
   * letter, and it matches any other name exactly when the two are equal.
   */
  lemma MatchesExactly(name: string, s: string)
    requires |name| > 0 && s != "="
    ensures Matches(Parse(name), s) <==> name[|name| - 1] !in Axes && name == s
  {
  }

  /** The stem of a component name recovers the name when the axis is put back. */
  lemma StemRoundTrip(stem: string, d: nat)
    requires d < 3
    ensures Parse(stem + [Axes[d]]) == AttrName(stem, "=", d)
  {
    var name := stem + [Axes[d]];
    assert name[..|name| - 1] == stem;
  }
}

=== FILE: bits.dfy ===
/**
 * Unsigned machine words as natural numbers, with the bitwise AND the flag
 * code relies on defined bit by bit. Everything else (clearing, testing for
 * containment or disjointness) is expressed through it.
 */
module Bits {

  /** 2^32: the words of this model are 32 bits wide. */
  const Modulus: nat := 0x1_0000_0000

  type Word = n: nat | n < Modulus

  function Pow2(k: nat): (p: nat)
    ensures p >= 1
  {
    if k == 0 then 1 else 2 * Pow2(k - 1)
  }

  lemma {:induction false} Pow2Add(a: nat, b: nat)
    ensures Pow2(a + b) == Pow2(a) * Pow2(b)
    decreases a
  {
    if a != 0 {
      Pow2Add(a - 1, b);
      var p, q := Pow2(a - 1), Pow2(b);
      assert Pow2(a + b) == 2 * (p * q);
      assert 2 * (p * q) == (2 * p) * q;
    }
  }

  /** The word width as a power of two. */
  lemma Pow2Width()
    ensures Pow2(32) == Modulus
  {
    assert Pow2(8) == 256;
    Pow2Add(8, 8);
    Pow2Add(16, 16);
  }

  /** Whether bit 0 of both a and b is set, as 0 or 1. */
  function LowBit(a: nat, b: nat): nat
  {
    if a % 2 == 1 && b % 2 == 1 then 1 else 0
  }

  /** Bitwise AND, one bit per recursion step. */
  function And(a: nat, b: nat): nat
  {
    if a == 0 || b == 0 then 0 else 2 * And(a / 2, b / 2) + LowBit(a, b)
  }

  /** The AND of two words is no larger than either. */
  lemma {:induction false} AndBound(a: nat, b: nat)
    ensures And(a, b) <= a && And(a, b) <= b
    decreases a
  {
    if a != 0 && b != 0 {
      AndBound(a / 2, b / 2);
    }
  }

  /** Every bit set in a is also set in b. */
  predicate Within(a: nat, b: nat)
  {
    And(a, b) == a
  }

  /** a and b have no bit in common. */
  predicate Apart(a: nat, b: nat)
  {
    And(a, b) == 0
  }

  /** n with the bits of f cleared, computed by subtraction as `n - (n & f)`. */
  function Clear(n: nat, f: nat): (r: nat)
    ensures r <= n
  {
    AndBound(n, f);
    n - And(n, f)
  }

  /** The recursion of And holds for every pair, zero operands included. */
  lemma AndStep(a: nat, b: nat)
    ensures And(a, b) == 2 * And(a / 2, b / 2) + LowBit(a, b)
  {
  }

  lemma {:induction false} AndComm(a: nat, b: nat)
    ensures And(a, b) == And(b, a)
    decreases a
  {
    if a != 0 && b != 0 {
      AndComm(a / 2, b / 2);
    }
  }

  /** A sum of two words with no common bit carries nowhere, so AND distributes over it. */
  lemma {:induction false} AndAddApart(a: nat, b: nat, m: nat)
    requires Apart(a, b)
    ensures And(a + b, m) == And(a, m) + And(b, m)
    decreases a + b
  {
    if a != 0 && b != 0 {
      var ha, hb, hm := a / 2, b / 2, m / 2;
      var la, lb := LowBit(a, m), LowBit(b, m);
      AndStep(a, b);
      assert And(ha, hb) == 0 && LowBit(a, b) == 0;
      HalveSum(a, b, m);
      AndHalf(a + b, m, ha + hb, hm, la + lb);
      AndAddApart(ha, hb, hm);
      AndHalf(a, m, ha, hm, la);
      AndHalf(b, m, hb, hm, lb);
      Regroup(And(a + b, m), And(ha + hb, hm), And(ha, hm), And(hb, hm), la, lb, And(a, m), And(b, m));
    } else if a == 0 {
      assert And(a, m) == 0;
    } else {
      assert And(b, m) == 0;
    }
  }

  /** The bookkeeping step of AndAddApart, with every AND already a number. */
  lemma Regroup(s: int, t: int, x: int, y: int, la: int, lb: int, u: int, v: int)
    requires s == 2 * t + (la + lb)
    requires t == x + y
    requires u == 2 * x + la
    requires v == 2 * y + lb
    ensures s == u + v
  {
  }

  /** AndStep with the halves of the operands and the low bit given by name. */
  lemma AndHalf(n: nat, m: nat, h: nat, hm: nat, l: nat)
    requires n / 2 == h && m / 2 == hm && LowBit(n, m) == l
    ensures And(n, m) == 2 * And(h, hm) + l
  {
    AndStep(n, m);
  }

  /** Without a common low bit, halving and the low bit both split over a sum. */
  lemma HalveSum(a: nat, b: nat, m: nat)
    requires LowBit(a, b) == 0
    ensures (a + b) / 2 == a / 2 + b / 2
    ensures LowBit(a + b, m) == LowBit(a, m) + LowBit(b, m)
  {
  }

  /** Halving commutes with clearing: bit 0 of the result is bit 0 of n unless f has it. */
  lemma ClearStep(n: nat, f: nat)
    ensures Clear(n, f) / 2 == Clear(n / 2, f / 2)
    ensures Clear(n, f) % 2 == n % 2 - LowBit(n, f)
  {
    AndStep(n, f);
  }

  /** After clearing, no bit of f is left. */
  lemma {:induction false} ClearApart(n: nat, f: nat)
    ensures Apart(Clear(n, f), f)
    decreases n
  {
    if n != 0 {
      ClearStep(n, f);
      ClearApart(n / 2, f / 2);
      AndStep(Clear(n, f), f);
    }
  }

  /** Clearing f leaves the bits of any h disjoint from f as they were. */
  lemma {:induction false} ClearKeeps(n: nat, f: nat, h: nat)
    requires Apart(h, f)
    ensures And(Clear(n, f), h) == And(n, h)
    decreases n
  {
    if n != 0 {
      AndStep(h, f);
      ClearStep(n, f);
      ClearKeeps(n / 2, f / 2, h / 2);
      AndStep(Clear(n, f), h);
      AndStep(n, h);
    }
  }

  /** A value inside g shares no bit with anything disjoint from g. */
  lemma {:induction false} WithinApart(w: nat, g: nat, h: nat)
    requires Within(w, g) && Apart(g, h)
    ensures Apart(w, h)
    decreases w
  {
    if w != 0 {
      AndStep(w, g);
      AndStep(g, h);
      WithinApart(w / 2, g / 2, h / 2);
      AndStep(w, h);
    }
  }

  /** Adding two k-bit values with no common bit stays within k bits. */
  lemma {:induction false} ApartSumBound(a: nat, b: nat, k: nat)
    requires a < Pow2(k) && b < Pow2(k) && Apart(a, b)
    ensures a + b < Pow2(k)
  {
    if k != 0 {
      AndStep(a, b);
      ApartSumBound(a / 2, b / 2, k - 1);
    }
  }

  /**
   * Clearing f and adding a value inside f: the sum's f-bits are exactly the
   * value, its other bits exactly n's, and no carry leaves the word.
   */
  lemma ClearThenAdd(n: Word, f: nat, w: Word)
    requires Within(w, f)
    ensures Clear(n, f) + w < Modulus
    ensures And(Clear(n, f) + w, f) == w
    ensures Clear(Clear(n, f) + w, f) == Clear(n, f)
  {
    var c := Clear(n, f);
    ClearApart(n, f);
    AndComm(c, f);
    WithinApart(w, f, c);
    AndComm(w, c);
    assert Apart(c, w);
    WordSumBound(c, w);
    AndAddApart(c, w, f);
    assert And(c + w, f) == 0 + w;
  }

  /** Two words with no common bit add up to a word. */
  lemma WordSumBound(a: Word, b: Word)
    requires Apart(a, b)
    ensures a + b < Modulus
  {
    Pow2Width();
    ApartSumBound(a, b, 32);
  }

  /** Clearing f and adding a value inside f leaves the bits of any h disjoint from f. */
  lemma ClearThenAddKeeps(n: Word, f: nat, w: Word, h: nat)
    requires Within(w, f) && Apart(f, h)
    ensures And(Clear(n, f) + w, h) == And(n, h)
  {
    var c := Clear(n, f);
    ClearApart(n, f);
    AndComm(c, f);
    WithinApart(w, f, c);
    AndComm(w, c);
    AndAddApart(c, w, h);
    WithinApart(w, f, h);
    AndComm(f, h);
    ClearKeeps(n, f, h);
  }
}

=== FILE: config_tree.dfy ===
/**
 * The start-up treatment of the XML configuration: the rewrite of deprecated
 * `Params` elements into one `Param` element per parameter, the search for
 * the `Adjoint`, `Geometry` and `ArbitraryLattice` elements, the number of
 * snapshots an unsteady adjoint needs, and the choice of lattice.
 */
module ConfigTree {
  import opened Wrappers
  import GeometryFlags

  datatype Attr = Attr(name: string, value: string)

  /** An XML element: its name, its attributes in document order, its child elements. */
  datatype Element = Element(name: string, attrs: seq<Attr>, children: seq<Element>)

  /** The value of the first attribute called `key`. */
  function Lookup(attrs: seq<Attr>, key: string): (r: Option<string>)
    ensures r.None? <==> forall i :: 0 <= i < |attrs| ==> attrs[i].name != key
    ensures r.Some? ==> exists i :: 0 <= i < |attrs| && attrs[i].name == key && attrs[i].value == r.value &&
                                    forall j :: 0 <= j < i ==> attrs[j].name != key
  {
    if |attrs| == 0 then None
    else if attrs[0].name == key then Some(attrs[0].value)
    else Lookup(attrs[1..], key)
  }

  /** An attribute's text, empty when the attribute is absent. */
  function Text(attrs: seq<Attr>, key: string): string
  {
    match Lookup(attrs, key)
    case None => ""
    case Some(v) => v
  }

  // ---------------------------------------------------------------------
  // Deprecated Params elements
  // ---------------------------------------------------------------------

  /** The position of the first '-' in s. */
  function FirstDash(s: string): (r: Option<nat>)
    ensures r.None? <==> '-' !in s
    ensures r.Some? ==> r.value < |s| && s[r.value] == '-' && '-' !in s[..r.value]
  {
    if |s| == 0 then None
    else if s[0] == '-' then Some(0)
    else match FirstDash(s[1..])
      case None => None
      case Some(i) => assert s[..i + 1] == [s[0]] + s[1..][..i]; Some(i + 1)
  }

  /**
   * Splitting a deprecated attribute name at its first '-' into the
   * parameter name and the zone; a name without '-' has no zone.
   */
  function SplitName(s: string): (r: (string, string))
    ensures '-' !in r.0
    ensures '-' in s ==> r.0 + "-" + r.1 == s
    ensures '-' !in s ==> r == (s, "")
  {
    match FirstDash(s)
    case None => (s, "")
    case Some(i) => assert s == s[..i] + "-" + s[i + 1..]; (s[..i], s[i + 1..])
  }

  /** In a parameter name without '-' joined to a zone, the first '-' is the joining one. */
  lemma {:induction false} DashAfter(par: string, zone: string)
    requires '-' !in par
    ensures FirstDash(par + "-" + zone) == Some(|par|)
    decreases |par|
  {
    var s := par + "-" + zone;
    if |par| > 0 {
      assert s[0] == par[0];
      assert s[1..] == par[1..] + "-" + zone;
      DashAfter(par[1..], zone);
    }
  }

  /** A parameter name without '-' and any zone come back from the split of the joined name. */
  lemma SplitJoin(par: string, zone: string)
    requires '-' !in par
    ensures SplitName(par + "-" + zone) == (par, zone)
  {
    var s := par + "-" + zone;
    DashAfter(par, zone);
    assert s[..|par|] == par && s[|par| + 1..] == zone;
  }

  /** The Param element replacing one attribute of a Params element. */
  function ParamOf(a: Attr, gauge: string): Element
  {
    var (par, zone) := SplitName(a.name);
    Element("Param", ParamAttrs(par, a.value, zone, gauge), [])
  }

  /** The attributes that become parameters: all but the gauge. */
  function Others(attrs: seq<Attr>): (r: seq<Attr>)
    ensures |r| <= |attrs|
    ensures forall a :: a in r <==> a in attrs && a.name != "gauge"
  {
    if |attrs| == 0 then []
    else (if attrs[0].name == "gauge" then [] else [attrs[0]]) + Others(attrs[1..])
  }

  /** The Param elements replacing a Params element, in the order of its attributes. */
  function Expand(node: Element): (r: seq<Element>)
    ensures |r| == |Others(node.attrs)|
    ensures forall k :: 0 <= k < |r| ==> r[k] == ParamOf(Others(node.attrs)[k], Text(node.attrs, "gauge"))
  {
    var g := Text(node.attrs, "gauge");
    var os := Others(node.attrs);
    seq(|os|, k requires 0 <= k < |os| => ParamOf(os[k], g))
  }

  /** The attribute a Param element was made from, read back from its name, zone and value. */
  function Rejoin(p: Element): Attr
  {
    var par := Text(p.attrs, "name");
    match Lookup(p.attrs, "zone")
    case None => Attr(par, Text(p.attrs, "value"))
    case Some(z) => Attr(par + "-" + z, Text(p.attrs, "value"))
  }

  /** The attributes of a Param element: name and value, then the zone and the gauge when non-empty. */
  function ParamAttrs(par: string, value: string, zone: string, gauge: string): seq<Attr>
  {
    [Attr("name", par), Attr("value", value)]
      + (if zone != "" then [Attr("zone", zone)] else [])
      + (if gauge != "" then [Attr("gauge", gauge)] else [])
  }

  /** A Param element carries the parameter name and value first. */
  lemma ParamNamed(a: Attr, gauge: string)
    ensures ParamOf(a, gauge).name == "Param" && ParamOf(a, gauge).children == []
    ensures Lookup(ParamOf(a, gauge).attrs, "name") == Some(SplitName(a.name).0)
    ensures Lookup(ParamOf(a, gauge).attrs, "value") == Some(a.value)
  {
    var attrs := ParamOf(a, gauge).attrs;
    assert attrs[0] == Attr("name", SplitName(a.name).0);
    assert attrs[1] == Attr("value", a.value);
    LookupPast(attrs, 1, "value");
  }

  /** The zone is carried exactly when the split found a non-empty one. */
  lemma ParamZone(a: Attr, gauge: string)
    ensures Lookup(ParamOf(a, gauge).attrs, "zone") ==
      (if SplitName(a.name).1 != "" then Some(SplitName(a.name).1) else None)
  {
    var (par, zone) := SplitName(a.name);
    AttrsZone(par, a.value, zone, gauge);
  }

  /** The gauge is carried exactly when it is set. */
  lemma ParamGauge(a: Attr, gauge: string)
    ensures Lookup(ParamOf(a, gauge).attrs, "gauge") == (if gauge != "" then Some(gauge) else None)
  {
    var (par, zone) := SplitName(a.name);
    AttrsGauge(par, a.value, zone, gauge);
  }

  lemma AttrsZone(par: string, value: string, zone: string, gauge: string)
    ensures Lookup(ParamAttrs(par, value, zone, gauge), "zone") == (if zone != "" then Some(zone) else None)
  {
    var zs := if zone != "" then [Attr("zone", zone)] else [];
    var gs := if gauge != "" then [Attr("gauge", gauge)] else [];
    var attrs := ParamAttrs(par, value, zone, gauge);
    assert attrs[0].name == "name" != "zone";
    assert attrs[1].name == "value" != "zone";
    LookupPast(attrs, 2, "zone");
    assert attrs[2..] == zs + gs;
    if zone == "" {
      assert "gauge" != "zone";
    }
  }

  lemma AttrsGauge(par: string, value: string, zone: string, gauge: string)
    ensures Lookup(ParamAttrs(par, value, zone, gauge), "gauge") == (if gauge != "" then Some(gauge) else None)
  {
    var zs := if zone != "" then [Attr("zone", zone)] else [];
    var gs := if gauge != "" then [Attr("gauge", gauge)] else [];
    var attrs := ParamAttrs(par, value, zone, gauge);
    var n := |zs| + 2;
    assert attrs[0].name == "name" != "gauge";
    assert attrs[1].name == "value" != "gauge";
    assert zone != "" ==> attrs[2].name == "zone" != "gauge";
    LookupPast(attrs, n, "gauge");
    assert attrs[n..] == gs;
  }

  /** The original attribute can be read back from its Param element, unless its first '-' ends the name. */
  lemma ParamRejoins(a: Attr, gauge: string)
    requires '-' !in a.name || SplitName(a.name).1 != ""
    ensures Rejoin(ParamOf(a, gauge)) == a
  {
    ParamNamed(a, gauge);
    ParamZone(a, gauge);
  }

  /** Looking up past attributes with other names. */
  lemma {:induction false} LookupPast(attrs: seq<Attr>, n: nat, key: string)
    requires n <= |attrs| && forall i :: 0 <= i < n ==> attrs[i].name != key
    ensures Lookup(attrs, key) == Lookup(attrs[n..], key)
    decreases n
  {
    if n > 0 {
      LookupPast(attrs[1..], n - 1, key);
      assert attrs[1..][n - 1..] == attrs[n..];
    }
  }

  /** Rewriting a forest: each Params element is replaced by its Param elements, its children dropped. */
  function RewriteAll(es: seq<Element>): seq<Element>
    decreases es
  {
    if |es| == 0 then [] else RewriteOne(es[0]) + RewriteAll(es[1..])
  }

  function RewriteOne(e: Element): seq<Element>
    decreases e
  {
    if e.name == "Params" then Expand(e) else [e.(children := RewriteAll(e.children))]
  }

  /** No element named Params anywhere in the forest. */
  predicate NoParams(es: seq<Element>)
    decreases es
  {
    forall i :: 0 <= i < |es| ==> es[i].name != "Params" && NoParams(es[i].children)
  }

  /** The rewrite removes every Params element, however deeply nested. */
  lemma {:induction false} RewriteRemovesParams(es: seq<Element>)
    ensures NoParams(RewriteAll(es))
    decreases es
  {
    if |es| > 0 {
      RewriteOneRemovesParams(es[0]);
      RewriteRemovesParams(es[1..]);
      NoParamsConcat(RewriteOne(es[0]), RewriteAll(es[1..]));
    }
  }

  lemma {:induction false} RewriteOneRemovesParams(e: Element)
    ensures NoParams(RewriteOne(e))
    decreases e
  {
    if e.name != "Params" {
      RewriteRemovesParams(e.children);
    } else {
      var r := Expand(e);
      forall i | 0 <= i < |r|
        ensures r[i].name != "Params" && NoParams(r[i].children)
      {
        assert r[i].children == [];
      }
    }
  }

  lemma NoParamsConcat(a: seq<Element>, b: seq<Element>)
    requires NoParams(a) && NoParams(b)
    ensures NoParams(a + b)
  {
    forall i | 0 <= i < |a + b|
      ensures (a + b)[i].name != "Params" && NoParams((a + b)[i].children)
    {
      if i < |a| {
        assert (a + b)[i] == a[i];
      } else {
        assert (a + b)[i] == b[i - |a|];
      }
    }
  }

  /** A forest without Params elements is left exactly as it was. */
  lemma {:induction false} RewriteKeepsClean(es: seq<Element>)
    requires NoParams(es)
    ensures RewriteAll(es) == es
    decreases es
  {
    if |es| > 0 {
      RewriteKeepsClean(es[0].children);
      assert RewriteOne(es[0]) == [es[0]];
      assert NoParams(es[1..]) by {
        forall i | 0 <= i < |es[1..]|
          ensures es[1..][i].name != "Params" && NoParams(es[1..][i].children)
        {
          assert es[1..][i] == es[i + 1];
        }
      }
      RewriteKeepsClean(es[1..]);
      assert [es[0]] + es[1..] == es;
    }
  }

  /**
   * The treatment of the configuration root: when any Params element is
   * present the root is marked permissive and every Params element is
   * rewritten; otherwise nothing changes.
   */
  function Rewrite(config: Element): (r: Element)
    ensures NoParams(r.children)
    ensures r.name == config.name
  {
    if NoParams(config.children) then
      RewriteKeepsClean(config.children);
      config
    else
      RewriteRemovesParams(config.children);
      config.(attrs := config.attrs + [Attr("permissive", "true")], children := RewriteAll(config.children))
  }

  /** The root is marked permissive exactly when there was something to rewrite, and a second rewrite changes nothing. */
  lemma RewriteIdempotent(config: Element)
    ensures Rewrite(Rewrite(config)) == Rewrite(config)
    ensures Rewrite(config) == config <==> NoParams(config.children)
    ensures !NoParams(config.children) ==> Lookup(Rewrite(config).attrs, "permissive").Some?
  {
    if !NoParams(config.children) {
      var r := Rewrite(config);
      assert |r.attrs| == |config.attrs| + 1;
      assert r.attrs[|config.attrs|] == Attr("permissive", "true");
    }
  }

  // ---------------------------------------------------------------------
  // Finding elements
  // ---------------------------------------------------------------------

  /** What a search looks for. */
  datatype Tag = AdjointTag | GeometryTag | ArbitraryLatticeTag

  /** An adjoint element counts only when its type is not "steady"; a missing type counts. */
  predicate Matches(t: Tag, e: Element)
  {
    match t
    case AdjointTag => e.name == "Adjoint" && Text(e.attrs, "type") != "steady"
    case GeometryTag => e.name == "Geometry"
    case ArbitraryLatticeTag => e.name == "ArbitraryLattice"
  }

  /** An Adjoint element is selected unless its type reads "steady"; one with no type attribute is selected. */
  lemma AdjointMatches(e: Element)
    ensures Matches(AdjointTag, e) <==> e.name == "Adjoint" && Lookup(e.attrs, "type") != Some("steady")
    ensures e.name == "Adjoint" && Lookup(e.attrs, "type").None? ==> Matches(AdjointTag, e)
  {
  }

  /** Some element of the forest, at any depth, matches. */
  predicate AnyMatch(es: seq<Element>, t: Tag)
    decreases es
  {
    exists i :: 0 <= i < |es| && (Matches(t, es[i]) || AnyMatch(es[i].children, t))
  }

  /** A forest in document order: each element, then its subtree, then its later siblings. */
  function PreOrder(es: seq<Element>): seq<Element>
    decreases es
  {
    if |es| == 0 then [] else Subtree(es[0]) + PreOrder(es[1..])
  }

  function Subtree(e: Element): seq<Element>
    decreases e
  {
    [e] + PreOrder(e.children)
  }

  /** The first element of a sequence that matches. */
  function FirstMatch(s: seq<Element>, t: Tag): (r: Option<Element>)
    ensures r.None? <==> forall i :: 0 <= i < |s| ==> !Matches(t, s[i])
    ensures r.Some? ==> exists i :: 0 <= i < |s| && s[i] == r.value && Matches(t, s[i]) &&
                                    forall j :: 0 <= j < i ==> !Matches(t, s[j])
  {
    if |s| == 0 then None
    else if Matches(t, s[0]) then Some(s[0])
    else FirstMatch(s[1..], t)
  }

  /** The first match in a concatenation comes from the first part when it has one. */
  lemma {:induction false} FirstMatchConcat(a: seq<Element>, b: seq<Element>, t: Tag)
    ensures FirstMatch(a + b, t) == if FirstMatch(a, t).Some? then FirstMatch(a, t) else FirstMatch(b, t)
    decreases |a|
  {
    if |a| == 0 {
      assert a + b == b;
    } else {
      assert (a + b)[0] == a[0];
      assert (a + b)[1..] == a[1..] + b;
      FirstMatchConcat(a[1..], b, t);
    }
  }

  /**
   * The search over a forest: the first matching element in document order,
   * an element before its children, children before later siblings.
   */
  function Find(es: seq<Element>, t: Tag): (r: Option<Element>)
    ensures r == FirstMatch(PreOrder(es), t)
    decreases es
  {
    if |es| == 0 then None
    else
      var e := es[0];
      FirstMatchConcat(Subtree(e), PreOrder(es[1..]), t);
      FirstMatchConcat([e], PreOrder(e.children), t);
      if Matches(t, e) then Some(e)
      else match FindBelow(e, t)
        case Some(x) => Some(x)
        case None => Find(es[1..], t)
  }

  /** The search below one element: the first match among its descendants, in document order. */
  function FindBelow(e: Element, t: Tag): (r: Option<Element>)
    ensures r == FirstMatch(PreOrder(e.children), t)
    decreases e
  {
    Find(e.children, t)
  }

  /** The search finds something exactly when something matches. */
  lemma {:induction false} FindComplete(es: seq<Element>, t: Tag)
    ensures Find(es, t).Some? <==> AnyMatch(es, t)
    decreases es
  {
    if |es| > 0 {
      FindComplete(es[0].children, t);
      FindComplete(es[1..], t);
      if AnyMatch(es[1..], t) {
        var i :| 0 <= i < |es[1..]| && (Matches(t, es[1..][i]) || AnyMatch(es[1..][i].children, t));
        assert es[1..][i] == es[i + 1];
      }
      if AnyMatch(es, t) && !Matches(t, es[0]) && !AnyMatch(es[0].children, t) {
        var i :| 0 <= i < |es| && (Matches(t, es[i]) || AnyMatch(es[i].children, t));
        assert es[1..][i - 1] == es[i];
      }
    }
  }

  /** A steady adjoint is never selected, whatever else the element holds. */
  lemma SteadyAdjointSkipped(e: Element)
    requires Lookup(e.attrs, "type") == Some("steady")
    ensures !Matches(AdjointTag, e)
  {
  }

  // ---------------------------------------------------------------------
  // Snapshots and lattice
  // ---------------------------------------------------------------------

  /** The snapshots stored when no unsteady adjoint is run. */
  const DefaultSnaps: int := 2

  /** The snapshots requested by an unsteady adjoint that does not say. */
  const AdjointSnaps: int := 10

  /**
   * The number of snapshots: two without an unsteady adjoint; with one, its
   * `NumberOfSnaps` (read by `asInt`, the attribute's integer reading) or
   * ten, and never fewer than two.
   */
  function Snaps(adj: Option<Element>, asInt: string -> int): (r: int)
    ensures r >= DefaultSnaps
    ensures adj.None? ==> r == DefaultSnaps
    ensures adj.Some? && Lookup(adj.value.attrs, "NumberOfSnaps").None? ==> r == AdjointSnaps
    ensures adj.Some? && Lookup(adj.value.attrs, "NumberOfSnaps").Some? ==>
      r >= asInt(Lookup(adj.value.attrs, "NumberOfSnaps").value)
      && (asInt(Lookup(adj.value.attrs, "NumberOfSnaps").value) >= DefaultSnaps ==> r == asInt(Lookup(adj.value.attrs, "NumberOfSnaps").value))
  {
    match adj
    case None => DefaultSnaps
    case Some(a) =>
      var n := match Lookup(a.attrs, "NumberOfSnaps")
        case None => AdjointSnaps
        case Some(t) => asInt(t);
      if n < DefaultSnaps then DefaultSnaps else n
  }

  /** The snapshot count of a whole document exceeds two only when it holds an unsteady adjoint. */
  lemma SnapsOfDocument(root: Element, asInt: string -> int)
    ensures !AnyMatch([root], AdjointTag) ==> Snaps(Find([root], AdjointTag), asInt) == DefaultSnaps
    ensures Snaps(Find([root], AdjointTag), asInt) > DefaultSnaps ==> AnyMatch([root], AdjointTag)
  {
    FindComplete([root], AdjointTag);
  }

  datatype LatticeKind = Cartesian | Arbitrary

  datatype LatticeError = BothLattices | NoLattice

  /**
   * The lattice choice as written: both elements present is an error; with
   * neither, the diagnostic is printed but start-up goes on with a Cartesian
   * lattice (the second component says the diagnostic was printed).
   */
  function SelectLatticeAsWritten(hasGeometry: bool, hasArbitrary: bool): (r: Result<(LatticeKind, bool), LatticeError>)
    ensures r.Err? <==> hasGeometry && hasArbitrary
    ensures r.Ok? && r.value.0 == Arbitrary <==> hasArbitrary && !hasGeometry
  {
    if hasArbitrary && hasGeometry then Err(BothLattices)
    else if !hasArbitrary && !hasGeometry then Ok((Cartesian, true))
    else if hasArbitrary then Ok((Arbitrary, false))
    else Ok((Cartesian, false))
  }

  /** With neither element the written choice still succeeds, on a Cartesian lattice with no Geometry element to read. */
  lemma MissingLatticeContinues()
    ensures SelectLatticeAsWritten(false, false) == Ok((Cartesian, true))
  {
  }

  /** The lattice choice with the missing-element diagnostic treated as the error it reports. */
  function SelectLattice(hasGeometry: bool, hasArbitrary: bool): (r: Result<LatticeKind, LatticeError>)
    ensures r == Err(BothLattices) <==> hasGeometry && hasArbitrary
    ensures r == Err(NoLattice) <==> !hasGeometry && !hasArbitrary
    ensures r == Ok(Cartesian) <==> hasGeometry && !hasArbitrary
    ensures r == Ok(Arbitrary) <==> hasArbitrary && !hasGeometry
  {
    if hasArbitrary && hasGeometry then Err(BothLattices)
    else if !hasArbitrary && !hasGeometry then Err(NoLattice)
    else if hasArbitrary then Ok(Arbitrary)
    else Ok(Cartesian)
  }

  /** Whenever the corrected choice succeeds, it agrees with the written one. */
  lemma SelectLatticeAgrees(hasGeometry: bool, hasArbitrary: bool)
    ensures SelectLattice(hasGeometry, hasArbitrary).Ok? ==>
      SelectLatticeAsWritten(hasGeometry, hasArbitrary) == Ok((SelectLattice(hasGeometry, hasArbitrary).value, false))
  {
  }

  /**
   * The document's lattice as the code chooses it, from the searches for the
   * two elements below the root; the flag says the missing-element
   * diagnostic was printed.
   */
  function LatticeAsWrittenOf(config: Element): Result<(LatticeKind, bool), LatticeError>
  {
    SelectLatticeAsWritten(Find(config.children, GeometryTag).Some?, Find(config.children, ArbitraryLatticeTag).Some?)
  }

  /**
   * As written, a document without an ArbitraryLattice element runs on a
   * Cartesian lattice whether or not it has a Geometry element; only both
   * elements together stop start-up.
   */
  lemma LatticeAsWrittenOfDocument(config: Element)
    ensures LatticeAsWrittenOf(config).Err? <==>
      AnyMatch(config.children, GeometryTag) && AnyMatch(config.children, ArbitraryLatticeTag)
    ensures LatticeAsWrittenOf(config).Ok? && LatticeAsWrittenOf(config).value.0 == Cartesian <==>
      !AnyMatch(config.children, ArbitraryLatticeTag)
    ensures LatticeAsWrittenOf(config).Ok? && LatticeAsWrittenOf(config).value.1 <==>
      !AnyMatch(config.children, GeometryTag) && !AnyMatch(config.children, ArbitraryLatticeTag)
  {
    FindComplete(config.children, GeometryTag);
    FindComplete(config.children, ArbitraryLatticeTag);
  }

  /** The document's lattice under the corrected choice, where a document with neither element is an error. */
  function LatticeOf(config: Element): Result<LatticeKind, LatticeError>
  {
    SelectLattice(Find(config.children, GeometryTag).Some?, Find(config.children, ArbitraryLatticeTag).Some?)
  }

  /**
   * Under the corrected choice, the document's lattice is Cartesian exactly
   * when a Geometry element and no ArbitraryLattice element lies below the
   * root, and a document with neither element is an error.
   */
  lemma LatticeOfDocument(config: Element)
    ensures LatticeOf(config) == Ok(Cartesian) <==>
      AnyMatch(config.children, GeometryTag) && !AnyMatch(config.children, ArbitraryLatticeTag)
    ensures LatticeOf(config) == Ok(Arbitrary) <==>
      AnyMatch(config.children, ArbitraryLatticeTag) && !AnyMatch(config.children, GeometryTag)
    ensures LatticeOf(config) == Err(BothLattices) <==>
      AnyMatch(config.children, GeometryTag) && AnyMatch(config.children, ArbitraryLatticeTag)
    ensures LatticeOf(config) == Err(NoLattice) <==>
      !AnyMatch(config.children, GeometryTag) && !AnyMatch(config.children, ArbitraryLatticeTag)
  {
    FindComplete(config.children, GeometryTag);
    FindComplete(config.children, ArbitraryLatticeTag);
  }

  /**
   * The size of a Cartesian lattice of nx by ny by nz nodes: the flat
   * positions below it are exactly the positions of the nodes, one per node.
   */
  function CartesianSize(nx: nat, ny: nat, nz: nat): (r: nat)
    ensures var reg := GeometryFlags.Region(0, 0, 0, nx, ny, nz);
      forall i: nat :: i < r ==>
        GeometryFlags.InBox(reg, GeometryFlags.CellAt(reg, i)) && GeometryFlags.Index(reg, GeometryFlags.CellAt(reg, i)) == i
    ensures var reg := GeometryFlags.Region(0, 0, 0, nx, ny, nz);
      forall c :: GeometryFlags.InBox(reg, c) ==>
        GeometryFlags.Index(reg, c) < r && GeometryFlags.CellAt(reg, GeometryFlags.Index(reg, c)) == c
  {
    var reg := GeometryFlags.Region(0, 0, 0, nx, ny, nz);
    GeometryFlags.CellsNumbered(reg);
    nx * ny * nz
  }
}

=== FILE: console.dfy ===
/**
 * The console bridge of the embedded R interpreter: R hands over text in
 * arbitrary pieces, tagged with an output type; the bridge cuts it into
 * lines at newlines, at a full 4000-byte buffer and at a change of type, and
 * hands each line to the program's output, error or notice channel.
 */
module Console {
  import opened Seqs

  /** Type 0 goes to normal output, 1 to the error channel, anything else to notices with the code. */
  datatype Channel = Output | Error | Notice(code: int)

  function ChannelOf(oType: int): (ch: Channel)
    ensures ch == Output <==> oType == 0
    ensures ch == Error <==> oType == 1
    ensures ch.Notice? ==> ch.code == oType
  {
    if oType == 0 then Output else if oType == 1 then Error else Notice(oType)
  }

  datatype Line = Line(channel: Channel, text: string)

  /** The static state kept between calls: the partial line and the type of the last call. */
  datatype State = State(buf: string, oldType: int)

  const BufSize: nat := 4000

  /** At most this many characters fit in the buffer before it is emitted. */
  const MaxLine: nat := BufSize - 1

  const Start: State := State("", 0)

  /** What the static state always satisfies: a partial line, shorter than a full one. */
  predicate Pending(buf: string)
  {
    |buf| < MaxLine && '\n' !in buf && '\0' !in buf
  }

  /** A line as it reaches a channel: no newline, no terminator, at most MaxLine characters. */
  predicate LineOk(l: Line)
  {
    |l.text| <= MaxLine && '\n' !in l.text && '\0' !in l.text
  }

  /** The message up to its terminating NUL: the length argument is never consulted. */
  function Text(message: string): (s: string)
    ensures s <= message && '\0' !in s
    ensures |s| < |message| ==> message[|s|] == '\0'
  {
    if |message| == 0 || message[0] == '\0' then [] else [message[0]] + Text(message[1..])
  }

  /** One character into the buffer: a newline emits the line, the 3999th character emits the full buffer. */
  function Feed(buf: string, c: char, ch: Channel): (string, seq<Line>)
  {
    if c == '\n' then ("", [Line(ch, buf)])
    else if |buf| + 1 == MaxLine then ("", [Line(ch, buf + [c])])
    else (buf + [c], [])
  }

  /** A whole text, character by character. */
  function FeedAll(buf: string, s: string, ch: Channel): (string, seq<Line>)
  {
    if |s| == 0 then (buf, [])
    else
      var (b, ls) := FeedAll(buf, s[..|s| - 1], ch);
      var (b', ls') := Feed(b, s[|s| - 1], ch);
      (b', ls + ls')
  }

  /**
   * One call, parameterised by the channel the pending line is flushed to
   * when the type changes: the source uses the new type.
   */
  function WriteWith(st: State, message: string, oType: int, flushTo: Channel): (State, seq<Line>)
  {
    var flush := st.oldType != oType && |st.buf| > 0;
    var buf := if flush then "" else st.buf;
    var pre := if flush then [Line(flushTo, st.buf)] else [];
    var (b, ls) := FeedAll(buf, Text(message), ChannelOf(oType));
    (State(b, oType), pre + ls)
  }

  /** The call as written: a pending line is flushed under the NEW type. */
  function Write(st: State, message: string, oType: int): (State, seq<Line>)
  {
    WriteWith(st, message, oType, ChannelOf(oType))
  }

  /** The call as evidently intended: a pending line is flushed under the type it was written with. */
  function WriteFixed(st: State, message: string, oType: int): (State, seq<Line>)
  {
    WriteWith(st, message, oType, ChannelOf(st.oldType))
  }

  // ---------------------------------------------------------------- properties

  /** The text with its newlines dropped. */
  function Strip(s: string): (r: string)
    ensures '\n' !in r
  {
    if |s| == 0 then [] else Strip(s[..|s| - 1]) + if s[|s| - 1] == '\n' then [] else [s[|s| - 1]]
  }

  function Concat(ls: seq<Line>): string
  {
    if |ls| == 0 then [] else Concat(ls[..|ls| - 1]) + ls[|ls| - 1].text
  }

  lemma {:induction false} ConcatAppend(a: seq<Line>, b: seq<Line>)
    ensures Concat(a + b) == Concat(a) + Concat(b)
    decreases |b|
  {
    if |b| == 0 {
      assert a + b == a;
    } else {
      var init, last := b[..|b| - 1], b[|b| - 1];
      var ab := a + b;
      assert ab[..|ab| - 1] == a + init;
      assert ab[|ab| - 1] == last;
      assert Concat(ab) == Concat(a + init) + last.text;
      assert Concat(b) == Concat(init) + last.text;
      ConcatAppend(a, init);
      Assoc(Concat(a), Concat(init), last.text);
    }
  }

  lemma ConcatOne(l: Line)
    ensures Concat([l]) == l.text
  {
    assert [l][..0] == [];
  }

  lemma {:induction false} StripPending(buf: string)
    requires '\n' !in buf
    ensures Strip(buf) == buf
    decreases |buf|
  {
    if |buf| > 0 {
      var init, last := buf[..|buf| - 1], buf[|buf| - 1];
      assert buf == init + [last];
      assert '\n' !in init && last != '\n';
      StripPending(init);
    }
  }

  /**
   * Feeding keeps the buffer a pending line, emits only well-formed lines on
   * the given channel, and loses no character but the newlines: the emitted
   * texts followed by the new buffer spell the old buffer and the text,
   * newlines removed.
   */
  lemma {:induction false} FeedAllSpec(buf: string, s: string, ch: Channel)
    requires Pending(buf) && '\0' !in s
    ensures var (b, ls) := FeedAll(buf, s, ch);
            Pending(b) &&
            (forall i :: 0 <= i < |ls| ==> LineOk(ls[i]) && ls[i].channel == ch) &&
            Concat(ls) + b == buf + Strip(s)
  {
    FeedAllWellFormed(buf, s, ch);
    FeedAllConserves(buf, s, ch);
  }

  lemma {:induction false} FeedAllWellFormed(buf: string, s: string, ch: Channel)
    requires Pending(buf) && '\0' !in s
    ensures var (b, ls) := FeedAll(buf, s, ch);
            Pending(b) && forall i :: 0 <= i < |ls| ==> LineOk(ls[i]) && ls[i].channel == ch
  {
    if |s| > 0 {
      var s0, c := s[..|s| - 1], s[|s| - 1];
      assert s == s0 + [c];
      FeedAllWellFormed(buf, s0, ch);
      var (b, ls) := FeedAll(buf, s0, ch);
      FeedSpec(b, c, ch);
    }
  }

  lemma {:induction false} FeedAllConserves(buf: string, s: string, ch: Channel)
    requires Pending(buf) && '\0' !in s
    ensures var (b, ls) := FeedAll(buf, s, ch);
            Concat(ls) + b == buf + Strip(s)
  {
    if |s| > 0 {
      var s0, c := s[..|s| - 1], s[|s| - 1];
      assert s == s0 + [c];
      FeedAllConserves(buf, s0, ch);
      FeedAllWellFormed(buf, s0, ch);
      var (b, ls) := FeedAll(buf, s0, ch);
      var (b', ls') := Feed(b, c, ch);
      var tail := if c == '\n' then [] else [c];
      FeedSpec(b, c, ch);
      ConcatAppend(ls, ls');
      var x, y := Concat(ls), Concat(ls');
      calc {
        Concat(ls + ls') + b';
        (x + y) + b';
        { Assoc(x, y, b'); }
        x + (y + b');
        x + (b + tail);
        { Assoc(x, b, tail); }
        (x + b) + tail;
        (buf + Strip(s0)) + tail;
        { Assoc(buf, Strip(s0), tail); }
        buf + (Strip(s0) + tail);
        buf + Strip(s);
      }
    }
  }

  /** One character: the emitted text and new buffer spell the old buffer and the character, newline dropped. */
  lemma FeedSpec(buf: string, c: char, ch: Channel)
    requires Pending(buf) && c != '\0'
    ensures var (b, ls) := Feed(buf, c, ch);
            Pending(b) && (forall i :: 0 <= i < |ls| ==> LineOk(ls[i]) && ls[i].channel == ch) &&
            Concat(ls) + b == buf + if c == '\n' then [] else [c]
  {
    if c == '\n' {
      ConcatOne(Line(ch, buf));
    } else if |buf| + 1 == MaxLine {
      ConcatOne(Line(ch, buf + [c]));
    }
  }

  /** Feeding one more character of a text continues from where its prefix left off. */
  lemma FeedAllStep(buf: string, text: string, i: nat, ch: Channel)
    requires i < |text|
    ensures var (b, ls) := FeedAll(buf, text[..i], ch);
            var (b', ls') := Feed(b, text[i], ch);
            FeedAll(buf, text[..i + 1], ch) == (b', ls + ls')
  {
    assert text[..i + 1][..i] == text[..i];
    assert text[..i + 1][i] == text[i];
  }

  /**
   * A call keeps the state a pending line, emits only well-formed lines, and
   * loses nothing but newlines and whatever follows the message's NUL.
   */
  lemma WriteSpec(st: State, message: string, oType: int, flushTo: Channel)
    requires Pending(st.buf)
    ensures var (st', ls) := WriteWith(st, message, oType, flushTo);
            Pending(st'.buf) && st'.oldType == oType &&
            (forall i :: 0 <= i < |ls| ==> LineOk(ls[i])) &&
            Concat(ls) + st'.buf == st.buf + Strip(Text(message))
  {
    if st.oldType != oType && |st.buf| > 0 {
      FlushSpec(st, message, oType, flushTo);
    } else {
      FeedAllSpec(st.buf, Text(message), ChannelOf(oType));
      var (b, ls) := FeedAll(st.buf, Text(message), ChannelOf(oType));
      assert [] + ls == ls;
    }
  }

  lemma FlushSpec(st: State, message: string, oType: int, flushTo: Channel)
    requires Pending(st.buf) && st.oldType != oType && |st.buf| > 0
    ensures var (st', ls) := WriteWith(st, message, oType, flushTo);
            Pending(st'.buf) && (forall i :: 0 <= i < |ls| ==> LineOk(ls[i])) &&
            Concat(ls) + st'.buf == st.buf + Strip(Text(message))
  {
    var text := Text(message);
    var first := Line(flushTo, st.buf);
    var (b, ls) := FeedAll("", text, ChannelOf(oType));
    FeedAllWellFormed("", text, ChannelOf(oType));
    PrependOk(first, ls);
    FeedAllConserves("", text, ChannelOf(oType));
    ConcatAppend([first], ls);
    ConcatOne(first);
    assert "" + Strip(text) == Strip(text);
    Assoc(st.buf, Concat(ls), b);
  }

  /** A well-formed line in front of well-formed lines. */
  lemma PrependOk(l: Line, ls: seq<Line>)
    requires LineOk(l) && forall i :: 0 <= i < |ls| ==> LineOk(ls[i])
    ensures forall i :: 0 <= i < |[l] + ls| ==> LineOk(([l] + ls)[i])
  {
    forall i | 0 <= i < |[l] + ls|
      ensures LineOk(([l] + ls)[i])
    {
      if i > 0 {
        assert ([l] + ls)[i] == ls[i - 1];
      }
    }
  }

  /** As written, every line of a call, the flushed one included, carries the call's type. */
  lemma WriteTagsNewType(st: State, message: string, oType: int)
    requires Pending(st.buf)
    ensures var (_, ls) := Write(st, message, oType);
            forall i :: 0 <= i < |ls| ==> ls[i].channel == ChannelOf(oType)
  {
    var flush := st.oldType != oType && |st.buf| > 0;
    var buf := if flush then "" else st.buf;
    FeedAllSpec(buf, Text(message), ChannelOf(oType));
  }

  /**
   * The discrepancy: output text left pending by a type-0 call is reported
   * on the error channel when the next call has type 1.
   */
  lemma FlushMislabelled()
    ensures Write(State("abc", 0), "x", 1).1[0] == Line(Error, "abc")
    ensures WriteFixed(State("abc", 0), "x", 1).1[0] == Line(Output, "abc")
  {
    assert Text("x") == "x";
  }

  /**
   * Corrected: a change of type first flushes the pending line under the
   * type it was written with; every other line carries the call's type.
   */
  lemma WriteFixedTags(st: State, message: string, oType: int)
    requires Pending(st.buf)
    ensures var (_, ls) := WriteFixed(st, message, oType);
            var flushed := st.oldType != oType && |st.buf| > 0;
            (flushed ==> |ls| > 0 && ls[0] == Line(ChannelOf(st.oldType), st.buf)) &&
            forall i :: (if flushed then 1 else 0) <= i < |ls| ==> ls[i].channel == ChannelOf(oType)
  {
    var flush := st.oldType != oType && |st.buf| > 0;
    var buf := if flush then "" else st.buf;
    FeedAllSpec(buf, Text(message), ChannelOf(oType));
  }

  /** A change of type with nothing pending emits no extra line. */
  lemma NoEmptyFlush(st: State, message: string, oType: int)
    requires |st.buf| == 0
    ensures Write(st, message, oType) == WriteFixed(st, message, oType)
    ensures Write(st, message, oType).1 == FeedAll("", Text(message), ChannelOf(oType)).1
  {
  }

  // ---------------------------------------------------------------- the loop

  /**
   * The bridge function as the source runs it: flush on a type change, then
   * copy characters until the NUL, emitting at each newline and whenever the
   * buffer reaches its last usable byte.
   */
  method WriteConsoleEx(st: State, message: string, oType: int) returns (st': State, lines: seq<Line>)
    requires Pending(st.buf)
    ensures (st', lines) == Write(st, message, oType)
    ensures Pending(st'.buf) && forall i :: 0 <= i < |lines| ==> LineOk(lines[i])
  {
    var buf := st.buf;
    lines := [];
    if st.oldType != oType {
      if |buf| > 0 {
        lines := [Line(ChannelOf(oType), buf)];
        buf := "";
      }
    }
    ghost var pre, buf0 := lines, buf;
    var text := Text(message);
    var i := 0;
    assert text[..0] == [];
    while i < |text|
      invariant 0 <= i <= |text|
      invariant buf == FeedAll(buf0, text[..i], ChannelOf(oType)).0
      invariant lines == pre + FeedAll(buf0, text[..i], ChannelOf(oType)).1
    {
      FeedAllStep(buf0, text, i, ChannelOf(oType));
      Assoc(pre, FeedAll(buf0, text[..i], ChannelOf(oType)).1, Feed(buf, text[i], ChannelOf(oType)).1);
      var c := text[i];
      if c == '\n' {
        lines := lines + [Line(ChannelOf(oType), buf)];
        buf := "";
      } else {
        buf := buf + [c];
        if |buf| == BufSize - 1 {
          lines := lines + [Line(ChannelOf(oType), buf)];
          buf := "";
        }
      }
      i := i + 1;
    }
    assert text[..i] == text;
    st' := State(buf, oType);
    WriteSpec(st, message, oType, ChannelOf(oType));
  }
}

=== FILE: coupling.dfy ===
/**
 * The three-phase exchange with the fluid solver. Phase 0 counts the images
 * each worker needs; phase 1 writes every image's state into the slot
 * `offset + windex[worker]`; phase 2 reads forces and moments back from the
 * same slots and sums them into each particle. The transport itself is a
 * buffer: writes in, force and moment entries out.
 */
module Coupling {
  import opened Wrappers
  import opened Particles
  import opened Images
  import opened Sums
  import opened Seqs

  // ---------------------------------------------------------------- reference layout

  /** `t[w][p]` lists the periodic offsets of particle p's images destined for worker w. */
  type Table = seq<seq<seq<Offset>>>

  /** Every worker row has one entry per particle. */
  predicate Shaped(t: Table, n: nat)
  {
    forall w :: 0 <= w < |t| ==> |t[w]| == n
  }

  /** The image table the geometry induces: one row per worker box. */
  function ImageTable(ps: seq<Particle>, boxes: seq<Box>, dom: Domain): (t: Table)
    requires DomainOk(dom)
    ensures |t| == |boxes| && Shaped(t, |ps|)
    ensures forall w, p :: 0 <= w < |boxes| && 0 <= p < |ps| ==>
              t[w][p] == Offsets(ps[p].x, ps[p].r, boxes[w], dom)
  {
    seq(|boxes|, w requires 0 <= w < |boxes| =>
      seq(|ps|, p requires 0 <= p < |ps| => Offsets(ps[p].x, ps[p].r, boxes[w], dom)))
  }

  /** Per-particle image counts for worker w, in particle order. */
  function Counts(t: Table, w: nat): (cs: seq<nat>)
    requires w < |t|
    ensures |cs| == |t[w]| && forall p :: 0 <= p < |cs| ==> cs[p] == |t[w][p]|
  {
    seq(|t[w]|, p requires 0 <= p < |t[w]| => |t[w][p]|)
  }

  /** The size reported for each worker: all images of all particles destined for it. */
  function WSize(t: Table): (ws: seq<nat>)
    ensures |ws| == |t| && forall w :: 0 <= w < |t| ==> ws[w] == Sum(Counts(t, w))
  {
    seq(|t|, w requires 0 <= w < |t| => Sum(Counts(t, w)))
  }

  /** The size of the allocated transfer buffer. */
  function Total(t: Table): nat
  {
    Sum(WSize(t))
  }

  /** Image k of particle p for worker w exists. */
  predicate ValidImage(t: Table, w: nat, p: nat, k: nat)
  {
    w < |t| && p < |t[w]| && k < |t[w][p]|
  }

  /** Images particles before p sent to worker w: the value of `windex[w]` when particle p starts. */
  function Before(t: Table, w: nat, p: nat): nat
    requires w < |t| && p <= |t[w]|
  {
    Sum(Counts(t, w)[..p])
  }

  /**
   * Where image k of particle p for worker w lives in the buffer: after all
   * earlier workers' images, then after the images earlier particles sent to w.
   */
  function Slot(t: Table, w: nat, p: nat, k: nat): nat
    requires w < |t| && p <= |t[w]|
  {
    Sum(WSize(t)[..w]) + Before(t, w, p) + k
  }

  lemma BeforeStep(t: Table, w: nat, p: nat)
    requires w < |t| && p < |t[w]|
    ensures Before(t, w, p + 1) == Before(t, w, p) + |t[w][p]|
  {
    SumStep(Counts(t, w), p);
  }

  lemma BeforeAll(t: Table, w: nat)
    requires w < |t|
    ensures Before(t, w, |t[w]|) == WSize(t)[w]
  {
    assert Counts(t, w)[..|t[w]|] == Counts(t, w);
  }

  /**
   * Each worker owns the consecutive block of slots starting at the sum of the
   * earlier workers' sizes, and every slot lies in the buffer.
   */
  lemma SlotInWorkerBlock(t: Table, w: nat, p: nat, k: nat)
    requires ValidImage(t, w, p, k)
    ensures var start := Sum(WSize(t)[..w]);
            start <= Slot(t, w, p, k) < start + WSize(t)[w]
    ensures Slot(t, w, p, k) < Total(t)
  {
    BlockInside(Counts(t, w), p, k);
    BlockInside(WSize(t), w, Before(t, w, p) + k);
  }

  /** Distinct images never share a slot. */
  lemma SlotInjective(t: Table, w: nat, p: nat, k: nat, w': nat, p': nat, k': nat)
    requires ValidImage(t, w, p, k) && ValidImage(t, w', p', k')
    requires Slot(t, w, p, k) == Slot(t, w', p', k')
    ensures w == w' && p == p' && k == k'
  {
    BlockInside(Counts(t, w), p, k);
    BlockInside(Counts(t, w'), p', k');
    BlocksDisjoint(WSize(t), w, Before(t, w, p) + k, w', Before(t, w', p') + k');
    BlocksDisjoint(Counts(t, w), p, k, p', k');
  }

  /** Every slot of the buffer belongs to some image. */
  lemma SlotSurjective(t: Table, s: nat) returns (w: nat, p: nat, k: nat)
    requires s < Total(t)
    ensures ValidImage(t, w, p, k) && Slot(t, w, p, k) == s
  {
    var j;
    w, j := Locate(WSize(t), s);
    p, k := Locate(Counts(t, w), j);
  }

  /** The index of worker v while particle p is handed to the workers before w. */
  function Progress(t: Table, p: nat, w: nat, v: nat): nat
    requires v < |t| && p < |t[v]|
  {
    if v < w then Before(t, v, p + 1) else Before(t, v, p)
  }

  // ---------------------------------------------------------------- phase 0

  /**
   * Phase 0: count every particle's images per worker, particle by particle.
   * The table holds the offsets the geometry yields for each (worker,
   * particle) pair; particles do not move between phases, so all three
   * phases see the same table.
   */
  method CountImages(t: Table, np: nat) returns (wsize: seq<nat>)
    requires Shaped(t, np)
    ensures wsize == WSize(t)
  {
    wsize := seq(|t|, _ => 0);
    var p := 0;
    while p < np
      invariant 0 <= p <= np && |wsize| == |t|
      invariant forall v :: 0 <= v < |t| ==> wsize[v] == Before(t, v, p)
    {
      var w := 0;
      while w < |t|
        invariant 0 <= w <= |t| && |wsize| == |t|
        invariant forall v :: 0 <= v < |t| ==> wsize[v] == Progress(t, p, w, v)
      {
        BeforeStep(t, w, p);
        wsize := wsize[w := wsize[w] + |t[w][p]|];
        w := w + 1;
      }
      p := p + 1;
    }
    forall w | 0 <= w < |t| ensures wsize[w] == WSize(t)[w] {
      BeforeAll(t, w);
    }
  }

  // ---------------------------------------------------------------- phase 1

  /** What phase 1 writes for one image; the angular velocity only with rotation on. */
  datatype ImageData = ImageData(r: real, x: Vec3, v: Vec3, omega: Option<Vec3>)

  /** One buffer write of phase 1, tagged with the image it came from. */
  datatype Write = Write(slot: nat, particle: nat, worker: nat, image: nat, data: ImageData)

  /** The record of one image: radius, translated centre, velocity, maybe angular velocity. */
  function ImageRecord(p: Particle, d: Offset, dom: Domain, rot: bool): ImageData
  {
    ImageData(p.r, Translate(p.x, d, dom.period), p.v, if rot then Some(p.omega) else None)
  }

  /** Write k of particle p for worker w. */
  function ImageWrite(ps: seq<Particle>, t: Table, dom: Domain, rot: bool, p: nat, w: nat, k: nat): Write
    requires p < |ps| && ValidImage(t, w, p, k)
  {
    Write(Slot(t, w, p, k), p, w, k, ImageRecord(ps[p], t[w][p][k], dom, rot))
  }

  /** Writes for all images of particle p for worker w, in offset order. */
  function ImageWrites(ps: seq<Particle>, t: Table, dom: Domain, rot: bool, p: nat, w: nat)
    : (ws: seq<Write>)
    requires p < |ps| && w < |t| && p < |t[w]|
    ensures |ws| == |t[w][p]|
    ensures forall k :: 0 <= k < |ws| ==> ws[k] == ImageWrite(ps, t, dom, rot, p, w, k)
  {
    seq(|t[w][p]|, k requires 0 <= k < |t[w][p]| => ImageWrite(ps, t, dom, rot, p, w, k))
  }

  /** Writes of particle p for the first n workers. */
  function WorkerWrites(ps: seq<Particle>, t: Table, dom: Domain, rot: bool, p: nat, n: nat)
    : seq<Write>
    requires p < |ps| && n <= |t| && Shaped(t, |ps|)
  {
    if n == 0 then []
    else WorkerWrites(ps, t, dom, rot, p, n - 1) + ImageWrites(ps, t, dom, rot, p, n - 1)
  }

  /** Writes of the first n particles, for all workers: the reference order of phase 1. */
  function PhaseWrites(ps: seq<Particle>, t: Table, dom: Domain, rot: bool, n: nat): seq<Write>
    requires n <= |ps| && Shaped(t, |ps|)
  {
    if n == 0 then []
    else PhaseWrites(ps, t, dom, rot, n - 1) + WorkerWrites(ps, t, dom, rot, n - 1, |t|)
  }

  /**
   * Phase 1, as the source runs it: particles, then workers, then images;
   * each image goes to `offset + windex[worker]`, where `offset` sums the
   * sizes of earlier workers and `windex` counts the images already sent to
   * that worker. The writes are exactly the reference layout.
   */
  method SendParticles(ps: seq<Particle>, t: Table, dom: Domain, rot: bool)
    returns (writes: seq<Write>)
    requires Shaped(t, |ps|)
    ensures writes == PhaseWrites(ps, t, dom, rot, |ps|)
  {
    var wsize := CountImages(t, |ps|);
    var windex: seq<nat> := seq(|t|, _ => 0);
    BeforeStart(t, |ps|, windex);
    writes := [];
    var p := 0;
    while p < |ps|
      invariant 0 <= p <= |ps| && |windex| == |t|
      invariant forall v :: 0 <= v < |t| ==> windex[v] == Before(t, v, p)
      invariant writes == PhaseWrites(ps, t, dom, rot, p)
    {
      writes, windex := SendParticle(ps, t, dom, rot, p, wsize, windex, writes);
      PhaseWritesStep(ps, t, dom, rot, p);
      p := p + 1;
    }
  }

  /** Before the first particle, no worker has been sent anything. */
  lemma BeforeStart(t: Table, np: nat, windex: seq<nat>)
    requires Shaped(t, np) && |windex| == |t| && forall v :: 0 <= v < |t| ==> windex[v] == 0
    ensures forall v :: 0 <= v < |t| ==> windex[v] == Before(t, v, 0)
  {
    forall v | 0 <= v < |t| ensures windex[v] == Before(t, v, 0) {
      assert Counts(t, v)[..0] == [];
    }
  }

  /** One more particle appends its writes for every worker. */
  lemma PhaseWritesStep(ps: seq<Particle>, t: Table, dom: Domain, rot: bool, p: nat)
    requires Shaped(t, |ps|) && p < |ps|
    ensures PhaseWrites(ps, t, dom, rot, p + 1) == PhaseWrites(ps, t, dom, rot, p) + WorkerWrites(ps, t, dom, rot, p, |t|)
  {
  }

  /** The worker loop of phase 1 for particle p; `offset` restarts at zero for every particle. */
  method SendParticle(ps: seq<Particle>, t: Table, dom: Domain, rot: bool, p: nat,
                      wsize: seq<nat>, windex: seq<nat>, writes: seq<Write>)
    returns (writes': seq<Write>, windex': seq<nat>)
    requires Shaped(t, |ps|) && p < |ps| && |windex| == |t| && wsize == WSize(t)
    requires forall v :: 0 <= v < |t| ==> windex[v] == Before(t, v, p)
    ensures |windex'| == |t|
    ensures forall v :: 0 <= v < |t| ==> windex'[v] == Before(t, v, p + 1)
    ensures writes' == writes + WorkerWrites(ps, t, dom, rot, p, |t|)
  {
    writes', windex' := writes, windex;
    var offset := 0;
    var w := 0;
    while w < |t|
      invariant 0 <= w <= |t| && |windex'| == |t|
      invariant offset == Sum(wsize[..w])
      invariant forall v :: 0 <= v < |t| ==> windex'[v] == Progress(t, p, w, v)
      invariant writes' == writes + WorkerWrites(ps, t, dom, rot, p, w)
    {
      ghost var done := WorkerWrites(ps, t, dom, rot, p, w);
      writes', windex' := SendImages(ps, t, dom, rot, p, w, offset, windex', writes');
      ghost var next := ImageWrites(ps, t, dom, rot, p, w);
      assert WorkerWrites(ps, t, dom, rot, p, w + 1) == done + next;
      Assoc(writes, done, next);
      SumStep(wsize, w);
      offset := offset + wsize[w];
      w := w + 1;
    }
  }

  /** The innermost loop of phase 1: all images of particle p for worker w. */
  method SendImages(ps: seq<Particle>, t: Table, dom: Domain, rot: bool, p: nat, w: nat,
                    offset: nat, windex: seq<nat>, writes: seq<Write>)
    returns (writes': seq<Write>, windex': seq<nat>)
    requires Shaped(t, |ps|) && p < |ps| && w < |t| && |windex| == |t|
    requires offset == Sum(WSize(t)[..w])
    requires windex[w] == Before(t, w, p)
    ensures writes' == writes + ImageWrites(ps, t, dom, rot, p, w)
    ensures |windex'| == |t| && windex'[w] == Before(t, w, p + 1)
    ensures forall v :: 0 <= v < |t| && v != w ==> windex'[v] == windex[v]
  {
    var offs := t[w][p];
    writes', windex' := writes, windex;
    var k := 0;
    while k < |offs|
      invariant 0 <= k <= |offs| && |windex'| == |t|
      invariant windex'[w] == Before(t, w, p) + k
      invariant forall v :: 0 <= v < |t| && v != w ==> windex'[v] == windex[v]
      invariant writes' == writes + ImageWrites(ps, t, dom, rot, p, w)[..k]
    {
      var wr := Write(offset + windex'[w], p, w, k, ImageRecord(ps[p], offs[k], dom, rot));
      assert wr == ImageWrite(ps, t, dom, rot, p, w, k);
      Extend(writes, ImageWrites(ps, t, dom, rot, p, w), k);
      writes' := writes' + [wr];
      windex' := windex'[w := windex'[w] + 1];
      k := k + 1;
    }
    BeforeStep(t, w, p);
    Whole(ImageWrites(ps, t, dom, rot, p, w));
  }

  /** e is the phase-1 record of one valid image, stored at that image's slot. */
  predicate IsImageWrite(ps: seq<Particle>, t: Table, dom: Domain, rot: bool, e: Write)
  {
    e.particle < |ps| && ValidImage(t, e.worker, e.particle, e.image) &&
    e == ImageWrite(ps, t, dom, rot, e.particle, e.worker, e.image)
  }

  /** Phase 1 writes for particle p, worker by worker: each is the record of one of its images. */
  lemma WorkerWritesExact(ps: seq<Particle>, t: Table, dom: Domain, rot: bool, p: nat, n: nat)
    requires Shaped(t, |ps|) && p < |ps| && n <= |t|
    ensures forall e :: e in WorkerWrites(ps, t, dom, rot, p, n) ==>
              e.particle == p && e.worker < n && IsImageWrite(ps, t, dom, rot, e)
    ensures forall w: nat, k: nat :: w < n && ValidImage(t, w, p, k) ==>
              ImageWrite(ps, t, dom, rot, p, w, k) in WorkerWrites(ps, t, dom, rot, p, n)
  {
    WorkerWritesSound(ps, t, dom, rot, p, n);
    WorkerWritesComplete(ps, t, dom, rot, p, n);
  }

  /** The writes for one particle and worker are records of that pair's images. */
  lemma ImageWritesSound(ps: seq<Particle>, t: Table, dom: Domain, rot: bool, p: nat, w: nat)
    requires Shaped(t, |ps|) && p < |ps| && w < |t|
    ensures forall e :: e in ImageWrites(ps, t, dom, rot, p, w) ==>
              e.particle == p && e.worker == w && IsImageWrite(ps, t, dom, rot, e)
  {
    var ws := ImageWrites(ps, t, dom, rot, p, w);
    forall e | e in ws ensures e.particle == p && e.worker == w && IsImageWrite(ps, t, dom, rot, e) {
      var k :| 0 <= k < |ws| && ws[k] == e;
    }
  }

  lemma {:induction false} WorkerWritesSound(ps: seq<Particle>, t: Table, dom: Domain, rot: bool, p: nat, n: nat)
    requires Shaped(t, |ps|) && p < |ps| && n <= |t|
    ensures forall e :: e in WorkerWrites(ps, t, dom, rot, p, n) ==>
              e.particle == p && e.worker < n && IsImageWrite(ps, t, dom, rot, e)
  {
    if n > 0 {
      WorkerWritesSound(ps, t, dom, rot, p, n - 1);
      ImageWritesSound(ps, t, dom, rot, p, n - 1);
    }
  }

  lemma {:induction false} WorkerWritesComplete(ps: seq<Particle>, t: Table, dom: Domain, rot: bool, p: nat, n: nat)
    requires Shaped(t, |ps|) && p < |ps| && n <= |t|
    ensures forall w: nat, k: nat :: w < n && ValidImage(t, w, p, k) ==>
              ImageWrite(ps, t, dom, rot, p, w, k) in WorkerWrites(ps, t, dom, rot, p, n)
  {
    if n > 0 {
      WorkerWritesComplete(ps, t, dom, rot, p, n - 1);
      var pre: seq<Write> := WorkerWrites(ps, t, dom, rot, p, n - 1);
      var last: seq<Write> := ImageWrites(ps, t, dom, rot, p, n - 1);
      forall w: nat, k: nat | w < n && ValidImage(t, w, p, k)
        ensures ImageWrite(ps, t, dom, rot, p, w, k) in pre + last
      {
        if w == n - 1 {
          assert last[k] == ImageWrite(ps, t, dom, rot, p, w, k);
        }
      }
    }
  }

  /**
   * Phase 1 as a whole: every write is the record of a valid image, stored
   * at that image's slot, and every image of every particle is written.
   */
  lemma PhaseWritesExact(ps: seq<Particle>, t: Table, dom: Domain, rot: bool, n: nat)
    requires Shaped(t, |ps|) && n <= |ps|
    ensures forall e :: e in PhaseWrites(ps, t, dom, rot, n) ==> e.particle < n && IsImageWrite(ps, t, dom, rot, e)
    ensures forall w: nat, p: nat, k: nat :: p < n && ValidImage(t, w, p, k) ==>
              ImageWrite(ps, t, dom, rot, p, w, k) in PhaseWrites(ps, t, dom, rot, n)
  {
    PhaseWritesSound(ps, t, dom, rot, n);
    PhaseWritesComplete(ps, t, dom, rot, n);
  }

  /** Every write in ws is a valid image record of a particle below n. */
  predicate WritesBelow(ps: seq<Particle>, t: Table, dom: Domain, rot: bool, n: nat, ws: seq<Write>)
  {
    forall e :: e in ws ==> e.particle < n && IsImageWrite(ps, t, dom, rot, e)
  }

  lemma {:induction false} PhaseWritesSound(ps: seq<Particle>, t: Table, dom: Domain, rot: bool, n: nat)
    requires Shaped(t, |ps|) && n <= |ps|
    ensures WritesBelow(ps, t, dom, rot, n, PhaseWrites(ps, t, dom, rot, n))
  {
    if n > 0 {
      var pre := PhaseWrites(ps, t, dom, rot, n - 1);
      var last := WorkerWrites(ps, t, dom, rot, n - 1, |t|);
      PhaseWritesSound(ps, t, dom, rot, n - 1);
      WorkerWritesSound(ps, t, dom, rot, n - 1, |t|);
      SoundConcat(ps, t, dom, rot, n - 1, pre, last);
      assert PhaseWrites(ps, t, dom, rot, n) == pre + last;
    }
  }

  /** Writes of particles before p followed by writes of p are writes of particles up to p. */
  lemma SoundConcat(ps: seq<Particle>, t: Table, dom: Domain, rot: bool, p: nat, pre: seq<Write>, last: seq<Write>)
    requires WritesBelow(ps, t, dom, rot, p, pre)
    requires forall e :: e in last ==> e.particle == p && IsImageWrite(ps, t, dom, rot, e)
    ensures WritesBelow(ps, t, dom, rot, p + 1, pre + last)
  {
  }

  lemma {:induction false} PhaseWritesComplete(ps: seq<Particle>, t: Table, dom: Domain, rot: bool, n: nat)
    requires Shaped(t, |ps|) && n <= |ps|
    ensures forall w: nat, p: nat, k: nat :: p < n && ValidImage(t, w, p, k) ==>
              ImageWrite(ps, t, dom, rot, p, w, k) in PhaseWrites(ps, t, dom, rot, n)
  {
    if n > 0 {
      PhaseWritesComplete(ps, t, dom, rot, n - 1);
      WorkerWritesComplete(ps, t, dom, rot, n - 1, |t|);
      var pre: seq<Write> := PhaseWrites(ps, t, dom, rot, n - 1);
      var last: seq<Write> := WorkerWrites(ps, t, dom, rot, n - 1, |t|);
      forall w: nat, p: nat, k: nat | p < n && ValidImage(t, w, p, k)
        ensures ImageWrite(ps, t, dom, rot, p, w, k) in pre + last
      {
        if p < n - 1 {
          assert ImageWrite(ps, t, dom, rot, p, w, k) in pre;
        } else {
          assert ImageWrite(ps, t, dom, rot, p, w, k) in last;
        }
      }
    }
  }

  /** The slots a sequence of writes touches. */
  function SlotsOf(ws: seq<Write>): set<nat>
  {
    set i | 0 <= i < |ws| :: ws[i].slot
  }

  /**
   * The buffer allocated after phase 0 is filled exactly: the writes touch
   * precisely the slots 0 .. Total-1, and two writes to one slot are the same
   * record.
   */
  lemma EverySlotWrittenOnce(ps: seq<Particle>, t: Table, dom: Domain, rot: bool)
    requires Shaped(t, |ps|)
    ensures var ws := PhaseWrites(ps, t, dom, rot, |ps|);
            (forall s: nat :: s in SlotsOf(ws) <==> s < Total(t)) &&
            forall i, j :: 0 <= i < |ws| && 0 <= j < |ws| && ws[i].slot == ws[j].slot ==> ws[i] == ws[j]
  {
    var ws := PhaseWrites(ps, t, dom, rot, |ps|);
    PhaseWritesExact(ps, t, dom, rot, |ps|);
    forall i | 0 <= i < |ws| ensures ws[i].slot < Total(t) {
      assert ws[i] in ws;
      SlotInWorkerBlock(t, ws[i].worker, ws[i].particle, ws[i].image);
    }
    forall i, j | 0 <= i < |ws| && 0 <= j < |ws| && ws[i].slot == ws[j].slot ensures ws[i] == ws[j] {
      assert ws[i] in ws && ws[j] in ws;
      SlotInjective(t, ws[i].worker, ws[i].particle, ws[i].image, ws[j].worker, ws[j].particle, ws[j].image);
    }
    forall s: nat | s in SlotsOf(ws) ensures s < Total(t) {
      var i :| 0 <= i < |ws| && ws[i].slot == s;
    }
    forall s: nat | s < Total(t) ensures s in SlotsOf(ws) {
      var w, p, k := SlotSurjective(t, s);
      var e := ImageWrite(ps, t, dom, rot, p, w, k);
      assert e in ws;
      var i :| 0 <= i < |ws| && ws[i] == e;
      assert ws[i].slot == s;
    }
  }

  // ---------------------------------------------------------------- phase 2

  /** The buffer entries at the slots of particle p's images for worker w, in image order. */
  function Fetch(buf: seq<Vec3>, t: Table, w: nat, p: nat): (vs: seq<Vec3>)
    requires |buf| == Total(t) && w < |t| && p < |t[w]|
    ensures |vs| == |t[w][p]|
  {
    seq(|t[w][p]|, k requires 0 <= k < |t[w][p]| =>
      SlotInWorkerBlock(t, w, p, k); buf[Slot(t, w, p, k)])
  }

  /** The buffer entries of particle p's images for the first n workers, worker by worker. */
  function Gather(buf: seq<Vec3>, t: Table, np: nat, p: nat, n: nat): seq<Vec3>
    requires |buf| == Total(t) && Shaped(t, np) && p < np && n <= |t|
  {
    if n == 0 then [] else Gather(buf, t, np, p, n - 1) + Fetch(buf, t, n - 1, p)
  }

  /**
   * The particle after phase 2: force and torque are the sums of the entries
   * read back for its images; with rotation off the torque stays zero.
   */
  function Received(pt: Particle, forces: seq<Vec3>, moments: seq<Vec3>, t: Table, np: nat, p: nat, rot: bool)
    : Particle
    requires |forces| == Total(t) && |moments| == Total(t) && Shaped(t, np) && p < np
  {
    pt.(f := SumVec(Gather(forces, t, np, p, |t|)),
        torque := if rot then SumVec(Gather(moments, t, np, p, |t|)) else Zero)
  }

  /**
   * Phase 2, as the source runs it: each particle's force and torque are
   * zeroed, then the same loops as phase 1 revisit its images and add the
   * force (and, with rotation on, the moment) found at each image's slot.
   */
  method ReceiveForces(ps: seq<Particle>, t: Table, rot: bool, forces: seq<Vec3>, moments: seq<Vec3>)
    returns (ps': seq<Particle>)
    requires Shaped(t, |ps|) && |forces| == Total(t) && |moments| == Total(t)
    ensures |ps'| == |ps|
    ensures forall p :: 0 <= p < |ps| ==> ps'[p] == Received(ps[p], forces, moments, t, |ps|, p, rot)
  {
    var wsize := CountImages(t, |ps|);
    var windex: seq<nat> := seq(|t|, _ => 0);
    assert forall v :: 0 <= v < |t| ==> windex[v] == Before(t, v, 0);
    ps' := ps;
    var p := 0;
    while p < |ps|
      invariant 0 <= p <= |ps| && |windex| == |t| && |ps'| == |ps|
      invariant forall v :: 0 <= v < |t| ==> windex[v] == Before(t, v, p)
      invariant forall q :: 0 <= q < p ==> ps'[q] == Received(ps[q], forces, moments, t, |ps|, q, rot)
      invariant forall q :: p <= q < |ps| ==> ps'[q] == ps[q]
    {
      var f, torque;
      f, torque, windex := ReceiveParticle(t, |ps|, rot, p, forces, moments, wsize, windex);
      ps' := ps'[p := ps'[p].(f := f, torque := torque)];
      p := p + 1;
    }
  }

  /** The worker loop of phase 2 for particle p, starting from zeroed accumulators. */
  method ReceiveParticle(t: Table, np: nat, rot: bool, p: nat, forces: seq<Vec3>, moments: seq<Vec3>,
                         wsize: seq<nat>, windex: seq<nat>)
    returns (f: Vec3, torque: Vec3, windex': seq<nat>)
    requires Shaped(t, np) && p < np && |forces| == Total(t) && |moments| == Total(t)
    requires wsize == WSize(t) && |windex| == |t|
    requires forall v :: 0 <= v < |t| ==> windex[v] == Before(t, v, p)
    ensures f == SumVec(Gather(forces, t, np, p, |t|))
    ensures torque == if rot then SumVec(Gather(moments, t, np, p, |t|)) else Zero
    ensures |windex'| == |t|
    ensures forall v :: 0 <= v < |t| ==> windex'[v] == Before(t, v, p + 1)
  {
    f, torque, windex' := Zero, Zero, windex;
    var offset := 0;
    var w := 0;
    while w < |t|
      invariant 0 <= w <= |t| && |windex'| == |t|
      invariant offset == Sum(wsize[..w])
      invariant forall v :: 0 <= v < |t| ==> windex'[v] == Progress(t, p, w, v)
      invariant f == SumVec(Gather(forces, t, np, p, w))
      invariant torque == if rot then SumVec(Gather(moments, t, np, p, w)) else Zero
    {
      ghost var fs, ms := Gather(forces, t, np, p, w), Gather(moments, t, np, p, w);
      f, torque, windex' := ReceiveFromWorker(t, np, rot, p, w, forces, moments, offset, windex', f, torque, fs, ms);
      BeforeStep(t, w, p);
      SumStep(wsize, w);
      offset := offset + wsize[w];
      w := w + 1;
    }
  }

  /** Reading the images of particle p on worker w, in slot order, onto the running sums. */
  method ReceiveFromWorker(t: Table, np: nat, rot: bool, p: nat, w: nat, forces: seq<Vec3>, moments: seq<Vec3>,
                           offset: nat, windex: seq<nat>, f0: Vec3, torque0: Vec3, ghost fs: seq<Vec3>, ghost ms: seq<Vec3>)
    returns (f: Vec3, torque: Vec3, windex': seq<nat>)
    requires Shaped(t, np) && p < np && w < |t| && |forces| == Total(t) && |moments| == Total(t)
    requires offset == Sum(WSize(t)[..w]) && |windex| == |t| && windex[w] == Before(t, w, p)
    requires f0 == SumVec(fs) && torque0 == if rot then SumVec(ms) else Zero
    ensures |windex'| == |t| && windex'[w] == Before(t, w, p) + |t[w][p]|
    ensures forall v :: 0 <= v < |t| && v != w ==> windex'[v] == windex[v]
    ensures f == SumVec(fs + Fetch(forces, t, w, p))
    ensures torque == if rot then SumVec(ms + Fetch(moments, t, w, p)) else Zero
  {
    var n := |t[w][p]|;
    var b := offset + windex[w];
    FetchSlice(forces, t, w, p, b);
    FetchSlice(moments, t, w, p, b);
    f, torque := SumRun(rot, forces, moments, b, n, f0, torque0, fs, ms);
    windex' := windex[w := windex[w] + n];
  }

  /**
   * Adding the n entries from position b on to the running sums, one by one
   * (the moments only with rotation on).
   */
  method SumRun(rot: bool, forces: seq<Vec3>, moments: seq<Vec3>, b: nat, n: nat, f0: Vec3, torque0: Vec3,
                ghost fs: seq<Vec3>, ghost ms: seq<Vec3>)
    returns (f: Vec3, torque: Vec3)
    requires b + n <= |forces| && b + n <= |moments|
    requires f0 == SumVec(fs) && torque0 == if rot then SumVec(ms) else Zero
    ensures f == SumVec(fs + forces[b..b + n])
    ensures torque == if rot then SumVec(ms + moments[b..b + n]) else Zero
  {
    f, torque := f0, torque0;
    var k := 0;
    assert fs + forces[b..b] == fs && ms + moments[b..b] == ms;
    while k < n
      invariant 0 <= k <= n
      invariant f == SumVec(fs + forces[b..b + k])
      invariant torque == if rot then SumVec(ms + moments[b..b + k]) else Zero
    {
      SliceSnoc(fs, forces, b, k);
      SumVecSnoc(fs + forces[b..b + k], forces[b + k]);
      f := Add(f, forces[b + k]);
      if rot {
        SliceSnoc(ms, moments, b, k);
        SumVecSnoc(ms + moments[b..b + k], moments[b + k]);
        torque := Add(torque, moments[b + k]);
      }
      k := k + 1;
    }
  }

  lemma SliceSnoc(pre: seq<Vec3>, s: seq<Vec3>, b: nat, k: nat)
    requires b + k < |s|
    ensures pre + s[b..b + k] + [s[b + k]] == pre + s[b..b + k + 1]
  {
    assert s[b..b + k + 1] == s[b..b + k] + [s[b + k]];
  }

  /** The slots of particle p's images on worker w end inside the buffer. */
  lemma ImagesEnd(t: Table, w: nat, p: nat)
    requires w < |t| && p < |t[w]|
    ensures Sum(WSize(t)[..w]) + Before(t, w, p) + |t[w][p]| <= Total(t)
  {
    var ws := WSize(t);
    BeforeStep(t, w, p);
    SumMonotone(Counts(t, w), p + 1, |t[w]|);
    BeforeAll(t, w);
    SumStep(ws, w);
    SumMonotone(ws, w + 1, |ws|);
    assert ws[..|ws|] == ws;
  }

  /** A particle's images on a worker occupy consecutive slots, so their entries are one slice of the buffer. */
  lemma FetchSlice(buf: seq<Vec3>, t: Table, w: nat, p: nat, b: nat)
    requires |buf| == Total(t) && w < |t| && p < |t[w]|
    requires b == Sum(WSize(t)[..w]) + Before(t, w, p)
    ensures b + |t[w][p]| <= |buf| && Fetch(buf, t, w, p) == buf[b..b + |t[w][p]|]
  {
    var n := |t[w][p]|;
    ImagesEnd(t, w, p);
    forall k | 0 <= k < n
      ensures Fetch(buf, t, w, p)[k] == buf[b..b + n][k]
    {
      SlotInWorkerBlock(t, w, p, k);
    }
    assert Fetch(buf, t, w, p) == buf[b..b + n];
  }

  /** The buffer entries at the slots of a sequence of writes. */
  function ReadAt(buf: seq<Vec3>, ws: seq<Write>): (vs: seq<Vec3>)
    requires forall i :: 0 <= i < |ws| ==> ws[i].slot < |buf|
    ensures |vs| == |ws|
  {
    seq(|ws|, i requires 0 <= i < |ws| => buf[ws[i].slot])
  }

  /**
   * Phase 2 reads back exactly what phase 1 wrote for the particle: the
   * entries it sums are the ones at the slots of that particle's writes, in
   * the same order.
   */
  lemma {:induction false} GatherReadsWrites(ps: seq<Particle>, t: Table, dom: Domain, rot: bool,
                                             buf: seq<Vec3>, p: nat, n: nat)
    requires Shaped(t, |ps|) && p < |ps| && n <= |t| && |buf| == Total(t)
    ensures var ws := WorkerWrites(ps, t, dom, rot, p, n);
            (forall i :: 0 <= i < |ws| ==> ws[i].slot < |buf|) &&
            Gather(buf, t, |ps|, p, n) == ReadAt(buf, ws)
  {
    if n > 0 {
      GatherReadsWrites(ps, t, dom, rot, buf, p, n - 1);
      var pre: seq<Write> := WorkerWrites(ps, t, dom, rot, p, n - 1);
      var last: seq<Write> := ImageWrites(ps, t, dom, rot, p, n - 1);
      ReadAtImages(ps, t, dom, rot, buf, p, n - 1);
      ReadAtSplit(buf, pre, last);
    }
  }

  /** The entries at the slots of one particle's writes for worker w are the ones phase 2 fetches. */
  lemma ReadAtImages(ps: seq<Particle>, t: Table, dom: Domain, rot: bool, buf: seq<Vec3>, p: nat, w: nat)
    requires Shaped(t, |ps|) && p < |ps| && w < |t| && |buf| == Total(t)
    ensures var ws := ImageWrites(ps, t, dom, rot, p, w);
            (forall i :: 0 <= i < |ws| ==> ws[i].slot < |buf|) &&
            ReadAt(buf, ws) == Fetch(buf, t, w, p)
  {
    var ws := ImageWrites(ps, t, dom, rot, p, w);
    forall i | 0 <= i < |ws| ensures ws[i].slot < |buf| {
      SlotInWorkerBlock(t, w, p, i);
    }
  }

  /** Reading at the slots of two batches of writes reads the first batch, then the second. */
  lemma ReadAtSplit(buf: seq<Vec3>, a: seq<Write>, b: seq<Write>)
    requires forall i :: 0 <= i < |a| ==> a[i].slot < |buf|
    requires forall i :: 0 <= i < |b| ==> b[i].slot < |buf|
    ensures forall i :: 0 <= i < |a + b| ==> (a + b)[i].slot < |buf|
    ensures ReadAt(buf, a + b) == ReadAt(buf, a) + ReadAt(buf, b)
  {
    assert forall i :: 0 <= i < |a + b| ==> (a + b)[i] == if i < |a| then a[i] else b[i - |a|];
  }

  lemma SumVecSnoc(vs: seq<Vec3>, v: Vec3)
    ensures SumVec(vs + [v]) == Add(SumVec(vs), v)
  {
    assert (vs + [v])[..|vs|] == vs;
  }
}

=== FILE: geometry_flags.dfy ===
/**
 * The scripting view of the lattice geometry: node-type groups packed into
 * one flag word per node, read back as factors, and cell-centre coordinates.
 */
module GeometryFlags {
  import opened Wrappers
  import opened Arith
  import opened Bits

  // ---------------------------------------------------------------- flag words

  /** A bit position within a word. */
  type Shift = s: nat | s < 32

  /** A node-type group: the bits `flag` hold a value stored from bit `shift` upward. */
  datatype Group = Group(name: string, flag: Word, shift: Shift)

  /** A single node type; it belongs to a group when its flag bits lie inside the group's. */
  datatype NodeType = NodeType(name: string, flag: Word)

  /** `v - 1` as the word a 32-bit int converts to: two's complement, modulo 2^32. */
  function Stored(v: int): Word
  {
    (v - 1) % Modulus
  }

  /** `x << s` on a 32-bit word: one doubling per position, bits pushed past the top are lost. */
  function ShiftUp(x: Word, s: nat): Word
    decreases s
  {
    if s == 0 then x else ShiftUp((2 * x) % Modulus, s - 1)
  }

  /** `x >> s`: one halving per position. */
  function Lowered(x: nat, s: nat): nat
    decreases s
  {
    if s == 0 then x else Lowered(x / 2, s - 1)
  }

  /** `(v - 1) << shift`, the value as it is stored in the group's bits. */
  function Placed(v: int, s: Shift): Word
  {
    ShiftUp(Stored(v), s)
  }

  /** The value a node carries in group g: one plus the group's bit field. */
  function Decode(n: Word, g: Group): int
  {
    1 + Lowered(And(n, g.flag), g.shift)
  }

  /** v can be stored in g: it is positive and placing `v - 1` loses no bit and stays inside g.flag. */
  predicate Fits(v: int, g: Group)
  {
    1 <= v <= Modulus && Lowered(Placed(v, g.shift), g.shift) == v - 1 && Within(Placed(v, g.shift), g.flag)
  }

  /**
   * Rewriting one node's group field as the source does:
   * `(N - (N & flag)) + ((v - 1) << shift)`, wrapping at the word width.
   */
  function AssignWord(n: Word, g: Group, v: int): Word
  {
    (Clear(n, g.flag) + Placed(v, g.shift)) % Modulus
  }

  /** When v fits, the placed value lies inside the group and the sum does not wrap. */
  lemma AssignNoWrap(n: Word, g: Group, v: int)
    requires Fits(v, g)
    ensures AssignWord(n, g, v) == Clear(n, g.flag) + Placed(v, g.shift)
    ensures And(AssignWord(n, g, v), g.flag) == Placed(v, g.shift)
    ensures Clear(AssignWord(n, g, v), g.flag) == Clear(n, g.flag)
  {
    var w := Placed(v, g.shift);
    ClearThenAdd(n, g.flag, w);
    var sum := Clear(n, g.flag) + w;
    DivUnique(sum, Modulus, 0, sum);
  }

  /** When v fits, assigning it leaves every bit outside the group as it was. */
  lemma AssignKeepsOutside(n: Word, g: Group, v: int)
    requires Fits(v, g)
    ensures Clear(AssignWord(n, g, v), g.flag) == Clear(n, g.flag)
  {
    AssignNoWrap(n, g, v);
  }

  /** When v fits, the group field reads back as v. */
  lemma AssignDecodes(n: Word, g: Group, v: int)
    requires Fits(v, g)
    ensures Decode(AssignWord(n, g, v), g) == v
  {
    AssignNoWrap(n, g, v);
  }

  /** A group whose bits are disjoint from g's reads the same before and after assigning g. */
  lemma AssignKeepsOtherGroup(n: Word, g: Group, h: Group, v: int)
    requires Fits(v, g) && Apart(g.flag, h.flag)
    ensures Decode(AssignWord(n, g, v), h) == Decode(n, h)
  {
    AssignNoWrap(n, g, v);
    ClearThenAddKeeps(n, g.flag, Placed(v, g.shift), h.flag);
  }

  // ---------------------------------------------------------------- assigning over the lattice

  /** One group's pass over the lattice's words; an NA entry (None) leaves its word untouched. */
  function AssignPass(ns: seq<Word>, g: Group, vs: seq<Option<int>>): (r: seq<Word>)
    requires |ns| <= |vs|
    ensures |r| == |ns|
  {
    seq(|ns|, i requires 0 <= i < |ns| => if vs[i].None? then ns[i] else AssignWord(ns[i], g, vs[i].value))
  }

  /** Some entry the pass reads is NA; the pass then reports the group, but still completes. */
  predicate SomeNa(ns: seq<Word>, vs: seq<Option<int>>)
    requires |ns| <= |vs|
  {
    exists i :: 0 <= i < |ns| && vs[i].None?
  }

  /** The lattice after an assignment, and the names of the groups reported for NA entries. */
  datatype Outcome = Outcome(words: seq<Word>, naReports: seq<string>)

  /** Where a pass writes a fitting value, the word decodes to it in g and in no other bits changes. */
  lemma PassWrites(ns: seq<Word>, g: Group, vs: seq<Option<int>>, i: nat)
    requires |ns| <= |vs| && i < |ns| && vs[i].Some? && Fits(vs[i].value, g)
    ensures Decode(AssignPass(ns, g, vs)[i], g) == vs[i].value
    ensures Clear(AssignPass(ns, g, vs)[i], g.flag) == Clear(ns[i], g.flag)
  {
    AssignDecodes(ns[i], g, vs[i].value);
    AssignKeepsOutside(ns[i], g, vs[i].value);
  }

  /** An NA entry leaves the word as it was. */
  lemma PassSkipsNa(ns: seq<Word>, g: Group, vs: seq<Option<int>>, i: nat)
    requires |ns| <= |vs| && i < |ns| && vs[i].None?
    ensures AssignPass(ns, g, vs)[i] == ns[i]
  {
  }

  /** The first group with the given name, as the model's by-name lookup finds it. */
  function Find(groups: seq<Group>, name: string): (r: Option<Group>)
    ensures r.None? <==> forall k :: 0 <= k < |groups| ==> groups[k].name != name
    ensures r.Some? ==> r.value in groups && r.value.name == name
    ensures r.Some? ==> exists k :: 0 <= k < |groups| && groups[k] == r.value &&
                                    forall j :: 0 <= j < k ==> groups[j].name != name
  {
    if |groups| == 0 then None
    else if groups[0].name == name then Some(groups[0])
    else Find(groups[1..], name)
  }

  /**
   * The assignment as the source writes it: `name` is never consulted and
   * every group in turn is rewritten from the same values.
   */
  function AssignAllGroups(ns: seq<Word>, groups: seq<Group>, name: string, vs: seq<Option<int>>): (o: Outcome)
    requires |ns| <= |vs|
    ensures |o.words| == |ns|
    decreases |groups|
  {
    if |groups| == 0 then Outcome(ns, [])
    else
      var o := AssignAllGroups(ns, groups[..|groups| - 1], name, vs);
      var g := groups[|groups| - 1];
      Outcome(AssignPass(o.words, g, vs), o.naReports + if SomeNa(ns, vs) then [g.name] else [])
  }

  /** Group flags that pairwise share no bit, as distinct groups of one model do. */
  predicate Disjoint(groups: seq<Group>)
  {
    forall a, b :: 0 <= a < b < |groups| ==> Apart(groups[a].flag, groups[b].flag)
  }

  /**
   * What the written code does: with disjoint groups and a value that fits
   * each of them, every group — not only the named one — ends up holding v.
   */
  lemma {:induction false} AssignAllGroupsWritesEvery(ns: seq<Word>, groups: seq<Group>, name: string,
                                                      vs: seq<Option<int>>, i: nat, k: nat)
    requires |ns| <= |vs| && i < |ns| && vs[i].Some? && k < |groups|
    requires Disjoint(groups) && forall j :: 0 <= j < |groups| ==> Fits(vs[i].value, groups[j])
    ensures Decode(AssignAllGroups(ns, groups, name, vs).words[i], groups[k]) == vs[i].value
    decreases |groups|
  {
    var m := |groups| - 1;
    var g := groups[m];
    var o := AssignAllGroups(ns, groups[..m], name, vs);
    if k == m {
      PassWrites(o.words, g, vs, i);
    } else {
      AssignAllGroupsWritesEvery(ns, groups[..m], name, vs, i, k);
      AndComm(groups[k].flag, g.flag);
      AssignKeepsOtherGroup(o.words[i], g, groups[k], vs[i].value);
    }
  }

  /** Two one-bit groups and a single node: assigning 2 to "a" also sets "b" to 2. */
  lemma AssignAllGroupsClobbers()
    ensures var groups := [Group("a", 1, 0), Group("b", 2, 1)];
      var o := AssignAllGroups([0], groups, "a", [Some(2)]);
      Decode(0, groups[1]) == 1 && Decode(o.words[0], groups[1]) == 2
  {
    var groups := [Group("a", 1, 0), Group("b", 2, 1)];
    assert Disjoint(groups);
    assert Fits(2, groups[0]) && Fits(2, groups[1]);
    AssignAllGroupsWritesEvery([0], groups, "a", [Some(2)], 0, 1);
  }

  /**
   * The evidently intended assignment: only the group called `name` is
   * rewritten; an unknown name is an error, as it is when reading.
   */
  function AssignGroup(ns: seq<Word>, groups: seq<Group>, name: string, vs: seq<Option<int>>): (r: Result<Outcome, string>)
    requires |ns| <= |vs|
    ensures r.Err? <==> forall k :: 0 <= k < |groups| ==> groups[k].name != name
    ensures r.Ok? ==> |r.value.words| == |ns|
  {
    match Find(groups, name)
    case None => Err("Unknown component of Geometry")
    case Some(g) => Ok(Outcome(AssignPass(ns, g, vs), if SomeNa(ns, vs) then [g.name] else []))
  }

  /**
   * The corrected assignment writes the named group where the value fits,
   * leaves NA entries alone, and keeps every group disjoint from the named one.
   */
  lemma AssignGroupSpec(ns: seq<Word>, groups: seq<Group>, name: string, vs: seq<Option<int>>, i: nat, h: Group)
    requires |ns| <= |vs| && i < |ns| && Find(groups, name).Some?
    ensures var g := Find(groups, name).value;
      var r := AssignGroup(ns, groups, name, vs).value.words;
      (vs[i].None? ==> r[i] == ns[i]) &&
      (vs[i].Some? && Fits(vs[i].value, g) ==>
        Decode(r[i], g) == vs[i].value &&
        (Apart(g.flag, h.flag) ==> Decode(r[i], h) == Decode(ns[i], h)))
  {
    var g := Find(groups, name).value;
    if vs[i].Some? && Fits(vs[i].value, g) {
      PassWrites(ns, g, vs, i);
      if Apart(g.flag, h.flag) {
        AssignKeepsOtherGroup(ns[i], g, h, vs[i].value);
      }
    }
  }

  // ---------------------------------------------------------------- reading the lattice

  /** The local region: its offset in the whole lattice and its extent. */
  datatype Region = Region(dx: int, dy: int, dz: int, nx: nat, ny: nat, nz: nat)

  function Size(reg: Region): nat
  {
    reg.nx * reg.ny * reg.nz
  }

  datatype Axis = X | Y | Z

  /** A cell of the region by its local coordinates. */
  datatype Cell = Cell(x: nat, y: nat, z: nat)

  predicate InBox(reg: Region, c: Cell)
  {
    c.x < reg.nx && c.y < reg.ny && c.z < reg.nz
  }

  /** Where a cell sits in the flat arrays handed to scripts: x fastest, then y, then z. */
  function Index(reg: Region, c: Cell): nat
  {
    c.x + reg.nx * (c.y + reg.ny * c.z)
  }

  /** The cell at a flat position (the inverse of Index on the region). */
  function CellAt(reg: Region, i: nat): Cell
  {
    if reg.nx == 0 || reg.ny == 0 then Cell(0, 0, 0)
    else Cell(i % reg.nx, (i / reg.nx) % reg.ny, (i / reg.nx) / reg.ny)
  }

  /** Index sends the region's cells below Size, and CellAt undoes it: no two cells share a position. */
  lemma IndexCell(reg: Region, c: Cell)
    requires InBox(reg, c)
    ensures Index(reg, c) < Size(reg)
    ensures CellAt(reg, Index(reg, c)) == c
  {
    IndexBelow(reg, c);
    IndexBack(reg, c);
  }

  lemma IndexBack(reg: Region, c: Cell)
    requires InBox(reg, c)
    ensures CellAt(reg, Index(reg, c)) == c
  {
    var nx, ny := reg.nx, reg.ny;
    var q := c.y + ny * c.z;
    var i := Index(reg, c);
    assert q == c.z * ny + c.y;
    DivUnique(q, ny, c.z, c.y);
    assert i == q * nx + c.x;
    DivUnique(i, nx, q, c.x);
  }

  lemma IndexBelow(reg: Region, c: Cell)
    requires InBox(reg, c)
    ensures Index(reg, c) < Size(reg)
  {
    var nx, ny, nz := reg.nx, reg.ny, reg.nz;
    var q := c.y + ny * c.z;
    assert ny * (c.z + 1) == ny * c.z + ny;
    MulMono(ny, c.z + 1, nz);
    assert q < ny * nz;
    assert nx * (q + 1) == nx * q + nx;
    MulMono(nx, q + 1, ny * nz);
    assert nx * (ny * nz) == nx * ny * nz;
  }

  /** Every position below Size is some cell's: the flat array has no gap. */
  lemma CellIndex(reg: Region, i: nat)
    requires i < Size(reg)
    ensures InBox(reg, CellAt(reg, i)) && Index(reg, CellAt(reg, i)) == i
  {
    var nx, ny := reg.nx, reg.ny;
    var q := i / nx;
    DivBelow(i, nx, ny * reg.nz);
    DivUnique(i, nx, q, i % nx);
  }

  /** The flat positions below Size and the region's cells correspond one to one. */
  lemma CellsNumbered(reg: Region)
    ensures forall i: nat :: i < Size(reg) ==> InBox(reg, CellAt(reg, i)) && Index(reg, CellAt(reg, i)) == i
    ensures forall c :: InBox(reg, c) ==> Index(reg, c) < Size(reg) && CellAt(reg, Index(reg, c)) == c
  {
    forall i: nat | i < Size(reg)
      ensures InBox(reg, CellAt(reg, i)) && Index(reg, CellAt(reg, i)) == i
    {
      CellIndex(reg, i);
    }
    forall c | InBox(reg, c)
      ensures Index(reg, c) < Size(reg) && CellAt(reg, Index(reg, c)) == c
    {
      IndexCell(reg, c);
    }
  }

  /** The coordinate a cell contributes on an axis, offset by the region's position. */
  function Coordinate(reg: Region, axis: Axis, c: Cell): int
  {
    match axis
    case X => reg.dx + c.x
    case Y => reg.dy + c.y
    case Z => reg.dz + c.z
  }

  /** The cell centre in physical units: `(offset + coordinate + 0.5) * unit`. */
  function Position(reg: Region, axis: Axis, unit: real, c: Cell): real
  {
    (Coordinate(reg, axis, c) as real + 0.5) * unit
  }

  /** The coordinate array for one axis, cell by cell in flat order. */
  function PositionsOf(reg: Region, axis: Axis, unit: real): (r: seq<real>)
    ensures |r| == Size(reg)
    ensures forall c :: InBox(reg, c) ==> Index(reg, c) < |r| && r[Index(reg, c)] == Position(reg, axis, unit, c)
  {
    var r := seq(Size(reg), i requires 0 <= i < Size(reg) => Position(reg, axis, unit, CellAt(reg, i)));
    assert forall c :: InBox(reg, c) ==> Index(reg, c) < |r| && r[Index(reg, c)] == Position(reg, axis, unit, c) by {
      forall c | InBox(reg, c)
        ensures Index(reg, c) < |r| && r[Index(reg, c)] == Position(reg, axis, unit, c)
      {
        IndexCell(reg, c);
      }
    }
    r
  }

  /** The coordinate loops as written: z outermost, x innermost, one value appended per cell. */
  method Positions(reg: Region, axis: Axis, unit: real) returns (small: seq<real>)
    ensures small == PositionsOf(reg, axis, unit)
  {
    small := [];
    var z := 0;
    while z < reg.nz
      invariant z <= reg.nz
      invariant |small| == Index(reg, Cell(0, 0, z))
      invariant Filled(small, reg, axis, unit)
    {
      small := PositionsPlane(reg, axis, unit, z, small);
      z := z + 1;
    }
    LatticeEnd(reg);
    var all := PositionsOf(reg, axis, unit);
    assert forall j :: 0 <= j < |small| ==> small[j] == all[j];
  }

  /** One z-plane of the coordinate loops. */
  method PositionsPlane(reg: Region, axis: Axis, unit: real, z: nat, prefix: seq<real>) returns (small: seq<real>)
    requires z < reg.nz && |prefix| == Index(reg, Cell(0, 0, z)) && Filled(prefix, reg, axis, unit)
    ensures |small| == Index(reg, Cell(0, 0, z + 1)) && Filled(small, reg, axis, unit)
  {
    small := prefix;
    var y := 0;
    while y < reg.ny
      invariant y <= reg.ny
      invariant |small| == Index(reg, Cell(0, y, z))
      invariant Filled(small, reg, axis, unit)
    {
      small := PositionsRow(reg, axis, unit, y, z, small);
      RowEnd(reg, y, z);
      y := y + 1;
    }
    PlaneEnd(reg, z);
  }

  /** One row of the coordinate loops: x runs fastest. */
  method PositionsRow(reg: Region, axis: Axis, unit: real, y: nat, z: nat, prefix: seq<real>) returns (small: seq<real>)
    requires y < reg.ny && z < reg.nz && |prefix| == Index(reg, Cell(0, y, z)) && Filled(prefix, reg, axis, unit)
    ensures |small| == Index(reg, Cell(reg.nx, y, z)) && Filled(small, reg, axis, unit)
  {
    small := prefix;
    var x := 0;
    while x < reg.nx
      invariant x <= reg.nx
      invariant |small| == Index(reg, Cell(x, y, z))
      invariant Filled(small, reg, axis, unit)
    {
      var v: int;
      match axis {
        case X => v := reg.dx + x;
        case Y => v := reg.dy + y;
        case Z => v := reg.dz + z;
      }
      IndexCell(reg, Cell(x, y, z));
      assert CellAt(reg, |small|) == Cell(x, y, z);
      assert (v as real + 0.5) * unit == Position(reg, axis, unit, Cell(x, y, z));
      FilledSnoc(small, (v as real + 0.5) * unit, reg, axis, unit);
      small := small + [(v as real + 0.5) * unit];
      x := x + 1;
    }
  }

  /** The first entries of a coordinate array are the positions of their cells. */
  predicate Filled(small: seq<real>, reg: Region, axis: Axis, unit: real)
  {
    forall j :: 0 <= j < |small| ==> small[j] == Position(reg, axis, unit, CellAt(reg, j))
  }

  lemma FilledSnoc(small: seq<real>, v: real, reg: Region, axis: Axis, unit: real)
    requires Filled(small, reg, axis, unit) && v == Position(reg, axis, unit, CellAt(reg, |small|))
    ensures Filled(small + [v], reg, axis, unit)
  {
  }

  lemma RowEnd(reg: Region, y: nat, z: nat)
    ensures Index(reg, Cell(reg.nx, y, z)) == Index(reg, Cell(0, y + 1, z))
  {
  }

  lemma PlaneEnd(reg: Region, z: nat)
    ensures Index(reg, Cell(0, reg.ny, z)) == Index(reg, Cell(0, 0, z + 1))
  {
  }

  lemma LatticeEnd(reg: Region)
    ensures Index(reg, Cell(0, 0, reg.nz)) == Size(reg)
  {
  }

  // ---------------------------------------------------------------- the scripting interface

  /** The node types listed as a group's factor levels: those whose flag lies inside the group's. */
  function Levels(types: seq<NodeType>, g: Group): seq<string>
  {
    if |types| == 0 then []
    else
      var t := types[|types| - 1];
      Levels(types[..|types| - 1], g) + if Within(t.flag, g.flag) then [t.name] else []
  }

  /** A name is a level exactly when some node type inside the group carries it. */
  lemma {:induction false} LevelsExact(types: seq<NodeType>, g: Group)
    ensures forall name :: name in Levels(types, g) <==>
      exists t :: t in types && Within(t.flag, g.flag) && t.name == name
  {
    if |types| != 0 {
      var init := types[..|types| - 1];
      LevelsExact(init, g);
      assert types == init + [types[|types| - 1]];
    }
  }

  /** What reading a geometry field hands back to the script. */
  datatype Reply =
    | Count(n: int)
    | Dims(extent: seq<nat>)
    | Coordinates(values: seq<real>)
    | Factor(codes: seq<int>, levels: seq<string>)

  /** The names reading recognises before it looks for a group. */
  const Fixed: seq<string> := ["dx", "dy", "dz", "X", "Y", "Z", "size", "dim"]

  /** The listed field names: the fixed ones, then every group. */
  function Names(groups: seq<Group>): (r: seq<string>)
    ensures |r| == |Fixed| + |groups|
    ensures forall k :: 0 <= k < |groups| ==> r[|Fixed| + k] == groups[k].name
  {
    Fixed + seq(|groups|, k requires 0 <= k < |groups| => groups[k].name)
  }

  /** One group's field: the decoded value of every node, with the group's levels. */
  function GroupField(ns: seq<Word>, g: Group, types: seq<NodeType>): Reply
  {
    Factor(seq(|ns|, i requires 0 <= i < |ns| => Decode(ns[i], g)), Levels(types, g))
  }

  /**
   * Reading a geometry field by name: the region's offsets, size and extent,
   * a coordinate array, or a group decoded from the flag words; any other
   * name is an error. `unit` is the length of one lattice spacing in metres.
   */
  function Read(name: string, reg: Region, ns: seq<Word>, groups: seq<Group>, types: seq<NodeType>, unit: real): Result<Reply, string>
  {
    if name == "dx" then Ok(Count(reg.dx))
    else if name == "dy" then Ok(Count(reg.dy))
    else if name == "dz" then Ok(Count(reg.dz))
    else if name == "size" then Ok(Count(Size(reg)))
    else if name == "dim" then Ok(Dims([reg.nx, reg.ny, reg.nz]))
    else if name == "X" then Ok(Coordinates(PositionsOf(reg, X, unit)))
    else if name == "Y" then Ok(Coordinates(PositionsOf(reg, Y, unit)))
    else if name == "Z" then Ok(Coordinates(PositionsOf(reg, Z, unit)))
    else match Find(groups, name)
      case None => Err("Unknown component of Geometry")
      case Some(g) => Ok(GroupField(ns, g, types))
  }

  /** Reading succeeds exactly for the names the interface lists. */
  lemma ReadKnowsNames(name: string, reg: Region, ns: seq<Word>, groups: seq<Group>, types: seq<NodeType>, unit: real)
    ensures Read(name, reg, ns, groups, types, unit).Ok? <==> name in Names(groups)
  {
    var names := Names(groups);
    if Find(groups, name).Some? {
      var k :| 0 <= k < |groups| && groups[k].name == name;
      assert names[|Fixed| + k] == name;
    }
    if name in names && name !in Fixed {
      var k :| 0 <= k < |names| && names[k] == name;
      assert groups[k - |Fixed|].name == name;
    }
  }

  /**
   * The replies fit together: `dim` lists three extents whose product is
   * `size`, each coordinate array has one entry per node, and a group reply
   * has one code per flag word, the node's group value.
   */
  lemma ReadShapes(name: string, reg: Region, ns: seq<Word>, groups: seq<Group>, types: seq<NodeType>, unit: real)
    ensures var dim := Read("dim", reg, ns, groups, types, unit);
            dim.Ok? && dim.value.Dims? && |dim.value.extent| == 3 &&
            Read("size", reg, ns, groups, types, unit) ==
              Ok(Count(dim.value.extent[0] * dim.value.extent[1] * dim.value.extent[2]))
    ensures name in ["X", "Y", "Z"] ==>
              Read(name, reg, ns, groups, types, unit).Ok? &&
              Read(name, reg, ns, groups, types, unit).value.Coordinates? &&
              |Read(name, reg, ns, groups, types, unit).value.values| == Size(reg)
    ensures name !in Fixed && Find(groups, name).Some? ==>
              Read(name, reg, ns, groups, types, unit).Ok? &&
              Read(name, reg, ns, groups, types, unit).value.Factor? &&
              var codes := Read(name, reg, ns, groups, types, unit).value.codes;
              |codes| == |ns| && forall i :: 0 <= i < |ns| ==> codes[i] == Decode(ns[i], Find(groups, name).value)
  {
  }

  /**
   * Round trip through the corrected assignment: writing values that all fit
   * the named group and reading the group back yields those values.
   */
  lemma AssignThenRead(ns: seq<Word>, groups: seq<Group>, name: string, vs: seq<Option<int>>,
                       reg: Region, types: seq<NodeType>, unit: real)
    requires |ns| == |vs| && name !in Fixed && Find(groups, name).Some?
    requires forall i :: 0 <= i < |vs| ==> vs[i].Some? && Fits(vs[i].value, Find(groups, name).value)
    ensures var words := AssignGroup(ns, groups, name, vs).value.words;
      Read(name, reg, words, groups, types, unit).Ok? &&
      Read(name, reg, words, groups, types, unit).value.codes == seq(|vs|, i requires 0 <= i < |vs| => vs[i].value)
  {
    var g := Find(groups, name).value;
    var words := AssignGroup(ns, groups, name, vs).value.words;
    forall i | 0 <= i < |ns|
      ensures Decode(words[i], g) == vs[i].value
    {
      PassWrites(ns, g, vs, i);
    }
  }
}

=== FILE: images.dfy ===
/**
 * Periodic-image enumeration: for one particle and one worker's box, the
 * integer offset range on each axis and their Cartesian product, visited
 * with x outermost and z innermost.
 */
module Images {
  import opened Particles

  /** A worker's spatial box as reported by the fluid solver; it may be undeclared. */
  datatype Box = Undeclared | Declared(lower: Vec3, upper: Vec3)

  /** The periodic set-up: which axes wrap and their period lengths (0 on non-periodic axes). */
  datatype Domain = Domain(periodic: Flags3, period: Vec3)

  /** Every periodic axis has a non-zero period (the source divides by it). */
  predicate DomainOk(dom: Domain)
  {
    forall j :: 0 <= j < 3 ==> dom.periodic.Get(j) ==> dom.period.Get(j) != 0.0
  }

  /** An inclusive integer range of image offsets; `max < min` is empty. */
  datatype Range = Range(min: int, max: int) {
    function Len(): nat
    {
      if max < min then 0 else max - min + 1
    }

    /** The offsets of the range in increasing order. */
    function Members(): (s: seq<int>)
      ensures |s| == Len()
      ensures forall i :: 0 <= i < |s| ==> s[i] == min + i
    {
      seq(Len(), i => min + i)
    }
  }

  /** An offset is among a range's members exactly when it lies between its bounds. */
  lemma MembersExact(rg: Range)
    ensures forall d :: d in rg.Members() <==> rg.min <= d <= rg.max
  {
    forall d | rg.min <= d <= rg.max ensures d in rg.Members() {
      assert rg.Members()[d - rg.min] == d;
    }
  }

  /** The "no overlap" range the source uses on a non-periodic axis. */
  const NoOverlap: Range := Range(0, -1)

  function Floor(a: real): (n: int)
    ensures n as real <= a < n as real + 1.0
  {
    a.Floor
  }

  function Ceil(a: real): (n: int)
    ensures n as real - 1.0 < a <= n as real
  {
    -((-a).Floor)
  }

  /** Lower bound of the worker region on axis j: the box, or 0 when undeclared. */
  function Lower(box: Box, j: nat): real
    requires j < 3
  {
    if box.Declared? then box.lower.Get(j) else 0.0
  }

  /** Upper bound of the worker region on axis j: the box, or the period when undeclared. */
  function Upper(box: Box, dom: Domain, j: nat): real
    requires j < 3
  {
    if box.Declared? then box.upper.Get(j) else dom.period.Get(j)
  }

  /**
   * The offset range on one axis for a sphere at x with radius r. A periodic
   * axis takes every offset whose translated sphere can reach the region; a
   * non-periodic axis takes offset 0 exactly when the sphere touches the
   * region (inclusive bounds) and the empty range otherwise.
   */
  function AxisRange(periodic: bool, prd: real, lower: real, upper: real, x: real, r: real): (rg: Range)
    requires periodic ==> prd != 0.0
    ensures !periodic ==> rg.min == 0 && rg.Len() <= 1
    ensures !periodic ==> (rg.Len() == 1 <==> x + r >= lower && x - r <= upper)
    ensures !periodic && rg.Len() == 0 ==> rg == NoOverlap
  {
    if periodic then Range(Ceil((lower - x - r) / prd), Floor((upper - x + r) / prd))
    else if x + r >= lower && x - r <= upper then Range(0, 0)
    else NoOverlap
  }

  /** The centre x moved by d whole periods prd. */
  function Shift(x: real, d: int, prd: real): real
  {
    x + d as real * prd
  }

  /** A centre c lies within r of the interval [lower, upper]. */
  predicate Near(c: real, lower: real, upper: real, r: real)
  {
    lower - r <= c <= upper + r
  }

  /** For a positive step, an integer multiple stays below a bound exactly when the integer stays below the bound's quotient's floor. */
  lemma FloorBound(n: int, b: real, prd: real)
    requires prd > 0.0
    ensures n <= Floor(b / prd) <==> n as real * prd <= b
  {
    var q := b / prd;
    assert q * prd == b;
    assert n <= Floor(q) <==> n as real <= q;
    if n as real <= q {
      assert n as real * prd <= q * prd;
    } else {
      assert n as real * prd > q * prd;
    }
  }

  lemma CeilBound(n: int, a: real, prd: real)
    requires prd > 0.0
    ensures Ceil(a / prd) <= n <==> a <= n as real * prd
  {
    var q := a / prd;
    assert q * prd == a;
    assert Ceil(q) <= n <==> q <= n as real;
    if q <= n as real {
      assert q * prd <= n as real * prd;
    } else {
      assert q * prd > n as real * prd;
    }
  }

  /**
   * On a periodic axis with positive period the range is exactly the set of
   * offsets d whose translated centre x + d*prd lies in [lower - r, upper + r].
   */
  lemma PeriodicRangeExact(prd: real, lower: real, upper: real, x: real, r: real, d: int)
    requires prd > 0.0
    ensures var rg := AxisRange(true, prd, lower, upper, x, r);
            rg.min <= d <= rg.max <==> Near(Shift(x, d, prd), lower, upper, r)
  {
    FloorBound(d, upper - x + r, prd);
    CeilBound(d, lower - x - r, prd);
  }

  /** The worked example: x = 0, r = 1, period 10, box [8, 10] gives the single offset 1. */
  lemma PeriodicExample()
    ensures AxisRange(true, 10.0, 8.0, 10.0, 0.0, 1.0) == Range(1, 1)
  {
    assert (8.0 - 0.0 - 1.0) / 10.0 == 0.7;
    assert (10.0 - 0.0 + 1.0) / 10.0 == 1.1;
  }

  /**
   * With a negative period the quotients swap roles: x = 5, r = 1, period -10
   * and box [0, 10] give the empty range although the untranslated sphere
   * lies inside the box. With an undeclared box the region is [0, -10], and
   * the only offset visited, 1, moves the centre to -5, outside [-1, -9].
   */
  lemma NegativePeriodMisses()
    ensures AxisRange(true, -10.0, 0.0, 10.0, 5.0, 1.0) == Range(1, -1)
    ensures AxisRange(true, -10.0, 0.0, 10.0, 5.0, 1.0).Len() == 0
    ensures Near(Shift(5.0, 0, -10.0), 0.0, 10.0, 1.0)
    ensures AxisRange(true, -10.0, 0.0, -10.0, 5.0, 1.0) == Range(1, 1)
    ensures !Near(Shift(5.0, 1, -10.0), 0.0, -10.0, 1.0)
  {
    assert (0.0 - 5.0 - 1.0) / -10.0 == 0.6;
    assert (10.0 - 5.0 + 1.0) / -10.0 == -0.6;
    assert (-10.0 - 5.0 + 1.0) / -10.0 == 1.4;
  }

  /** The range of one particle against one worker on axis j. */
  function AxisRangeOf(x: Vec3, r: real, box: Box, dom: Domain, j: nat): Range
    requires j < 3 && DomainOk(dom)
  {
    AxisRange(dom.periodic.Get(j), dom.period.Get(j), Lower(box, j), Upper(box, dom, j), x.Get(j), r)
  }

  /**
   * With an undeclared box a non-periodic axis uses the region [0, period] =
   * [0, 0], so only spheres touching the origin plane are exchanged.
   */
  lemma UndeclaredNonPeriodicAxis(x: Vec3, r: real, dom: Domain, j: nat)
    requires j < 3 && DomainOk(dom) && !dom.periodic.Get(j) && dom.period.Get(j) == 0.0
    ensures AxisRangeOf(x, r, Undeclared, dom, j).Len() == 1 <==> -r <= x.Get(j) <= r
  {
  }

  // ---------------------------------------------------------------- product

  predicate Increasing(s: seq<int>)
  {
    forall i, j :: 0 <= i < j < |s| ==> s[i] < s[j]
  }

  /** Lexicographic order on offsets, x most significant: the nesting order of the loops. */
  predicate LexLess(a: Offset, b: Offset)
  {
    a.x < b.x || (a.x == b.x && (a.y < b.y || (a.y == b.y && a.z < b.z)))
  }

  predicate LexSorted(s: seq<Offset>)
  {
    forall i, j :: 0 <= i < j < |s| ==> LexLess(s[i], s[j])
  }

  /** The innermost loop: z varies. */
  function Row(a: int, b: int, zs: seq<int>): (s: seq<Offset>)
    ensures |s| == |zs|
    ensures forall k :: 0 <= k < |s| ==> s[k] == Offset(a, b, zs[k])
  {
    seq(|zs|, k requires 0 <= k < |zs| => Offset(a, b, zs[k]))
  }

  /** One more block of b * c elements in front of n - 1 of them. */
  lemma ConsLength(n: nat, b: nat, c: nat)
    requires n >= 1
    ensures b * c + (n - 1) * b * c == n * b * c
    ensures b == 1 ==> c + (n - 1) * c == n * c
  {
  }

  /** The middle loop: y varies, each y running through all z. */
  function Plane(a: int, ys: seq<int>, zs: seq<int>): (s: seq<Offset>)
    ensures |s| == |ys| * |zs|
    ensures forall o :: o in s <==> o.x == a && o.y in ys && o.z in zs
  {
    if |ys| == 0 then []
    else
      var head := Row(a, ys[0], zs);
      var tail := Plane(a, ys[1..], zs);
      ConsLength(|ys|, 1, |zs|);
      assert forall o :: o in head <==> o.x == a && o.y == ys[0] && o.z in zs by {
        forall o | o in head ensures o.z in zs {
          var k :| 0 <= k < |head| && head[k] == o;
        }
        forall o: Offset | o.x == a && o.y == ys[0] && o.z in zs ensures o in head {
          var k :| 0 <= k < |zs| && zs[k] == o.z;
          assert head[k] == o;
        }
      }
      assert forall b :: b in ys <==> b == ys[0] || b in ys[1..];
      head + tail
  }

  /** The outer loop: x varies, each x running through all (y, z). */
  function Product(xs: seq<int>, ys: seq<int>, zs: seq<int>): (s: seq<Offset>)
    ensures |s| == |xs| * |ys| * |zs|
    ensures forall o :: o in s <==> o.x in xs && o.y in ys && o.z in zs
  {
    if |xs| == 0 then []
    else
      var head := Plane(xs[0], ys, zs);
      var tail := Product(xs[1..], ys, zs);
      ConsLength(|xs|, |ys|, |zs|);
      assert forall a :: a in xs <==> a == xs[0] || a in xs[1..];
      head + tail
  }

  /** Concatenating two sorted runs, the first wholly below the second, stays sorted. */
  lemma SortedConcat(a: seq<Offset>, b: seq<Offset>)
    requires LexSorted(a) && LexSorted(b)
    requires forall i, j :: 0 <= i < |a| && 0 <= j < |b| ==> LexLess(a[i], b[j])
    ensures LexSorted(a + b)
  {
  }

  lemma {:induction false} PlaneSorted(a: int, ys: seq<int>, zs: seq<int>)
    requires Increasing(ys) && Increasing(zs)
    ensures LexSorted(Plane(a, ys, zs))
    decreases |ys|
  {
    if |ys| > 0 {
      var head := Row(a, ys[0], zs);
      var tail := Plane(a, ys[1..], zs);
      PlaneSorted(a, ys[1..], zs);
      forall i, j | 0 <= i < |head| && 0 <= j < |tail| ensures LexLess(head[i], tail[j]) {
        assert tail[j] in tail;
        var k :| 0 <= k < |ys[1..]| && ys[1..][k] == tail[j].y;
      }
      SortedConcat(head, tail);
    }
  }

  lemma {:induction false} ProductSorted(xs: seq<int>, ys: seq<int>, zs: seq<int>)
    requires Increasing(xs) && Increasing(ys) && Increasing(zs)
    ensures LexSorted(Product(xs, ys, zs))
    decreases |xs|
  {
    if |xs| > 0 {
      var head := Plane(xs[0], ys, zs);
      var tail := Product(xs[1..], ys, zs);
      PlaneSorted(xs[0], ys, zs);
      ProductSorted(xs[1..], ys, zs);
      forall i, j | 0 <= i < |head| && 0 <= j < |tail| ensures LexLess(head[i], tail[j]) {
        assert head[i] in head;
        assert tail[j] in tail;
        var k :| 0 <= k < |xs[1..]| && xs[1..][k] == tail[j].x;
      }
      SortedConcat(head, tail);
    }
  }

  /** The image offsets of a particle for one worker, in the order all three phases visit them. */
  function Offsets(x: Vec3, r: real, box: Box, dom: Domain): seq<Offset>
    requires DomainOk(dom)
  {
    var rx := AxisRangeOf(x, r, box, dom, 0);
    var ry := AxisRangeOf(x, r, box, dom, 1);
    var rz := AxisRangeOf(x, r, box, dom, 2);
    Product(rx.Members(), ry.Members(), rz.Members())
  }

  /** Offset d's component lies in the range of axis j. */
  predicate InAxisRange(x: Vec3, r: real, box: Box, dom: Domain, d: Offset, j: nat)
    requires j < 3 && DomainOk(dom)
  {
    var rg := AxisRangeOf(x, r, box, dom, j);
    rg.min <= d.Get(j) <= rg.max
  }

  /** The product of three ranges: its size, its members and its order. */
  lemma RangeProduct(rx: Range, ry: Range, rz: Range)
    ensures var os := Product(rx.Members(), ry.Members(), rz.Members());
            && |os| == rx.Len() * ry.Len() * rz.Len()
            && (|os| == 0 <==> rx.Len() == 0 || ry.Len() == 0 || rz.Len() == 0)
            && (forall d :: d in os <==> rx.min <= d.x <= rx.max && ry.min <= d.y <= ry.max && rz.min <= d.z <= rz.max)
            && LexSorted(os)
  {
    ProductSorted(rx.Members(), ry.Members(), rz.Members());
    MembersExact(rx);
    MembersExact(ry);
    MembersExact(rz);
    if rx.Len() != 0 && ry.Len() != 0 && rz.Len() != 0 {
      assert rx.Len() * ry.Len() >= 1;
      assert rx.Len() * ry.Len() * rz.Len() >= 1;
    }
  }

  /**
   * The enumeration: the image count is the product of the three range
   * lengths (so zero when any axis is empty), an offset is visited exactly
   * when each component lies in its axis range, and the visiting order is
   * strictly lexicographic with x outermost, so no offset is visited twice.
   */
  lemma OffsetsSpec(x: Vec3, r: real, box: Box, dom: Domain)
    requires DomainOk(dom)
    ensures var os := Offsets(x, r, box, dom);
            var rx := AxisRangeOf(x, r, box, dom, 0);
            var ry := AxisRangeOf(x, r, box, dom, 1);
            var rz := AxisRangeOf(x, r, box, dom, 2);
            && |os| == rx.Len() * ry.Len() * rz.Len()
            && (|os| == 0 <==> rx.Len() == 0 || ry.Len() == 0 || rz.Len() == 0)
            && (forall d :: d in os <==>
                  InAxisRange(x, r, box, dom, d, 0) && InAxisRange(x, r, box, dom, d, 1)
                  && InAxisRange(x, r, box, dom, d, 2))
            && LexSorted(os)
  {
    var rx := AxisRangeOf(x, r, box, dom, 0);
    var ry := AxisRangeOf(x, r, box, dom, 1);
    var rz := AxisRangeOf(x, r, box, dom, 2);
    RangeProduct(rx, ry, rz);
    forall d: Offset
      ensures InAxisRange(x, r, box, dom, d, 0) <==> rx.min <= d.x <= rx.max
      ensures InAxisRange(x, r, box, dom, d, 1) <==> ry.min <= d.y <= ry.max
      ensures InAxisRange(x, r, box, dom, d, 2) <==> rz.min <= d.z <= rz.max
    {
      assert d.Get(0) == d.x && d.Get(1) == d.y && d.Get(2) == d.z;
    }
  }

  /** The centre of an image: the particle centre shifted by whole periods. */
  function Translate(x: Vec3, d: Offset, period: Vec3): Vec3
  {
    Vec3(Shift(x.x, d.x, period.x), Shift(x.y, d.y, period.y), Shift(x.z, d.z, period.z))
  }

  /**
   * Every visited image reaches the worker's region: on each periodic axis
   * (positive period) its centre lies within r of [lower, upper]; on each
   * non-periodic axis it is untranslated and the sphere touches the region.
   */
  lemma ImagesReachRegion(x: Vec3, r: real, box: Box, dom: Domain, d: Offset, j: nat)
    requires DomainOk(dom) && j < 3 && d in Offsets(x, r, box, dom)
    requires dom.periodic.Get(j) ==> dom.period.Get(j) > 0.0
    ensures dom.periodic.Get(j) ==>
              Near(Shift(x.Get(j), d.Get(j), dom.period.Get(j)), Lower(box, j), Upper(box, dom, j), r)
    ensures !dom.periodic.Get(j) ==>
              d.Get(j) == 0 && x.Get(j) + r >= Lower(box, j) && x.Get(j) - r <= Upper(box, dom, j)
  {
    assert InAxisRange(x, r, box, dom, d, j) by {
      OffsetsSpec(x, r, box, dom);
      if j == 0 {
        assert InAxisRange(x, r, box, dom, d, 0);
      } else if j == 1 {
        assert InAxisRange(x, r, box, dom, d, 1);
      } else {
        assert InAxisRange(x, r, box, dom, d, 2);
      }
    }
    AxisReach(dom.periodic.Get(j), dom.period.Get(j), Lower(box, j), Upper(box, dom, j), x.Get(j), r, d.Get(j));
  }

  /** One axis of the above, on plain numbers. */
  lemma AxisReach(periodic: bool, prd: real, lower: real, upper: real, x: real, r: real, d: int)
    requires periodic ==> prd > 0.0
    requires var rg := AxisRange(periodic, prd, lower, upper, x, r); rg.min <= d <= rg.max
    ensures periodic ==> Near(Shift(x, d, prd), lower, upper, r)
    ensures !periodic ==> d == 0 && x + r >= lower && x - r <= upper
  {
    if periodic {
      PeriodicRangeExact(prd, lower, upper, x, r, d);
    }
  }
}

=== FILE: integrator.dfy ===
/**
 * The per-iteration particle update: an ease-in ramp that drives a particle
 * towards its target velocities, then free motion under the coupled force
 * and an oscillating body acceleration, then a position advance.
 */
module Integrator {
  import opened Particles

  /**
   * `c(u)` stands for cos(pi * u), supplied by the C math library. The model
   * relies only on its range and on cos(0) == 1.
   */
  type CosPi = c: real -> real | (forall u :: -1.0 <= c(u) <= 1.0) && c(0.0) == 1.0
    witness u => 1.0

  /** The run-wide integration settings: time step, body acceleration and its frequency. */
  datatype Motion = Motion(dt: real, acc: Vec3, afreq: real)

  /** Simulated time at an iteration. */
  function Time(mo: Motion, iter: nat): real
  {
    mo.dt * iter as real
  }

  /** The ease-in factor (1 - cos(pi t / T)) / 2: starts at 0 and never leaves [0, 1]. */
  function RampFactor(cos: CosPi, t: real, easeIn: real): (fac: real)
    requires easeIn > 0.0
    ensures 0.0 <= fac <= 1.0
    ensures t == 0.0 ==> fac == 0.0
  {
    (1.0 - cos(t / easeIn)) / 2.0
  }

  /** The body-acceleration term: acc * cos(2 pi t f). */
  function BodyKick(mo: Motion, t: real, cos: CosPi): Vec3
  {
    Scale(mo.acc, cos(2.0 * t * mo.afreq))
  }

  /** The force term f / m * dt, applied only to particles with positive mass. */
  function ForceKick(p: Particle, dt: real): Vec3
  {
    if p.m > 0.0 then Scale(p.f, dt / p.m) else Zero
  }

  /** Moves the particle by its (already updated) velocity over one time step. */
  function Advance(p: Particle, dt: real): Particle
  {
    p.(x := Add(p.x, Scale(p.v, dt)))
  }

  /** One integrator step for one particle at iteration `iter`. */
  function Step(p: Particle, mo: Motion, iter: nat, cos: CosPi): (q: Particle)
    ensures q.favg == Add(p.favg, p.f)
    ensures q.x == Add(p.x, Scale(q.v, mo.dt))
    ensures q.easeIn == p.easeIn || q.easeIn == 0.0
    ensures q.r == p.r && q.m == p.m && q.v0 == p.v0 && q.omega0 == p.omega0
    ensures q.f == p.f && q.torque == p.torque && q.n == p.n && q.logging == p.logging
  {
    var t := Time(mo, iter);
    var p1 := p.(favg := Add(p.favg, p.f));
    if p.easeIn > 0.0 then
      if p.easeIn > t then
        var fac := RampFactor(cos, t, p.easeIn);
        Advance(p1.(v := Scale(p.v0, fac), omega := Scale(p.omega0, fac)), mo.dt)
      else
        Advance(p1.(v := p.v0, omega := p.omega0, easeIn := 0.0), mo.dt)
    else
      Advance(p1.(v := Add(Add(p.v, ForceKick(p, mo.dt)), BodyKick(mo, t, cos))), mo.dt)
  }

  /**
   * While the ramp runs, velocity and angular velocity are the targets scaled
   * by one common factor in [0, 1], and the ramp time is kept.
   */
  lemma RampScalesTargets(p: Particle, mo: Motion, iter: nat, cos: CosPi) returns (fac: real)
    requires 0.0 < p.easeIn && Time(mo, iter) < p.easeIn
    ensures 0.0 <= fac <= 1.0
    ensures var q := Step(p, mo, iter, cos);
            q.v == Scale(p.v0, fac) && q.omega == Scale(p.omega0, fac) && q.easeIn == p.easeIn
    ensures iter == 0 ==> fac == 0.0
  {
    fac := RampFactor(cos, Time(mo, iter), p.easeIn);
  }

  /** The first step at or past the ramp time snaps to the targets and ends the ramp for good. */
  lemma RampEnds(p: Particle, mo: Motion, iter: nat, cos: CosPi)
    requires 0.0 < p.easeIn <= Time(mo, iter)
    ensures var q := Step(p, mo, iter, cos);
            q.v == p.v0 && q.omega == p.omega0 && q.easeIn == 0.0
  {
  }

  /**
   * Free motion: the ramp stays off, the angular velocity is never changed,
   * and the velocity gains the force term (positive mass only) plus the body
   * term, whatever the mass.
   */
  lemma FreeMotion(p: Particle, mo: Motion, iter: nat, cos: CosPi)
    requires p.easeIn <= 0.0
    ensures var q := Step(p, mo, iter, cos);
            q.easeIn == p.easeIn && q.omega == p.omega &&
            q.v == Add(Add(p.v, ForceKick(p, mo.dt)), BodyKick(mo, Time(mo, iter), cos))
    ensures p.m <= 0.0 ==> Step(p, mo, iter, cos).v == Add(p.v, BodyKick(mo, Time(mo, iter), cos))
  {
    if p.m <= 0.0 {
      assert ForceKick(p, mo.dt) == Zero;
    }
  }

  /** A free step without body acceleration: one kick f dt / m, then the move. */
  lemma FreeKick(p: Particle, mo: Motion, iter: nat, cos: CosPi)
    requires p.easeIn <= 0.0 && p.m > 0.0 && mo.acc == Zero
    ensures var q := Step(p, mo, iter, cos);
            q.easeIn == p.easeIn && q.v == Add(p.v, Scale(p.f, mo.dt / p.m)) &&
            q.x == Add(p.x, Scale(q.v, mo.dt))
  {
    assert BodyKick(mo, Time(mo, iter), cos) == Zero;
  }

  /** n steps starting at iteration `iter`, with the force held fixed. */
  function Steps(p: Particle, mo: Motion, iter: nat, n: nat, cos: CosPi): (q: Particle)
    ensures q.f == p.f && q.m == p.m
  {
    if n == 0 then p else Step(Steps(p, mo, iter, n - 1, cos), mo, iter + n - 1, cos)
  }

  /** Once the ramp is over it never restarts. */
  lemma {:induction false} RampOneWay(p: Particle, mo: Motion, iter: nat, n: nat, cos: CosPi)
    requires p.easeIn <= 0.0
    ensures Steps(p, mo, iter, n, cos).easeIn == p.easeIn
    ensures Steps(p, mo, iter, n, cos).omega == p.omega
  {
    if n > 0 {
      RampOneWay(p, mo, iter, n - 1, cos);
    }
  }

  /** Velocity after n kicks a: v + n a. */
  function Fall(v: real, a: real, n: nat): real
  {
    v + a * n as real
  }

  /** Position after n kick-then-move steps: x + dt (n v + n(n+1)/2 a). */
  function Drop(x: real, v: real, a: real, dt: real, n: nat): real
  {
    x + (v * n as real + a * ((n * (n + 1)) as real / 2.0)) * dt
  }

  function FallV(v: Vec3, a: Vec3, n: nat): Vec3
  {
    Vec3(Fall(v.x, a.x, n), Fall(v.y, a.y, n), Fall(v.z, a.z, n))
  }

  function DropV(x: Vec3, v: Vec3, a: Vec3, dt: real, n: nat): Vec3
  {
    Vec3(Drop(x.x, v.x, a.x, dt, n), Drop(x.y, v.y, a.y, dt, n), Drop(x.z, v.z, a.z, dt, n))
  }

  /** One more kick and one more move extend both closed forms by one step. */
  lemma ScalarFall(v: real, a: real, x: real, dt: real, m: nat)
    ensures Fall(v, a, m) + a == Fall(v, a, m + 1)
    ensures Drop(x, v, a, dt, m) + Fall(v, a, m + 1) * dt == Drop(x, v, a, dt, m + 1)
  {
    assert ((m + 1) * (m + 2)) as real / 2.0 == (m * (m + 1)) as real / 2.0 + (m + 1) as real;
  }

  /**
   * Free fall under a constant force with no body acceleration: after n
   * steps the velocity has gained n kicks a = f dt / m, and the position
   * has moved by dt (n v + n(n+1)/2 a), because each step moves by the
   * already-kicked velocity.
   */
  lemma {:induction false} ConstantForce(p: Particle, mo: Motion, iter: nat, n: nat, cos: CosPi)
    requires p.easeIn <= 0.0 && p.m > 0.0 && mo.acc == Zero
    ensures var a := Scale(p.f, mo.dt / p.m);
            var q := Steps(p, mo, iter, n, cos);
            q.v == FallV(p.v, a, n) && q.x == DropV(p.x, p.v, a, mo.dt, n)
  {
    var a := Scale(p.f, mo.dt / p.m);
    if n == 0 {
      assert FallV(p.v, a, 0) == p.v;
      assert DropV(p.x, p.v, a, mo.dt, 0) == p.x;
    } else {
      ConstantForce(p, mo, iter, n - 1, cos);
      RampOneWay(p, mo, iter, n - 1, cos);
      FallStep(p.x, p.v, a, mo.dt, n - 1);
      OneMoreStep(p, mo, iter, n - 1, cos);
    }
  }

  /** The inductive step of ConstantForce: one free kick-and-move. */
  lemma OneMoreStep(p: Particle, mo: Motion, iter: nat, m: nat, cos: CosPi)
    requires p.m > 0.0 && mo.acc == Zero
    requires Steps(p, mo, iter, m, cos).easeIn <= 0.0
    ensures var q0 := Steps(p, mo, iter, m, cos);
            var q := Steps(p, mo, iter, m + 1, cos);
            q.v == Add(q0.v, Scale(p.f, mo.dt / p.m)) && q.x == Add(q0.x, Scale(q.v, mo.dt))
  {
    FreeKick(Steps(p, mo, iter, m, cos), mo, iter + m, cos);
  }

  /** The vector form of ScalarFall. */
  lemma FallStep(x: Vec3, v: Vec3, a: Vec3, dt: real, m: nat)
    ensures Add(FallV(v, a, m), a) == FallV(v, a, m + 1)
    ensures Add(DropV(x, v, a, dt, m), Scale(FallV(v, a, m + 1), dt)) == DropV(x, v, a, dt, m + 1)
  {
    ScalarFall(v.x, a.x, x.x, dt, m);
    ScalarFall(v.y, a.y, x.y, dt, m);
    ScalarFall(v.z, a.z, x.z, dt, m);
  }

  /**
   * The start-up correction: every particle's velocity is moved back by half
   * the body acceleration; nothing else changes.
   */
  function HalfStepBack(ps: seq<Particle>, acc: Vec3): (qs: seq<Particle>)
    ensures |qs| == |ps|
    ensures forall i :: 0 <= i < |ps| ==> qs[i] == ps[i].(v := Add(ps[i].v, Scale(acc, -0.5)))
  {
    seq(|ps|, i requires 0 <= i < |ps| => ps[i].(v := Add(ps[i].v, Scale(acc, -0.5))))
  }

  /**
   * Why the correction is there: a free particle that starts at rest with no
   * force ends the first step (t = 0, where the cosine is 1) moving at half
   * the body acceleration, the mean of its speed before and after.
   */
  lemma FirstStepHalfKick(p: Particle, mo: Motion, cos: CosPi)
    requires p.easeIn <= 0.0 && p.v == Zero && p.f == Zero
    ensures Step(HalfStepBack([p], mo.acc)[0], mo, 0, cos).v == Scale(mo.acc, 0.5)
  {
    assert Time(mo, 0) == 0.0;
    assert 2.0 * Time(mo, 0) * mo.afreq == 0.0;
  }
}

=== FILE: keep.dfy ===
/**
 * The Keep handler: it holds a global quantity of the simulation on one side
 * of a threshold (or at it) by writing, every time it runs, a correction
 * proportional to the distance from the threshold into a zone setting.
 */
module Keep {
  import opened Wrappers

  /** Which side of the threshold the global is kept on (stored by the handler as 1, -1 and 0). */
  datatype Mode = Above | Below | Equal

  /** The flags of the solver's iteration type; only the last-global flag is named here. */
  datatype IterFlag = LastGlob | OtherFlag(bit: nat)

  type IterType = set<IterFlag>

  /** A global the model declares: its index among the globals and the zone setting it drives. */
  datatype Global = Global(id: nat, inObj: nat)

  /**
   * The attributes of the handler's element, as read: the global's name, the
   * three thresholds, the force factor.
   */
  datatype KeepNode = KeepNode(
    what: Option<string>, above: Option<real>, below: Option<real>, equal: Option<real>, force: Option<real>)

  datatype KeepError = NoWhat | UnknownGlobal(name: string) | NoThreshold

  /** A started handler: the global watched, the threshold and mode, the force, and the iteration type to restore. */
  datatype Keeper = Keeper(what: nat, whatInObj: nat, thr: real, mode: Mode, force: real, oldIterType: IterType)

  /** Choosing the threshold: Above wins over Below, Below over Equal. */
  function Threshold(node: KeepNode): (r: Option<(real, Mode)>)
    ensures r.None? <==> node.above.None? && node.below.None? && node.equal.None?
    ensures node.above.Some? ==> r == Some((node.above.value, Above))
    ensures node.above.None? && node.below.Some? ==> r == Some((node.below.value, Below))
    ensures node.above.None? && node.below.None? && node.equal.Some? ==> r == Some((node.equal.value, Equal))
  {
    if node.above.Some? then Some((node.above.value, Above))
    else if node.below.Some? then Some((node.below.value, Below))
    else if node.equal.Some? then Some((node.equal.value, Equal))
    else None
  }

  /** The force factor, one when the attribute is absent. */
  function Force(node: KeepNode): real
  {
    match node.force
    case None => 1.0
    case Some(f) => f
  }

  /**
   * Starting the handler: the global must be named and known, a threshold
   * must be given; on success the last-global flag is added to the
   * iteration type and the previous iteration type is remembered.
   */
  function Init(node: KeepNode, globals: map<string, Global>, iterType: IterType): (r: Result<(Keeper, IterType), KeepError>)
    ensures node.what.None? ==> r == Err(NoWhat)
    ensures node.what.Some? && node.what.value !in globals ==> r == Err(UnknownGlobal(node.what.value))
    ensures r.Ok? <==> node.what.Some? && node.what.value in globals && Threshold(node).Some?
    ensures r.Ok? ==> r.value.1 == iterType + {LastGlob} && r.value.0.oldIterType == iterType
    ensures r.Ok? ==> var k := r.value.0;
      k.what == globals[node.what.value].id && k.whatInObj == globals[node.what.value].inObj
      && (k.thr, k.mode) == Threshold(node).value && k.force == Force(node)
  {
    match node.what
    case None => Err(NoWhat)
    case Some(nm) =>
      if nm !in globals then Err(UnknownGlobal(nm))
      else match Threshold(node)
        case None => Err(NoThreshold)
        case Some((thr, mode)) =>
          Ok((Keeper(globals[nm].id, globals[nm].inObj, thr, mode, Force(node), iterType), iterType + {LastGlob}))
  }

  /**
   * The correction for one reading of the global: the scaled distance to the
   * threshold, kept only when it pushes the global in the mode's direction.
   */
  function Correction(mode: Mode, thr: real, force: real, value: real): (s: real)
    ensures s == 0.0 || s == (thr - value) * force
    ensures mode == Below ==> s <= 0.0
    ensures mode == Above ==> s >= 0.0
  {
    var v := (thr - value) * force;
    match mode
    case Below => if v < 0.0 then v else 0.0
    case Equal => v
    case Above => if v > 0.0 then v else 0.0
  }

  /**
   * With a positive force, Above corrects exactly when the global is below the
   * threshold, Below exactly when it is above, and Equal whenever it is off;
   * a correction points from the global towards the threshold.
   */
  lemma CorrectsWrongSide(mode: Mode, thr: real, force: real, value: real)
    requires force > 0.0
    ensures mode == Above ==> (Correction(mode, thr, force, value) != 0.0 <==> value < thr)
    ensures mode == Below ==> (Correction(mode, thr, force, value) != 0.0 <==> value > thr)
    ensures mode == Equal ==> (Correction(mode, thr, force, value) != 0.0 <==> value != thr)
    ensures Correction(mode, thr, force, value) != 0.0 ==> (Correction(mode, thr, force, value) > 0.0 <==> value < thr)
  {
    var d := thr - value;
    assert d > 0.0 ==> d * force > 0.0;
    assert d < 0.0 ==> d * force < 0.0;
    assert d == 0.0 ==> d * force == 0.0;
  }

  /** Each mode is the projection of the full correction onto its side: the larger of it and zero, the smaller, or itself. */
  lemma CorrectionProjects(mode: Mode, thr: real, force: real, value: real)
    ensures var v := (thr - value) * force;
      Correction(mode, thr, force, value) == match mode
        case Above => if v >= 0.0 then v else 0.0
        case Below => if v <= 0.0 then v else 0.0
        case Equal => v
  {
  }

  /** What one run writes: the zone setting, the zone (-1 for every zone) and the value. */
  datatype ZoneWrite = ZoneWrite(setting: nat, zone: int, value: real)

  /** One run of the handler, given the current value of the watched global. */
  function DoIt(k: Keeper, value: real): ZoneWrite
  {
    ZoneWrite(k.whatInObj, -1, Correction(k.mode, k.thr, k.force, value))
  }

  /** Stopping the handler hands back the iteration type it found. */
  function Finish(k: Keeper): IterType
  {
    k.oldIterType
  }

  /**
   * A handler started from a node steers the named global: every run writes to
   * that global's zone setting in every zone, and with a positive force it
   * writes something exactly when the global is on the wrong side of the
   * chosen threshold, pushing it back towards the threshold.
   */
  lemma KeepSteers(node: KeepNode, globals: map<string, Global>, iterType: IterType, value: real)
    requires Init(node, globals, iterType).Ok? && Force(node) > 0.0
    ensures var k := Init(node, globals, iterType).value.0;
      var w := DoIt(k, value);
      var (thr, mode) := Threshold(node).value;
      && w.setting == globals[node.what.value].inObj && w.zone == -1
      && (mode == Above ==> (w.value != 0.0 <==> value < thr))
      && (mode == Below ==> (w.value != 0.0 <==> value > thr))
      && (mode == Equal ==> (w.value != 0.0 <==> value != thr))
      && (w.value > 0.0 ==> value < thr) && (w.value < 0.0 ==> value > thr)
  {
    var k := Init(node, globals, iterType).value.0;
    CorrectsWrongSide(k.mode, k.thr, k.force, value);
  }

  /** Starting and then stopping leaves the iteration type exactly as it was, even if the flag was set before. */
  lemma InitFinishRestores(node: KeepNode, globals: map<string, Global>, iterType: IterType)
    requires Init(node, globals, iterType).Ok?
    ensures LastGlob in Init(node, globals, iterType).value.1
    ensures Init(node, globals, iterType).value.1 - {LastGlob} == iterType - {LastGlob}
    ensures Finish(Init(node, globals, iterType).value.0) == iterType
  {
  }
}

=== FILE: part_config.dfy ===
/**
 * Validation of the particle program's configuration element: the root
 * attributes, Particle, Periodic and Log children. Unknown names are fatal.
 */
module PartConfig {
  import opened Wrappers
  import opened Particles
  import AttrName

  /**
   * One XML attribute: its name, its text and the XML library's numeric,
   * integer and boolean readings of that text (the parsing itself is the
   * library's and is not modelled).
   */
  datatype Attr = Attr(name: string, text: string, asDouble: real, asInt: int, asBool: bool)

  /** A child element of the configuration root, with its attributes in document order. */
  datatype Node = Node(name: string, attrs: seq<Attr>)

  /** XML attribute names are never empty. */
  predicate NamesNonEmpty(attrs: seq<Attr>)
  {
    forall i :: 0 <= i < |attrs| ==> |attrs[i].name| > 0
  }

  predicate NodesWellFormed(nodes: seq<Node>)
  {
    forall i :: 0 <= i < |nodes| ==> NamesNonEmpty(nodes[i].attrs)
  }

  datatype ConfigError =
    | UnknownAttribute(attr: string, element: string)
    | NoRadius
    | DuplicateLog(element: string)
    | StrideTooSmall(attr: string, element: string)
    | NoLogFile(element: string)
    | UnknownNode(node: string, parent: string)

  /** The Log element's settings; `enabled` is the source's `logging` flag. */
  datatype LogSetup = LogSetup(enabled: bool, filename: string, stride: int, average: bool, rotation: bool)

  /** Everything the configuration determines before the first iteration. */
  datatype Setup = Setup(
    dt: real, acc: Vec3, afreq: real,
    particles: seq<Particle>,
    periodic: Flags3, period: Vec3, origin: Vec3,
    log: LogSetup)

  const RootName: string := "SimplePart"
  const LogSuffix: string := "_SP_Log.csv"

  /** The names each element accepts; an independent list to check the dispatch against. */
  const RootNames: set<string> := {"dt", "ax", "ay", "az", "afreq"}
  const ParticleKeywords: set<string> := {"r", "m", "log", "ease-in"}
  const ParticleNames: set<string> :=
    Components("") + Components("v") + Components("omega") + ParticleKeywords
  const PeriodicNames: set<string> := Components("") + Components("p")
  const LogNames: set<string> := {"name", "Iterations", "average", "rotation"}

  /** The three component names of a vector attribute stem. */
  function Components(stem: string): set<string>
  {
    {stem + "x", stem + "y", stem + "z"}
  }

  /** Non-periodic axes keep period 0: the period is only ever set with the flag. */
  predicate PeriodsConsistent(periodic: Flags3, period: Vec3)
  {
    && (!periodic.x ==> period.x == 0.0)
    && (!periodic.y ==> period.y == 0.0)
    && (!periodic.z ==> period.z == 0.0)
  }

  /** What every accepted configuration guarantees. */
  predicate Valid(s: Setup)
  {
    && (forall i :: 0 <= i < |s.particles| ==> s.particles[i].n == i && s.particles[i].r > 0.0)
    && s.log.stride >= 1
    && (s.log.enabled ==> s.log.filename != "")
    && PeriodsConsistent(s.periodic, s.period)
  }

  /** The state before any attribute is read: solver-supplied time step and log file base name. */
  function Initial(autoDt: real, output: Option<string>): (s: Setup)
    ensures Valid(s) && !s.log.enabled && |s.particles| == 0
  {
    var filename := if output.Some? then output.value + LogSuffix else "";
    Setup(autoDt, Zero, 0.0, [], Flags3(false, false, false), Zero, Zero,
          LogSetup(false, filename, 1, false, false))
  }

  // ---------------------------------------------------------------- root

  function RootAttr(s: Setup, a: Attr): (r: Result<Setup, ConfigError>)
    ensures r.Ok? <==> a.name in RootNames
    ensures r.Ok? ==> r.value.particles == s.particles && r.value.log == s.log
                      && r.value.periodic == s.periodic && r.value.period == s.period
  {
    if a.name == "dt" then Ok(s.(dt := a.asDouble))
    else if a.name == "ax" then Ok(s.(acc := s.acc.Set(0, a.asDouble)))
    else if a.name == "ay" then Ok(s.(acc := s.acc.Set(1, a.asDouble)))
    else if a.name == "az" then Ok(s.(acc := s.acc.Set(2, a.asDouble)))
    else if a.name == "afreq" then Ok(s.(afreq := a.asDouble))
    else Err(UnknownAttribute(a.name, RootName))
  }

  function RootAttrs(s: Setup, attrs: seq<Attr>): (r: Result<Setup, ConfigError>)
    requires Valid(s)
    ensures r.Ok? ==> Valid(r.value) && r.value.particles == s.particles && r.value.log == s.log
    ensures r.Ok? <==> forall i :: 0 <= i < |attrs| ==> attrs[i].name in RootNames
    decreases |attrs|
  {
    if |attrs| == 0 then Ok(s)
    else
      match RootAttr(s, attrs[0])
      case Err(e) => Err(e)
      case Ok(s') =>
        var r := RootAttrs(s', attrs[1..]);
        assert forall i :: 1 <= i < |attrs| ==> attrs[i] == attrs[1..][i - 1];
        r
  }

  // ---------------------------------------------------------------- Particle

  function ParticleAttr(p: Particle, a: Attr): (r: Result<Particle, ConfigError>)
    requires |a.name| > 0
  {
    var n := AttrName.Parse(a.name);
    if n.vector == "" then Ok(p.(x := p.x.Set(n.d, a.asDouble)))
    else if n.vector == "v" then Ok(p.(v0 := p.v0.Set(n.d, a.asDouble)))
    else if n.vector == "omega" then Ok(p.(omega0 := p.omega0.Set(n.d, a.asDouble)))
    else if AttrName.Matches(n, "r") then Ok(p.(r := a.asDouble))
    else if AttrName.Matches(n, "m") then Ok(p.(m := a.asDouble))
    else if AttrName.Matches(n, "log") then Ok(p.(logging := a.asBool))
    else if AttrName.Matches(n, "ease-in") then Ok(p.(easeIn := a.asDouble))
    else Err(UnknownAttribute(a.name, "Particle"))
  }

  /** A component name belongs to the components of exactly one stem. */
  lemma ComponentName(stem: string, d: nat, other: string)
    requires d < 3
    ensures stem + [AttrName.Axes[d]] in Components(other) <==> stem == other
  {
    var name := stem + [AttrName.Axes[d]];
    if name in Components(other) {
      assert name[..|name| - 1] == stem;
      var c :| c in {"x", "y", "z"} && name == other + c;
      assert (other + c)[..|other + c| - 1] == other;
    }
  }

  /** A name whose last character is no axis letter is no component name. */
  lemma NotComponent(name: string, other: string)
    requires |name| > 0 && name[|name| - 1] !in AttrName.Axes
    ensures name !in Components(other)
  {
  }

  /** No keyword ends in an axis letter. */
  lemma KeywordsNotComponents(stem: string, d: nat)
    requires d < 3
    ensures stem + [AttrName.Axes[d]] !in ParticleKeywords
  {
    var name := stem + [AttrName.Axes[d]];
    assert name[|name| - 1] in AttrName.Axes;
    assert "log"[2] == 'g' && "ease-in"[6] == 'n';
  }

  /** The dispatch through split names accepts exactly the thirteen Particle names. */
  lemma ParticleAttrAccepts(p: Particle, a: Attr)
    requires |a.name| > 0
    ensures ParticleAttr(p, a).Ok? <==> a.name in ParticleNames
  {
    var n := AttrName.Parse(a.name);
    if n.d != -1 {
      ComponentName(n.vector, n.d, "");
      ComponentName(n.vector, n.d, "v");
      ComponentName(n.vector, n.d, "omega");
      KeywordsNotComponents(n.vector, n.d);
    } else {
      NotComponent(a.name, "");
      NotComponent(a.name, "v");
      NotComponent(a.name, "omega");
    }
  }

  function ParticleAttrs(p: Particle, attrs: seq<Attr>): (r: Result<Particle, ConfigError>)
    requires NamesNonEmpty(attrs)
    decreases |attrs|
  {
    if |attrs| == 0 then Ok(p)
    else
      match ParticleAttr(p, attrs[0])
      case Err(e) => Err(e)
      case Ok(p') => ParticleAttrs(p', attrs[1..])
  }

  /**
   * A Particle element: attributes applied to a fresh particle, radius checked,
   * start velocities chosen by the ramp, index assigned.
   */
  function LoadParticle(attrs: seq<Attr>, index: nat): (r: Result<Particle, ConfigError>)
    requires NamesNonEmpty(attrs)
    ensures var parsed := ParticleAttrs(Fresh, attrs);
            && (parsed.Err? ==> r == Err(parsed.error))
            && (parsed.Ok? ==> (r.Ok? <==> parsed.value.r > 0.0))
    ensures r.Ok? ==> r.value.r > 0.0 && r.value.n == index
    ensures r.Ok? && r.value.easeIn > 0.0 ==> r.value.v == Zero && r.value.omega == Zero
    ensures r.Ok? && r.value.easeIn <= 0.0 ==> r.value.v == r.value.v0 && r.value.omega == r.value.omega0
  {
    match ParticleAttrs(Fresh, attrs)
    case Err(e) => Err(e)
    case Ok(p) =>
      if p.r <= 0.0 then Err(NoRadius)
      else if p.easeIn > 0.0 then Ok(p.(v := Zero, omega := Zero, n := index))
      else Ok(p.(v := p.v0, omega := p.omega0, n := index))
  }

  // ---------------------------------------------------------------- Periodic

  function PeriodicAttr(s: Setup, a: Attr): (r: Result<Setup, ConfigError>)
    requires |a.name| > 0 && Valid(s)
    ensures r.Ok? ==> Valid(r.value) && r.value.particles == s.particles && r.value.log == s.log
  {
    var n := AttrName.Parse(a.name);
    if n.vector == "" then
      PeriodSetConsistent(s.periodic, s.period, n.d, a.asDouble);
      Ok(s.(periodic := s.periodic.Set(n.d, true), period := s.period.Set(n.d, a.asDouble)))
    else if n.vector == "p" then Ok(s.(origin := s.origin.Set(n.d, a.asDouble)))
    else Err(UnknownAttribute(a.name, "Periodic"))
  }

  /** Declaring an axis periodic together with its period keeps the periods consistent. */
  lemma PeriodSetConsistent(periodic: Flags3, period: Vec3, d: nat, v: real)
    requires d < 3 && PeriodsConsistent(periodic, period)
    ensures PeriodsConsistent(periodic.Set(d, true), period.Set(d, v))
  {
  }

  lemma PeriodicAttrAccepts(s: Setup, a: Attr)
    requires |a.name| > 0
    requires Valid(s)
    ensures PeriodicAttr(s, a).Ok? <==> a.name in PeriodicNames
  {
    var n := AttrName.Parse(a.name);
    if n.d != -1 {
      ComponentName(n.vector, n.d, "");
      ComponentName(n.vector, n.d, "p");
    } else {
      NotComponent(a.name, "");
      NotComponent(a.name, "p");
    }
  }

  function PeriodicAttrs(s: Setup, attrs: seq<Attr>): (r: Result<Setup, ConfigError>)
    requires NamesNonEmpty(attrs) && Valid(s)
    ensures r.Ok? ==> Valid(r.value) && r.value.particles == s.particles && r.value.log == s.log
    decreases |attrs|
  {
    if |attrs| == 0 then Ok(s)
    else
      match PeriodicAttr(s, attrs[0])
      case Err(e) => Err(e)
      case Ok(s') => PeriodicAttrs(s', attrs[1..])
  }

  // ---------------------------------------------------------------- Log

  /** One Log attribute. Any attribute, even a rejected one, switches logging on first. */
  function LogAttr(l: LogSetup, a: Attr): (r: Result<LogSetup, ConfigError>)
    ensures r.Ok? <==> a.name in LogNames && (a.name == "Iterations" ==> a.asInt >= 1)
    ensures r.Ok? ==> r.value.enabled
  {
    var l := l.(enabled := true);
    if a.name == "name" then Ok(l.(filename := a.text))
    else if a.name == "Iterations" then
      if a.asInt < 1 then Err(StrideTooSmall(a.name, "Log")) else Ok(l.(stride := a.asInt))
    else if a.name == "average" then Ok(l.(average := a.asBool))
    else if a.name == "rotation" then Ok(l.(rotation := a.asBool))
    else Err(UnknownAttribute(a.name, "Log"))
  }

  function LogAttrs(l: LogSetup, attrs: seq<Attr>): (r: Result<LogSetup, ConfigError>)
    requires l.stride >= 1
    ensures r.Ok? ==> r.value.stride >= 1
    ensures r.Ok? ==> (r.value.enabled <==> l.enabled || |attrs| > 0)
    decreases |attrs|
  {
    if |attrs| == 0 then Ok(l)
    else
      match LogAttr(l, attrs[0])
      case Err(e) => Err(e)
      case Ok(l') => LogAttrs(l', attrs[1..])
  }

  /** A Log element: at most one may switch logging on, and a file name must be known. */
  function LoadLog(l: LogSetup, attrs: seq<Attr>): (r: Result<LogSetup, ConfigError>)
    requires l.stride >= 1
    ensures l.enabled ==> r == Err(DuplicateLog("Log"))
    ensures r.Ok? ==> r.value.stride >= 1 && (r.value.enabled ==> r.value.filename != "")
    ensures r.Ok? ==> (r.value.enabled <==> |attrs| > 0)
  {
    if l.enabled then Err(DuplicateLog("Log"))
    else
      var l' :- LogAttrs(l, attrs);
      if l'.enabled && l'.filename == "" then Err(NoLogFile("Log")) else Ok(l')
  }

  // ---------------------------------------------------------------- children

  function LoadNode(s: Setup, node: Node): (r: Result<Setup, ConfigError>)
    requires NamesNonEmpty(node.attrs) && Valid(s)
    ensures node.name !in {"Particle", "Periodic", "Log"} ==> r == Err(UnknownNode(node.name, RootName))
    ensures r.Ok? ==> Valid(r.value)
    ensures r.Ok? && node.name == "Particle" ==>
              |r.value.particles| == |s.particles| + 1 && r.value.particles[..|s.particles|] == s.particles
    ensures r.Ok? && node.name != "Particle" ==> r.value.particles == s.particles
  {
    if node.name == "Particle" then
      var p :- LoadParticle(node.attrs, |s.particles|);
      Ok(s.(particles := s.particles + [p]))
    else if node.name == "Periodic" then PeriodicAttrs(s, node.attrs)
    else if node.name == "Log" then
      var l :- LoadLog(s.log, node.attrs);
      Ok(s.(log := l))
    else Err(UnknownNode(node.name, RootName))
  }

  /** Number of Particle elements among the children. */
  function ParticleCount(nodes: seq<Node>): nat
  {
    if |nodes| == 0 then 0
    else (if nodes[0].name == "Particle" then 1 else 0) + ParticleCount(nodes[1..])
  }

  function LoadNodes(s: Setup, nodes: seq<Node>): (r: Result<Setup, ConfigError>)
    requires NodesWellFormed(nodes) && Valid(s)
    ensures r.Ok? ==> Valid(r.value)
    ensures r.Ok? ==> |r.value.particles| == |s.particles| + ParticleCount(nodes)
                      && r.value.particles[..|s.particles|] == s.particles
    ensures r.Ok? ==> forall i :: 0 <= i < |nodes| ==> nodes[i].name in {"Particle", "Periodic", "Log"}
    decreases |nodes|
  {
    if |nodes| == 0 then Ok(s)
    else
      match LoadNode(s, nodes[0])
      case Err(e) => Err(e)
      case Ok(s') =>
        assert forall i :: 1 <= i < |nodes| ==> nodes[i] == nodes[1..][i - 1];
        var r := LoadNodes(s', nodes[1..]);
        assert r.Ok? ==> r.value.particles[..|s.particles|] == r.value.particles[..|s'.particles|][..|s.particles|];
        r
  }

  /**
   * The whole configuration: root attributes, then every child in document
   * order, starting from the solver-supplied defaults.
   */
  function LoadConfig(rootAttrs: seq<Attr>, children: seq<Node>, autoDt: real, output: Option<string>)
    : (r: Result<Setup, ConfigError>)
    requires NodesWellFormed(children)
    ensures r.Ok? ==> Valid(r.value)
    ensures r.Ok? ==> (forall i :: 0 <= i < |rootAttrs| ==> rootAttrs[i].name in RootNames)
                      && (forall i :: 0 <= i < |children| ==> children[i].name in {"Particle", "Periodic", "Log"})
  {
    var s :- RootAttrs(Initial(autoDt, output), rootAttrs);
    LoadNodes(s, children)
  }
}

=== FILE: part_log.dfy ===
/**
 * The particle log: a CSV header naming one column triple per logged
 * quantity of each logged particle, one row every `stride` iterations, and
 * optional force averaging over the iterations between two rows.
 */
module PartLog {
  import opened Particles
  import opened PartConfig
  import opened Arith

  // ---------------------------------------------------------------- numbers in column names

  function Digit(d: nat): char
    requires d < 10
  {
    "0123456789"[d]
  }

  /** The decimal spelling of n, as `%ld` prints it. */
  function Decimal(n: nat): (s: string)
    ensures |s| >= 1 && forall i :: 0 <= i < |s| ==> '0' <= s[i] <= '9'
    ensures s[0] == '0' ==> n == 0
  {
    if n < 10 then [Digit(n)] else Decimal(n / 10) + [Digit(n % 10)]
  }

  /** Reads a string of decimal digits back as a number. */
  function DecimalValue(s: string): nat
    requires forall i :: 0 <= i < |s| ==> '0' <= s[i] <= '9'
  {
    if |s| == 0 then 0 else DecimalValue(s[..|s| - 1]) * 10 + (s[|s| - 1] - '0') as nat
  }

  /** Printing a particle index and reading it back gives the index: distinct indices print apart. */
  lemma {:induction false} DecimalRoundTrip(n: nat)
    ensures DecimalValue(Decimal(n)) == n
  {
    var s := Decimal(n);
    if n >= 10 {
      DecimalRoundTrip(n / 10);
      assert s[..|s| - 1] == Decimal(n / 10);
      DigitValue(n % 10);
      assert DecimalValue(s) == n / 10 * 10 + n % 10;
    } else {
      DigitValue(n);
      assert DecimalValue(s) == DecimalValue([]) * 10 + (s[0] - '0') as nat;
    }
  }

  lemma DigitValue(d: nat)
    requires d < 10
    ensures (Digit(d) - '0') as nat == d
  {
  }

  // ---------------------------------------------------------------- header and rows

  /** Position, velocity and force are always logged; angular velocity and torque only with rotation. */
  function Prefixes(rotation: bool): seq<string>
  {
    ["", "v", "f"] + if rotation then ["o", "t"] else []
  }

  /** The three column names `p<n>_<prefix>x`, `..y`, `..z`. */
  function Triple(prefix: string, n: nat): seq<string>
  {
    var stem := "p" + Decimal(n) + "_" + prefix;
    [stem + "x", stem + "y", stem + "z"]
  }

  function TriplesFor(prefixes: seq<string>, n: nat): (cols: seq<string>)
    ensures |cols| == 3 * |prefixes|
  {
    if |prefixes| == 0 then [] else TriplesFor(prefixes[..|prefixes| - 1], n) + Triple(prefixes[|prefixes| - 1], n)
  }

  /** The header columns contributed by the logged particles among ps, in order. */
  function HeaderTail(ps: seq<Particle>, rotation: bool): seq<string>
  {
    if |ps| == 0 then []
    else
      var last := ps[|ps| - 1];
      HeaderTail(ps[..|ps| - 1], rotation) + (if last.logging then TriplesFor(Prefixes(rotation), last.n) else [])
  }

  function Header(ps: seq<Particle>, rotation: bool): seq<string>
  {
    ["Iteration", "Time"] + HeaderTail(ps, rotation)
  }

  function V(a: Vec3): seq<real>
  {
    [a.x, a.y, a.z]
  }

  /** Each component divided by d, as the averaged force is printed. */
  function Div(a: Vec3, d: real): Vec3
    requires d != 0.0
  {
    Vec3(a.x / d, a.y / d, a.z / d)
  }

  /** The logged force: the running sum over the stride divided by the stride, or the current force. */
  function LoggedForce(p: Particle, log: LogSetup): Vec3
    requires log.stride >= 1
  {
    if log.average then Div(p.favg, log.stride as real) else p.f
  }

  /** The cells one particle contributes to a row. */
  function Cells(p: Particle, log: LogSetup): seq<real>
    requires log.stride >= 1
  {
    V(p.x) + V(p.v) + V(LoggedForce(p, log)) + if log.rotation then V(p.omega) + V(p.torque) else []
  }

  function RowTail(ps: seq<Particle>, log: LogSetup): seq<real>
    requires log.stride >= 1
  {
    if |ps| == 0 then []
    else RowTail(ps[..|ps| - 1], log) + (if ps[|ps| - 1].logging then Cells(ps[|ps| - 1], log) else [])
  }

  /** One log row: iteration, time, then the cells of every logged particle. */
  function Row(iter: nat, dt: real, ps: seq<Particle>, log: LogSetup): seq<real>
    requires log.stride >= 1
  {
    [iter as real, dt * iter as real] + RowTail(ps, log)
  }

  /** Number of logged particles. */
  function LoggedCount(ps: seq<Particle>): nat
  {
    if |ps| == 0 then 0 else LoggedCount(ps[..|ps| - 1]) + if ps[|ps| - 1].logging then 1 else 0
  }

  /**
   * Every row has exactly as many cells as the header has columns: three per
   * quantity, three or five quantities per logged particle, plus iteration
   * and time.
   */
  lemma {:induction false} RowMatchesHeader(iter: nat, dt: real, ps: seq<Particle>, log: LogSetup)
    requires log.stride >= 1
    ensures |Row(iter, dt, ps, log)| == |Header(ps, log.rotation)|
    ensures |Header(ps, log.rotation)| == 2 + LoggedCount(ps) * (if log.rotation then 15 else 9)
  {
    TailsMatch(ps, log);
  }

  lemma {:induction false} TailsMatch(ps: seq<Particle>, log: LogSetup)
    requires log.stride >= 1
    ensures |RowTail(ps, log)| == |HeaderTail(ps, log.rotation)| == LoggedCount(ps) * (if log.rotation then 15 else 9)
  {
    if |ps| > 0 {
      TailsMatch(ps[..|ps| - 1], log);
    }
  }

  /** After a row with averaging on, the logged particles' force sums restart from zero. */
  function AfterRow(ps: seq<Particle>, log: LogSetup): (qs: seq<Particle>)
    ensures |qs| == |ps|
    ensures forall i :: 0 <= i < |ps| ==>
      qs[i] == if log.average && ps[i].logging then ps[i].(favg := Zero) else ps[i]
  {
    seq(|ps|, i requires 0 <= i < |ps| => if log.average && ps[i].logging then ps[i].(favg := Zero) else ps[i])
  }

  // ---------------------------------------------------------------- rows over time

  /** A row is written at iteration `iter` exactly when the stride divides it. */
  predicate LogsAt(iter: nat, stride: nat)
    requires stride >= 1
  {
    iter % stride == 0
  }

  /** How many of the iterations 0 .. n-1 write a row. */
  function RowCount(n: nat, stride: nat): nat
    requires stride >= 1
  {
    if n == 0 then 0 else RowCount(n - 1, stride) + if LogsAt(n - 1, stride) then 1 else 0
  }

  /** n iterations write ceil(n / stride) rows. */
  lemma {:induction false} RowCountIsCeiling(n: nat, stride: nat)
    requires stride >= 1
    ensures RowCount(n, stride) == (n + stride - 1) / stride
  {
    if n == 0 {
      DivUnique(stride - 1, stride, 0, stride - 1);
    } else {
      RowCountIsCeiling(n - 1, stride);
      CeilingStep(n - 1, stride);
    }
  }

  /** One more iteration raises the ceiling exactly when it writes a row. */
  lemma CeilingStep(i: nat, stride: nat)
    requires stride >= 1
    ensures (i + stride) / stride == (i + stride - 1) / stride + if LogsAt(i, stride) then 1 else 0
  {
    var q, r := i / stride, i % stride;
    if r == 0 {
      DivUnique(i + stride - 1, stride, q, stride - 1);
      DivUnique(i + stride, stride, q + 1, 0);
    } else {
      DivUnique(i + stride - 1, stride, q + 1, r - 1);
      DivUnique(i + stride, stride, q + 1, r);
    }
  }

  /** The iteration that writes row k. */
  function RowAt(k: nat, stride: nat): nat
  {
    k * stride
  }

  /** The force window row k averages: the stride iterations before it (none for row 0). */
  function Window(fs: seq<Vec3>, stride: nat, k: nat): seq<Vec3>
    requires stride >= 1 && RowAt(k, stride) <= |fs|
  {
    if k == 0 then [] else fs[RowAt(k - 1, stride) .. RowAt(k, stride)]
  }

  /**
   * What row k shows as the force of one particle whose force at iteration i
   * is fs[i]: the current force, or the mean over the window. The mean is
   * formed before the step that adds iteration k*stride's own force, so it
   * covers the stride iterations before the row, and row 0 shows zero.
   */
  function ExpectedForce(fs: seq<Vec3>, stride: nat, average: bool, k: nat): Vec3
    requires stride >= 1 && RowAt(k, stride) < |fs|
  {
    if average then Div(SumVec(Window(fs, stride, k)), stride as real) else fs[RowAt(k, stride)]
  }

  /** The iteration the running sum last restarted at, before iteration i. */
  function LastReset(i: nat, stride: nat, average: bool): nat
    requires stride >= 1
  {
    if average && i > 0 then RowAt((i - 1) / stride, stride) else 0
  }

  /** The state of the main loop before iteration i, as far as one particle's force column goes. */
  predicate Logged(fs: seq<Vec3>, stride: nat, average: bool, i: nat, rows: seq<Vec3>, favg: Vec3)
    requires stride >= 1
  {
    i <= |fs| && |rows| == RowCount(i, stride) && LastReset(i, stride, average) <= i &&
    (forall k :: 0 <= k < |rows| ==> RowAt(k, stride) < i && rows[k] == ExpectedForce(fs, stride, average, k)) &&
    favg == SumVec(fs[LastReset(i, stride, average) .. i])
  }

  /**
   * The force column of one logged particle over a run whose forces are fs:
   * the main loop's logging and accumulation, iteration by iteration.
   */
  method ForceColumn(fs: seq<Vec3>, stride: nat, average: bool) returns (rows: seq<Vec3>)
    requires stride >= 1
    ensures |rows| == RowCount(|fs|, stride) == (|fs| + stride - 1) / stride
    ensures forall k :: 0 <= k < |rows| ==> RowAt(k, stride) < |fs| && rows[k] == ExpectedForce(fs, stride, average, k)
  {
    rows := [];
    var favg := Zero;
    var i := 0;
    LoggedStart(fs, stride, average);
    while i < |fs|
      invariant i <= |fs| && Logged(fs, stride, average, i, rows, favg)
    {
      rows, favg := Iteration(fs, stride, average, i, rows, favg);
      i := i + 1;
    }
    LoggedEnd(fs, stride, average, rows, favg);
  }

  lemma LoggedStart(fs: seq<Vec3>, stride: nat, average: bool)
    requires stride >= 1
    ensures Logged(fs, stride, average, 0, [], Zero)
  {
    assert fs[0..0] == [];
  }

  lemma LoggedEnd(fs: seq<Vec3>, stride: nat, average: bool, rows: seq<Vec3>, favg: Vec3)
    requires stride >= 1 && Logged(fs, stride, average, |fs|, rows, favg)
    ensures |rows| == RowCount(|fs|, stride) == (|fs| + stride - 1) / stride
    ensures forall k :: 0 <= k < |rows| ==> RowAt(k, stride) < |fs| && rows[k] == ExpectedForce(fs, stride, average, k)
  {
    RowCountIsCeiling(|fs|, stride);
  }

  /** One iteration: write a row when the stride divides i (restarting the sum when averaging), then accumulate. */
  method Iteration(fs: seq<Vec3>, stride: nat, average: bool, i: nat, rows: seq<Vec3>, favg: Vec3)
    returns (rows': seq<Vec3>, favg': Vec3)
    requires stride >= 1 && i < |fs| && Logged(fs, stride, average, i, rows, favg)
    ensures Logged(fs, stride, average, i + 1, rows', favg')
  {
    rows', favg' := rows, favg;
    if i % stride == 0 {
      AtRow(i, stride, average);
      rows' := rows' + [if average then Div(favg', stride as real) else fs[i]];
      if average {
        favg' := Zero;
      }
    } else {
      BetweenRows(i, stride, average);
    }
    SliceSnoc(fs, LastReset(i + 1, stride, average), i);
    favg' := Add(favg', fs[i]);
  }

  /** Facts at an iteration that writes a row. */
  lemma AtRow(i: nat, stride: nat, average: bool)
    requires stride >= 1 && i % stride == 0
    ensures RowAt(RowCount(i, stride), stride) == i
    ensures RowCount(i + 1, stride) == RowCount(i, stride) + 1
    ensures average ==> LastReset(i + 1, stride, average) == i
    ensures average && i > 0 ==> LastReset(i, stride, average) == RowAt(RowCount(i, stride) - 1, stride)
  {
    var q := i / stride;
    DivUnique(i, stride, q, 0);
    RowCountIsCeiling(i, stride);
    DivUnique(i + stride - 1, stride, q, stride - 1);
    if i > 0 {
      DivUnique(i - 1, stride, q - 1, stride - 1);
    }
  }

  /** Facts at an iteration that writes no row. */
  lemma BetweenRows(i: nat, stride: nat, average: bool)
    requires stride >= 1 && i % stride != 0
    ensures RowCount(i + 1, stride) == RowCount(i, stride)
    ensures LastReset(i + 1, stride, average) == LastReset(i, stride, average)
  {
    var q := i / stride;
    DivUnique(i, stride, q, i % stride);
    DivUnique(i - 1, stride, q, i % stride - 1);
    RowCountIsCeiling(i, stride);
    RowCountIsCeiling(i + 1, stride);
    DivUnique(i + stride - 1, stride, q + 1, i % stride - 1);
    DivUnique(i + stride, stride, q + 1, i % stride);
  }

  lemma SliceSnoc(fs: seq<Vec3>, a: nat, i: nat)
    requires a <= i < |fs|
    ensures SumVec(fs[a .. i + 1]) == Add(SumVec(fs[a .. i]), fs[i])
  {
    assert fs[a .. i + 1][.. i - a] == fs[a .. i];
  }
}

=== FILE: particles.dfy ===
/** Three-component values and the particle record shared by the coupling program. */
module Particles {

  /** A real 3-vector: positions, velocities, forces. Components 0, 1, 2 are x, y, z. */
  datatype Vec3 = Vec3(x: real, y: real, z: real) {
    function Get(j: nat): real
      requires j < 3
    {
      if j == 0 then x else if j == 1 then y else z
    }

    /** The vector with component j replaced by a. */
    function Set(j: nat, a: real): (t: Vec3)
      requires j < 3
      ensures t.Get(j) == a
      ensures forall k :: 0 <= k < 3 && k != j ==> t.Get(k) == Get(k)
    {
      if j == 0 then Vec3(a, y, z) else if j == 1 then Vec3(x, a, z) else Vec3(x, y, a)
    }
  }

  /** An integer triple: the displacement of a periodic image in whole periods. */
  datatype Offset = Offset(x: int, y: int, z: int) {
    function Get(j: nat): int
      requires j < 3
    {
      if j == 0 then x else if j == 1 then y else z
    }
  }

  /** One flag per axis. */
  datatype Flags3 = Flags3(x: bool, y: bool, z: bool) {
    function Get(j: nat): bool
      requires j < 3
    {
      if j == 0 then x else if j == 1 then y else z
    }

    function Set(j: nat, a: bool): (t: Flags3)
      requires j < 3
      ensures t.Get(j) == a
      ensures forall k :: 0 <= k < 3 && k != j ==> t.Get(k) == Get(k)
    {
      if j == 0 then Flags3(a, y, z) else if j == 1 then Flags3(x, a, z) else Flags3(x, y, a)
    }
  }

  const Zero: Vec3 := Vec3(0.0, 0.0, 0.0)

  function Add(a: Vec3, b: Vec3): Vec3
  {
    Vec3(a.x + b.x, a.y + b.y, a.z + b.z)
  }

  function Scale(a: Vec3, k: real): Vec3
  {
    Vec3(a.x * k, a.y * k, a.z * k)
  }

  /** Sum of a sequence of vectors, accumulated front to back. */
  function SumVec(vs: seq<Vec3>): Vec3
  {
    if |vs| == 0 then Zero else Add(SumVec(vs[..|vs| - 1]), vs[|vs| - 1])
  }

  /**
   * One particle. `v0`/`omega0` are the target velocities reached after the
   * ease-in ramp, `f`/`torque` the accumulators filled by the coupling,
   * `favg` the running force sum for averaged logging, `n` the insertion index.
   */
  datatype Particle = Particle(
    x: Vec3, r: real, m: real,
    v: Vec3, v0: Vec3, f: Vec3, favg: Vec3,
    omega: Vec3, omega0: Vec3, torque: Vec3,
    easeIn: real, n: nat, logging: bool)

  /**
   * A freshly constructed particle: everything zero, no logging. The source's
   * constructor leaves v0 and omega0 unset; they are taken as zero here.
   */
  const Fresh: Particle :=
    Particle(Zero, 0.0, 0.0, Zero, Zero, Zero, Zero, Zero, Zero, Zero, 0.0, 0, false)
}

=== FILE: progress.dfy ===
/**
 * The progress callback the solver calls between iteration segments: it
 * counts the iterations done since the last report, decides whether to
 * report, draws a 20-cell progress bar, splits the elapsed time into
 * seconds, minutes and hours, and chooses how many iterations to run before
 * it reports again.
 *
 * The callback's static variables are an explicit `Clock` record. The GPU
 * event timer becomes the `elapsed` parameter, and the steps-per-frame
 * estimate it derives from that time becomes the `desired` parameter.
 */
module Progress {
  import opened Wrappers
  import opened Arith

  /** Number of cells of the progress bar between its brackets. */
  const BarCells: nat := 20

  /** Milliseconds measured by the event timer; they are never negative. */
  type Millis = r: real | r >= 0.0

  /** Whether cell i of the bar (counted from 1) is drawn filled at `tot` of `seg` iterations. */
  predicate Marked(seg: int, tot: int, i: int)
  {
    i * seg <= tot * BarCells
  }

  function Repeat(c: char, n: nat): (s: seq<char>)
    ensures |s| == n && forall k :: 0 <= k < n ==> s[k] == c
  {
    seq(n, _ => c)
  }

  /** The bar as a whole: an opening bracket, the 20 cells, a closing bracket. */
  function BarOf(seg: int, tot: int): (b: string)
    ensures |b| == BarCells + 2
  {
    ['['] + seq(BarCells, k => if Marked(seg, tot, k + 1) then '=' else ' ') + [']']
  }

  /** Drawing the bar character by character, as the callback fills its buffer. */
  method Bar(seg: int, tot: int) returns (per: string)
    ensures per == BarOf(seg, tot)
  {
    per := ['['];
    var i := 1;
    while i <= BarCells
      invariant 1 <= i <= BarCells + 1 && |per| == i
      invariant per == BarOf(seg, tot)[..i]
    {
      if i * seg <= tot * BarCells {
        per := per + ['='];
      } else {
        per := per + [' '];
      }
      i := i + 1;
    }
    per := per + [']'];
  }

  /** The number of filled cells: the fraction done, scaled to the bar and rounded down, capped at 20. */
  function Filled(seg: int, tot: int): nat
    requires seg > 0 && tot >= 0
  {
    var f := tot * BarCells / seg;
    if f < BarCells then f else BarCells
  }

  /** Cell i is filled exactly when i does not exceed the scaled fraction done. */
  lemma MarkedBelow(seg: int, tot: int, i: nat)
    requires seg > 0 && tot >= 0
    ensures Marked(seg, tot, i) <==> i <= tot * BarCells / seg
  {
    var t: nat := tot * BarCells;
    var q: nat := t / seg;
    assert seg * q <= t < seg * q + seg;
    if i <= q {
      MulMono(seg, i, q);
      assert i * seg == seg * i;
    } else {
      MulMono(seg, q + 1, i);
      assert i * seg == seg * i;
    }
  }

  /** The bar is a run of filled cells followed by a run of empty ones, with Filled telling where the runs meet. */
  lemma BarShape(seg: int, tot: int)
    requires seg > 0 && tot >= 0
    ensures BarOf(seg, tot) ==
      ['['] + Repeat('=', Filled(seg, tot)) + Repeat(' ', BarCells - Filled(seg, tot)) + [']']
  {
    var f := Filled(seg, tot);
    var b := BarOf(seg, tot);
    var e := ['['] + Repeat('=', f) + Repeat(' ', BarCells - f) + [']'];
    assert |e| == |b|;
    forall k | 1 <= k <= BarCells
      ensures b[k] == e[k]
    {
      MarkedBelow(seg, tot, k);
    }
    assert b[0] == e[0] && b[BarCells + 1] == e[BarCells + 1];
  }

  /** More iterations never fill fewer cells. */
  lemma BarMonotone(seg: int, tot: int, tot': int)
    requires seg > 0 && 0 <= tot <= tot'
    ensures Filled(seg, tot) <= Filled(seg, tot')
    ensures forall k :: 0 <= k < |BarOf(seg, tot)| && BarOf(seg, tot)[k] == '=' ==> BarOf(seg, tot')[k] == '='
  {
    MulMono(BarCells, tot, tot');
    assert tot * BarCells <= tot' * BarCells;
    DivMono(tot * BarCells, tot' * BarCells, seg);
  }

  lemma DivMono(a: nat, b: nat, d: nat)
    requires a <= b && d > 0
    ensures a / d <= b / d
  {
    var qb := b / d;
    assert a < d * (qb + 1);
    DivBelow(a, d, qb + 1);
  }

  /** When every iteration is done, every cell is filled. */
  lemma BarFullAtEnd(seg: nat)
    ensures BarOf(seg, seg) == ['['] + Repeat('=', BarCells) + [']']
  {
    var b := BarOf(seg, seg);
    forall k | 1 <= k <= BarCells
      ensures b[k] == '='
    {
      MulMono(seg, k, BarCells);
      assert k * seg == seg * k;
    }
  }

  /** The elapsed time as shown: seconds alone, minutes and seconds, or hours and minutes. */
  datatype Elapsed = Seconds(s: nat) | Minutes(m: nat, s: nat) | Hours(h: nat, m: nat)

  /** Whole seconds of a millisecond count, truncated as the integer conversion does. */
  function WholeSeconds(ms: Millis): nat
  {
    (ms / 1000.0).Floor
  }

  /** The seconds a shown time stands for; the hours form drops the seconds. */
  function Shown(e: Elapsed): nat
  {
    match e
    case Seconds(s) => s
    case Minutes(m, s) => 60 * m + s
    case Hours(h, m) => 3600 * h + 60 * m
  }

  /** Each form is used only in its own range, with every lower unit below 60. */
  predicate Canonical(e: Elapsed)
  {
    match e
    case Seconds(s) => s < 60
    case Minutes(m, s) => 1 <= m < 60 && s < 60
    case Hours(h, m) => 1 <= h && m < 60
  }

  /** Splitting a number of seconds into the shown units. */
  function SplitTime(total: nat): (e: Elapsed)
    ensures Canonical(e)
  {
    if total < 60 then Seconds(total)
    else
      var m := total / 60;
      var s := total - m * 60;
      if m < 60 then Minutes(m, s)
      else
        var h := m / 60;
        Hours(h, m - h * 60)
  }

  /** The split loses nothing below an hour and only the seconds above it. */
  lemma SplitTimeShows(total: nat)
    ensures total < 3600 ==> Shown(SplitTime(total)) == total
    ensures total >= 3600 ==> Shown(SplitTime(total)) == total - total % 60
  {
    if total >= 60 {
      var m := total / 60;
      if m >= 60 {
        var h := m / 60;
        assert 3600 * h + 60 * (m - h * 60) == 60 * m;
        assert m >= 60 ==> total >= 3600;
      } else {
        assert total < 3600;
      }
    }
  }

  /** A canonical form that stands for `total` seconds is the one the split produces. */
  lemma SplitTimeUnique(total: nat, e: Elapsed)
    requires Canonical(e) && !e.Hours? && Shown(e) == total
    ensures SplitTime(total) == e
  {
    if e.Minutes? {
      DivUnique(total, 60, e.m, e.s);
    }
  }

  /** The smallest even count of at least one step that is not below the estimate. */
  function RoundSteps(desired: int): (r: int)
    ensures r >= 1 && r % 2 == 0 && r >= desired
  {
    var s := if desired < 1 then 1 else desired;
    if s % 2 == 1 then s + 1 else s
  }

  /** No even positive count at or above the estimate is smaller than the rounded one. */
  lemma RoundStepsLeast(desired: int, e: int)
    requires e >= 1 && e >= desired && e % 2 == 0
    ensures RoundSteps(desired) <= e
  {
  }

  /** The callback's static state between calls. */
  datatype Clock = Clock(iter: int, lastTot: int, cumTime: Millis, steps: int)

  const Start: Clock := Clock(0, 0, 0.0, 1)

  /** The last segment of the run. */
  predicate Ends(seg: int, tot: int) { tot == seg }

  /**
   * Counting the iterations up to `tot`: a total below the last one seen
   * means the run was restarted, and counting starts again from zero.
   */
  function Tally(c: Clock, tot: int): (d: Clock)
    ensures d.lastTot == tot && d.steps == c.steps && d.cumTime == c.cumTime
    ensures tot >= c.lastTot ==> d.iter - c.iter == tot - c.lastTot
    ensures tot < c.lastTot ==> d.iter - c.iter == tot
  {
    var last := if tot < c.lastTot then 0 else c.lastTot;
    c.(iter := c.iter + tot - last, lastTot := tot)
  }

  /** Totals that never decrease. */
  predicate Ascending(tots: seq<int>)
  {
    forall i :: 0 < i < |tots| ==> tots[i - 1] <= tots[i]
  }

  function TallyAll(c: Clock, tots: seq<int>): Clock
    decreases |tots|
  {
    if |tots| == 0 then c else TallyAll(Tally(c, tots[0]), tots[1..])
  }

  /** Over a run of growing totals, the count grows by exactly the distance covered. */
  lemma {:induction false} TallyTelescopes(c: Clock, tots: seq<int>)
    requires Ascending(tots) && |tots| > 0 && c.lastTot <= tots[0]
    ensures TallyAll(c, tots).iter == c.iter + tots[|tots| - 1] - c.lastTot
    ensures TallyAll(c, tots).lastTot == tots[|tots| - 1]
    decreases |tots|
  {
    if |tots| > 1 {
      var rest := tots[1..];
      assert Ascending(rest);
      TallyTelescopes(Tally(c, tots[0]), rest);
      assert rest[|rest| - 1] == tots[|tots| - 1];
    }
  }

  /** What a report shows: the final line has the bar only, a running line also the elapsed time. */
  datatype Line = Final(bar: string) | Running(bar: string, left: Elapsed)

  datatype Outcome = Outcome(clock: Clock, code: int, line: Option<Line>)

  /** The code for a call that is not yet due to report. */
  const NotDue: int := -1

  /** The code for a call that has counted nothing since the last report. */
  const Nothing: int := -2

  /**
   * One call of the callback on the reporting process: `elapsed` is the time
   * since the last report and `desired` the steps-per-frame estimate.
   */
  function Callback(c: Clock, seg: int, tot: int, elapsed: Millis, desired: int): (o: Outcome)
    ensures o.clock.lastTot == tot
    ensures o.code == NotDue <==> Tally(c, tot).iter < c.steps && !Ends(seg, tot)
    ensures o.code == Nothing <==> !(Tally(c, tot).iter < c.steps && !Ends(seg, tot)) && Tally(c, tot).iter == 0
    ensures o.code < 0 ==> o.clock == Tally(c, tot) && o.line.None?
    ensures o.code >= 0 ==> o.code == RoundSteps(desired) && o.clock.steps == o.code && o.clock.iter == 0
    ensures o.code >= 0 ==> o.line.Some? && o.line.value.bar == BarOf(seg, tot)
    ensures o.code >= 0 && Ends(seg, tot) ==> o.line.value.Final? && o.clock.cumTime == 0.0
    ensures o.code >= 0 && !Ends(seg, tot) ==>
      o.line.value == Running(BarOf(seg, tot), SplitTime(WholeSeconds(c.cumTime + elapsed)))
      && o.clock.cumTime == c.cumTime + elapsed
  {
    var end := Ends(seg, tot);
    var t := Tally(c, tot);
    if t.iter < t.steps && !end then Outcome(t, NotDue, None)
    else if t.iter == 0 then Outcome(t, Nothing, None)
    else
      var cum: Millis := t.cumTime + elapsed;
      var line := if end then Final(BarOf(seg, tot)) else Running(BarOf(seg, tot), SplitTime(WholeSeconds(cum)));
      var steps := RoundSteps(desired);
      Outcome(t.(cumTime := if end then 0.0 else cum, steps := steps, iter := 0), steps, Some(line))
  }

  /** The step count stays positive from the start on, whatever the estimates. */
  predicate Sane(c: Clock)
  {
    c.steps >= 1
  }

  /**
   * Once steps are positive, a call that counted nothing only ever returns
   * the "nothing" code at the end of the run; every other code is a step
   * count of at least two.
   */
  lemma CallbackCodes(c: Clock, seg: int, tot: int, elapsed: Millis, desired: int)
    requires Sane(c)
    ensures Sane(Callback(c, seg, tot, elapsed, desired).clock)
    ensures Callback(c, seg, tot, elapsed, desired).code == Nothing ==> Ends(seg, tot)
    ensures var k := Callback(c, seg, tot, elapsed, desired).code;
      k == NotDue || k == Nothing || k >= 2
  {
  }

  lemma StartSane()
    ensures Sane(Start) && Start.iter == 0 && Start.lastTot == 0
  {
  }
}

=== FILE: r_parameters.dfy ===
/**
 * The scripting view of a handler's optimisation parameters: eight named
 * vectors that can be read, of which only the values can be written.
 */
module RParameters {
  import opened Wrappers

  /** The kinds of vector the handler answers for, in the order the names are listed. */
  datatype Kind = Values | Lower | Upper | Gradient | PosX | PosY | PosZ | Time

  /**
   * The handler's side, which is not part of this model, seen as a table:
   * one vector per kind, all of the handler's parameter count long. Setting
   * replaces the values vector.
   */
  datatype Store = Store(count: nat, table: map<Kind, seq<real>>)

  predicate Valid(st: Store)
  {
    forall k: Kind :: k in st.table && |st.table[k]| == st.count
  }

  /** The name a kind is read under. */
  function NameOf(k: Kind): string
  {
    match k
    case Values => "Values"
    case Lower => "Lower"
    case Upper => "Upper"
    case Gradient => "Gradient"
    case PosX => "X"
    case PosY => "Y"
    case PosZ => "Z"
    case Time => "T"
  }

  /** The listed names, in order. */
  const Names: seq<string> := ["Values", "Lower", "Upper", "Gradient", "X", "Y", "Z", "T"]

  /** The name dispatch of reading: each listed name selects its kind; nothing else is recognised. */
  function KindOf(name: string): (r: Option<Kind>)
    ensures r.Some? ==> NameOf(r.value) == name
  {
    if name == "Values" then Some(Values)
    else if name == "Lower" then Some(Lower)
    else if name == "Upper" then Some(Upper)
    else if name == "Gradient" then Some(Gradient)
    else if name == "X" then Some(PosX)
    else if name == "Y" then Some(PosY)
    else if name == "Z" then Some(PosZ)
    else if name == "T" then Some(Time)
    else None
  }

  datatype ParamError = UnknownParameter | WrongNumber | NotSettable

  /** Reading a vector by name. */
  function Read(st: Store, name: string): (r: Result<seq<real>, ParamError>)
    requires Valid(st)
    ensures r.Ok? ==> |r.value| == st.count
  {
    match KindOf(name)
    case None => Err(UnknownParameter)
    case Some(k) => Ok(st.table[k])
  }

  /**
   * Writing a vector by name: the length is checked first, against the
   * parameter count, and only then the name; only "Values" is settable.
   */
  function Assign(st: Store, name: string, v: seq<real>): (r: Result<Store, ParamError>)
    requires Valid(st)
    ensures r.Ok? ==> Valid(r.value)
  {
    if |v| != st.count then Err(WrongNumber)
    else if name == "Values" then Ok(st.(table := st.table[Values := v]))
    else Err(NotSettable)
  }

  /** Reading succeeds exactly for the eight listed names, and the listed names are distinct. */
  lemma ReadKnowsNames(st: Store, name: string)
    requires Valid(st)
    ensures Read(st, name).Ok? <==> name in Names
    ensures forall i, j :: 0 <= i < j < |Names| ==> Names[i] != Names[j]
  {
  }

  /** Each listed name reads the vector of its own kind. */
  lemma ReadByName(st: Store, k: Kind)
    requires Valid(st)
    ensures Read(st, NameOf(k)) == Ok(st.table[k])
  {
  }

  /** The error cases of writing, with the length check taking precedence over the name. */
  lemma AssignErrors(st: Store, name: string, v: seq<real>)
    requires Valid(st)
    ensures |v| != st.count ==> Assign(st, name, v) == Err(WrongNumber)
    ensures |v| == st.count && name != "Values" ==> Assign(st, name, v) == Err(NotSettable)
    ensures Assign(st, name, v).Ok? <==> |v| == st.count && name == "Values"
  {
  }

  /** Writing the values and reading them back: the values come back, every other vector is unchanged. */
  lemma AssignThenRead(st: Store, v: seq<real>, other: string)
    requires Valid(st) && |v| == st.count
    ensures Assign(st, "Values", v).Ok?
    ensures Read(Assign(st, "Values", v).value, "Values") == Ok(v)
    ensures other != "Values" ==> Read(Assign(st, "Values", v).value, other) == Read(st, other)
  {
  }
}

=== FILE: seqs.dfy ===
/** Small facts about sequences that several loops and inductions share. */
module Seqs {

  /** Concatenation regroups freely. */
  lemma Assoc<T>(a: seq<T>, b: seq<T>, c: seq<T>)
    ensures (a + b) + c == a + (b + c)
  {
  }

  /** A prefix grows by its next element. */
  lemma Extend<T>(pre: seq<T>, s: seq<T>, k: nat)
    requires k < |s|
    ensures pre + s[..k] + [s[k]] == pre + s[..k + 1]
  {
    assert s[..k + 1] == s[..k] + [s[k]];
  }

  /** The prefix of full length is the whole sequence. */
  lemma Whole<T>(s: seq<T>)
    ensures s[..|s|] == s
  {
  }
}

=== FILE: sums.dfy ===
/** Prefix sums of natural counts: the arithmetic behind buffer offsets. */
module Sums {

  /** The sum of a sequence of counts, peeled from the back. */
  function Sum(cs: seq<nat>): nat
  {
    if |cs| == 0 then 0 else Sum(cs[..|cs| - 1]) + cs[|cs| - 1]
  }

  /** Extending a prefix by one element adds exactly that element. */
  lemma SumStep(cs: seq<nat>, i: nat)
    requires i < |cs|
    ensures Sum(cs[..i + 1]) == Sum(cs[..i]) + cs[i]
  {
    assert cs[..i + 1][..i] == cs[..i];
  }

  /** Prefix sums never decrease. */
  lemma {:induction false} SumMonotone(cs: seq<nat>, i: nat, j: nat)
    requires i <= j <= |cs|
    ensures Sum(cs[..i]) <= Sum(cs[..j])
    decreases j - i
  {
    if i < j {
      SumStep(cs, j - 1);
      SumMonotone(cs, i, j - 1);
    }
  }

  /** A position strictly inside block i stays below the start of any later block. */
  lemma BlockBelow(cs: seq<nat>, i: nat, j: nat, k: nat)
    requires i < k <= |cs| && j < cs[i]
    ensures Sum(cs[..i]) + j < Sum(cs[..k])
  {
    SumStep(cs, i);
    SumMonotone(cs, i + 1, k);
  }

  /**
   * Every position below the total lies in exactly one block: this is the
   * surjective half of "consecutive blocks tile [0, Sum)".
   */
  lemma {:induction false} Locate(cs: seq<nat>, s: nat) returns (i: nat, j: nat)
    requires s < Sum(cs)
    ensures i < |cs| && j < cs[i] && s == Sum(cs[..i]) + j
    decreases |cs|
  {
    var n := |cs| - 1;
    assert cs[..n + 1] == cs;
    if s < Sum(cs[..n]) {
      i, j := Locate(cs[..n], s);
      assert cs[..n][..i] == cs[..i];
    } else {
      SumStep(cs, n);
      i, j := n, s - Sum(cs[..n]);
    }
  }

  /** The injective half: two block positions that coincide are the same position. */
  lemma BlocksDisjoint(cs: seq<nat>, i: nat, j: nat, i': nat, j': nat)
    requires i < |cs| && j < cs[i] && i' < |cs| && j' < cs[i']
    requires Sum(cs[..i]) + j == Sum(cs[..i']) + j'
    ensures i == i' && j == j'
  {
    if i < i' {
      BlockBelow(cs, i, j, i');
    } else if i' < i {
      BlockBelow(cs, i', j', i);
    }
  }

  /** Each block ends no later than the total. */
  lemma BlockInside(cs: seq<nat>, i: nat, j: nat)
    requires i < |cs| && j < cs[i]
    ensures Sum(cs[..i]) + j < Sum(cs)
  {
    BlockBelow(cs, i, j, |cs|);
    assert cs[..|cs|] == cs;
  }
}

=== FILE: text_writer.dfy ===
/**
 * The plain-text lattice writer and the per-group byte fields of the VTK
 * writer: values are written one per lattice node, a space after each and a
 * newline after the last node of every row; a node-type group is written as
 * the group's bits of each node's flag word, shifted down to a byte.
 */
module TextWriter {
  import opened Arith
  import opened Bits
  import GeometryFlags
  import opened Seqs

  /** The separator written after element i of a field whose rows hold `stop` elements. */
  function Sep(i: nat, stop: nat): (c: char)
    requires stop > 0
    ensures c == '\n' || c == ' '
  {
    if (i + 1) % stop == 0 then '\n' else ' '
  }

  predicate IsSep(c: char)
  {
    c == ' ' || c == '\n'
  }

  /** A piece of text with no separator in it, as every printed number is. */
  predicate NoSep(t: string)
  {
    forall k :: 0 <= k < |t| ==> !IsSep(t[k])
  }

  /**
   * The text of a field whose first element is element `i0` of the lattice:
   * each element as `show` prints it, followed by its separator.
   */
  function Field<E>(xs: seq<E>, stop: nat, i0: nat, show: E -> string): string
    requires |xs| == 0 || stop > 0
    decreases |xs|
  {
    if |xs| == 0 then [] else show(xs[0]) + [Sep(i0, stop)] + Field(xs[1..], stop, i0 + 1, show)
  }

  /** Writing a field element by element, as the writer's loop does. */
  method WriteField<E>(xs: seq<E>, stop: nat, show: E -> string) returns (out: string)
    requires |xs| == 0 || stop > 0
    ensures out == Field(xs, stop, 0, show)
  {
    out := [];
    var i := 0;
    assert xs[0..] == xs;
    while i < |xs|
      invariant 0 <= i <= |xs|
      invariant out + Field(xs[i..], stop, i, show) == Field(xs, stop, 0, show)
    {
      var piece := show(xs[i]) + [Sep(i, stop)];
      FieldStep(xs, stop, i, show);
      Assoc(out, piece, Field(xs[i + 1..], stop, i + 1, show));
      out := out + piece;
      i := i + 1;
    }
    assert xs[i..] == [];
  }

  /** The field from element i on starts with element i and its separator. */
  lemma FieldStep<E>(xs: seq<E>, stop: nat, i: nat, show: E -> string)
    requires i < |xs| && stop > 0
    ensures Field(xs[i..], stop, i, show) == (show(xs[i]) + [Sep(i, stop)]) + Field(xs[i + 1..], stop, i + 1, show)
  {
    assert xs[i..][1..] == xs[i + 1..];
  }

  /** Occurrences of c in t. */
  function Count(c: char, t: string): nat
  {
    if |t| == 0 then 0 else (if t[0] == c then 1 else 0) + Count(c, t[1..])
  }

  lemma {:induction false} CountAppend(c: char, a: string, b: string)
    ensures Count(c, a + b) == Count(c, a) + Count(c, b)
    decreases |a|
  {
    if |a| > 0 {
      assert (a + b)[0] == a[0] && (a + b)[1..] == a[1..] + b;
      CountAppend(c, a[1..], b);
    } else {
      assert a + b == b;
    }
  }

  lemma {:induction false} CountNoSep(c: char, t: string)
    requires NoSep(t) && IsSep(c)
    ensures Count(c, t) == 0
    decreases |t|
  {
    if |t| > 0 {
      CountNoSep(c, t[1..]);
    }
  }

  /** Element i ends a row exactly when the count of completed rows steps up after it. */
  lemma RowStep(i: nat, stop: nat)
    requires stop > 0
    ensures (i + 1) / stop - i / stop == (if (i + 1) % stop == 0 then 1 else 0)
  {
    var q, r := i / stop, i % stop;
    if r + 1 == stop {
      DivUnique(i + 1, stop, q + 1, 0);
    } else {
      DivUnique(i + 1, stop, q, r + 1);
    }
  }

  /** The newlines of a field are the rows it completes. */
  lemma {:induction false} FieldNewlines<E>(xs: seq<E>, stop: nat, i0: nat, show: E -> string)
    requires stop > 0
    requires forall x :: x in xs ==> NoSep(show(x))
    ensures Count('\n', Field(xs, stop, i0, show)) == (i0 + |xs|) / stop - i0 / stop
    ensures Count(' ', Field(xs, stop, i0, show)) == |xs| - ((i0 + |xs|) / stop - i0 / stop)
    decreases |xs|
  {
    if |xs| > 0 {
      var head := show(xs[0]) + [Sep(i0, stop)];
      var rest := Field(xs[1..], stop, i0 + 1, show);
      assert forall x :: x in xs[1..] ==> x in xs;
      FieldNewlines(xs[1..], stop, i0 + 1, show);
      CountAppend('\n', head, rest);
      CountAppend(' ', head, rest);
      CountAppend('\n', show(xs[0]), [Sep(i0, stop)]);
      CountAppend(' ', show(xs[0]), [Sep(i0, stop)]);
      CountNoSep('\n', show(xs[0]));
      CountNoSep(' ', show(xs[0]));
      RowStep(i0, stop);
    }
  }

  /** A whole field of n elements has n separators, n / stop of them newlines. */
  lemma FieldLayout<E>(xs: seq<E>, stop: nat, show: E -> string)
    requires stop > 0
    requires forall x :: x in xs ==> NoSep(show(x))
    ensures Count('\n', Field(xs, stop, 0, show)) == |xs| / stop
    ensures Count('\n', Field(xs, stop, 0, show)) + Count(' ', Field(xs, stop, 0, show)) == |xs|
  {
    FieldNewlines(xs, stop, 0, show);
  }

  /** The position of the first separator in t. */
  function FirstSep(t: string): (r: nat)
    ensures r <= |t|
    ensures r < |t| ==> IsSep(t[r])
    ensures NoSep(t[..r])
  {
    if |t| == 0 then 0
    else if IsSep(t[0]) then 0
    else assert t[..1 + FirstSep(t[1..])] == [t[0]] + t[1..][..FirstSep(t[1..])]; 1 + FirstSep(t[1..])
  }

  /** Reading a text back: the pieces between separators, each ended by its separator. */
  function Tokens(t: string): seq<string>
    decreases |t|
  {
    if |t| == 0 then []
    else
      var k := FirstSep(t);
      if k == |t| then [t] else [t[..k]] + Tokens(t[k + 1..])
  }

  lemma {:induction false} FirstSepAfter(w: string, c: char, rest: string)
    requires NoSep(w) && IsSep(c)
    ensures FirstSep(w + [c] + rest) == |w|
    decreases |w|
  {
    var t := w + [c] + rest;
    if |w| > 0 {
      assert t[1..] == w[1..] + [c] + rest;
      FirstSepAfter(w[1..], c, rest);
    }
  }

  /** A piece ended by a separator comes off the front as one token. */
  lemma TokensCons(w: string, c: char, rest: string)
    requires NoSep(w) && IsSep(c)
    ensures Tokens(w + [c] + rest) == [w] + Tokens(rest)
  {
    var t := w + [c] + rest;
    FirstSepAfter(w, c, rest);
    assert t[..|w|] == w && t[|w| + 1..] == rest;
  }

  /** Reading a field back gives the printed elements, in order. */
  lemma {:induction false} FieldTokens<E>(xs: seq<E>, stop: nat, i0: nat, show: E -> string)
    requires stop > 0
    requires forall x :: x in xs ==> NoSep(show(x))
    ensures Tokens(Field(xs, stop, i0, show)) == seq(|xs|, k requires 0 <= k < |xs| => show(xs[k]))
    decreases |xs|
  {
    if |xs| > 0 {
      assert forall x :: x in xs[1..] ==> x in xs;
      FieldTokens(xs[1..], stop, i0 + 1, show);
      TokensCons(show(xs[0]), Sep(i0, stop), Field(xs[1..], stop, i0 + 1, show));
    }
  }

  /** A vector element: its three components, separated by single spaces, with nothing after the last. */
  function VectorText(x: real, y: real, z: real, show: real -> string): string
  {
    show(x) + " " + show(y) + " " + show(z)
  }

  /** Read back, a vector element followed by a separator gives its three components. */
  lemma VectorTokens(x: real, y: real, z: real, show: real -> string, c: char)
    requires NoSep(show(x)) && NoSep(show(y)) && NoSep(show(z)) && IsSep(c)
    ensures Tokens(VectorText(x, y, z, show) + [c]) == [show(x), show(y), show(z)]
  {
    var sx, sy, sz := show(x), show(y), show(z);
    assert VectorText(x, y, z, show) + [c] == sx + [' '] + (sy + [' '] + (sz + [c] + []));
    TokensCons(sx, ' ', sy + [' '] + (sz + [c] + []));
    TokensCons(sy, ' ', sz + [c] + []);
    TokensCons(sz, c, []);
  }

  // ---------------------------------------------------------------------
  // Node-type group fields
  // ---------------------------------------------------------------------

  /** The byte written for one node: the group's bits shifted down, truncated to an unsigned char. */
  function GroupByte(n: Word, g: GeometryFlags.Group): (b: nat)
    ensures b < 256
  {
    GeometryFlags.Lowered(And(n, g.flag), g.shift) % 256
  }

  /** The byte is the scripting interface's one-based group value, made zero-based, in a byte. */
  lemma GroupByteDecodes(n: Word, g: GeometryFlags.Group)
    ensures GroupByte(n, g) == (GeometryFlags.Decode(n, g) - 1) % 256
  {
  }

  /** After a group value v that fits is assigned, the written byte is v - 1 (when that fits a byte). */
  lemma AssignThenByte(n: Word, g: GeometryFlags.Group, v: int)
    requires GeometryFlags.Fits(v, g) && v <= 256
    ensures GroupByte(GeometryFlags.AssignWord(n, g, v), g) == v - 1
  {
    GeometryFlags.AssignDecodes(n, g, v);
  }

  /** The group field of a region: one byte per node. */
  function GroupField(ns: seq<Word>, g: GeometryFlags.Group): (r: seq<nat>)
    ensures |r| == |ns| && forall i :: 0 <= i < |ns| ==> r[i] == GroupByte(ns[i], g)
  {
    seq(|ns|, i requires 0 <= i < |ns| => GroupByte(ns[i], g))
  }

  /** A node-type group of the model, with whether it is saved by default. */
  datatype SavedGroup = SavedGroup(group: GeometryFlags.Group, isSave: bool)

  /** The requested fields: everything saved by default, or the names listed explicitly. */
  datatype Request = Request(all: bool, explicit: set<string>)

  /** A group is written when everything is requested and it is saved by default, or when it is named. */
  predicate Selected(what: Request, sg: SavedGroup)
  {
    (what.all && sg.isSave) || sg.group.name in what.explicit
  }

  /** A written field: the raw flag words, or one group's bytes. */
  datatype Written = RawFlags(words: seq<Word>) | Bytes(name: string, values: seq<nat>)

  /** The node-type fields of one region, in the order they are written. */
  function NodeFields(what: Request, groups: seq<SavedGroup>, ns: seq<Word>): (r: seq<Written>)
    ensures "flag" in what.explicit <==> |r| > 0 && r[0] == RawFlags(ns)
    ensures forall w :: w in r && w.Bytes? ==>
      exists sg :: sg in groups && Selected(what, sg) && w == Bytes(sg.group.name, GroupField(ns, sg.group))
  {
    var gs := GroupFields(what, groups, ns);
    assert |gs| > 0 ==> gs[0] in gs;
    (if "flag" in what.explicit then [RawFlags(ns)] else []) + gs
  }

  function GroupFields(what: Request, groups: seq<SavedGroup>, ns: seq<Word>): (r: seq<Written>)
    ensures forall w :: w in r ==> (w.Bytes? &&
      exists sg :: sg in groups && Selected(what, sg) && w == Bytes(sg.group.name, GroupField(ns, sg.group)))
  {
    if |groups| == 0 then []
    else
      var sg := groups[0];
      assert forall x :: x in groups[1..] ==> x in groups;
      (if Selected(what, sg) then [Bytes(sg.group.name, GroupField(ns, sg.group))] else [])
        + GroupFields(what, groups[1..], ns)
  }

  /** Every selected group is written, and nothing is written for a group that is not selected. */
  lemma {:induction false} GroupFieldsComplete(what: Request, groups: seq<SavedGroup>, ns: seq<Word>, sg: SavedGroup)
    requires sg in groups
    ensures Selected(what, sg) ==> Bytes(sg.group.name, GroupField(ns, sg.group)) in GroupFields(what, groups, ns)
    decreases |groups|
  {
    if groups[0] != sg {
      assert sg in groups[1..];
      GroupFieldsComplete(what, groups[1..], ns, sg);
    }
  }

  /** Without explicit names, the raw flags are not written and the written groups are exactly the saved ones. */
  lemma DefaultRequest(groups: seq<SavedGroup>, ns: seq<Word>, sg: SavedGroup)
    requires sg in groups
    ensures forall w :: w in NodeFields(Request(true, {}), groups, ns) ==> w.Bytes?
    ensures sg.isSave ==> Bytes(sg.group.name, GroupField(ns, sg.group)) in NodeFields(Request(true, {}), groups, ns)
  {
    GroupFieldsComplete(Request(true, {}), groups, ns, sg);
  }
}

=== FILE: wrappers.dfy ===
/** Failure-carrying results shared by every component of the model. */
module Wrappers {

  /** A value that may be absent (an unset XML attribute, an NA entry). */
  datatype Option<+T> = None | Some(value: T)

  /** The outcome of an operation that the source aborts with a diagnostic. */
  datatype Result<+T, +E> = Ok(value: T) | Err(error: E) {
    predicate IsFailure() {
      Err?
    }

    function PropagateFailure<U>(): Result<U, E>
      requires Err?
    {
      Err(error)
    }

    function Extract(): T
      requires Ok?
    {
      value
    }
  }
}
